=== FILE: README.md ===
# OpenDUNE core logic in Dafny

This project models the self-contained logic at the heart of OpenDUNE, the
open re-implementation of Dune II, and proves properties of it. The modelled
parts are:

- the string codec of the language files: the digram decompressor, the `0x1B`
  escape translator, trimming, boolean parsing, and how `String_Load` fills
  the string slots;
- the two 256-slot ring buffers: the keyboard/mouse history and the narrator
  voice queue. The key map of held keys is modelled too;
- the sound layer's own rules: the voice queue and how a voice request fills
  and drains it, the eight-tick replay throttle, the distance-to-volume
  formula, the sample-set prefix letters, and random music-group selection;
- the options file: clamped integers, window mode and graphics driver in both
  directions, and the per-type load and save passes;
- the `max`/`min`/`clamp` macros;
- the scenario record decoders: object and unit flag words, the house
  `Brain` entry, the player's unit limit, map tile entries, and the
  comma-separated unit and reinforcement records;
- the mentat screens:
  - the in-place text splitter and the sprite table;
  - mentat selection by name, face coordinates and background;
  - the help-subject record walk;
  - the briefing and help state machine that pages through the mentat's text;
- the constant house tables and the six-to-three house remap.

Text is modelled as `seq<Byte>`, where a `Byte` is an integer in 0..255. A
C string is its content up to the first NUL. A NULL pointer is `None`.

Some answers come from code outside the model, and each is a parameter:

- the clock, the random generator and the audio backend;
- font widths;
- the name-to-type tables;
- the values of scancode and music-id constants defined in headers that are
  not part of this model.

Fixed-width C arithmetic is written out where it matters:

- the `uint8` unit-limit subtraction;
- the 16-bit stores of the scenario loaders;
- `(int8)(uint8)` orientation;
- the `+ 0x7F` of the escape translator.

Modules, one per file:

| module | file | models |
|---|---|---|
| `Wrappers` | wrappers.dfy | `Option` |
| `Seqs` | seqs.dfy | associativity of concatenation |
| `CString` | cstring.dfy | C strings, `isspace`, `stricmp`, `strchr`, `atoi`, `%d` |
| `Bits` | bits.dfy | binary digits of a number, as a bridge for bit masks |
| `OsMath` | math.dfy | `src/os/math.h` |
| `RingBuffer` | ring.dfy | the 256-slot queue shared by input and audio |
| `Input` | input.dfy | `src/input/input_dd.cpp` |
| `Houses` | houses.dfy | `src/table/houseinfo.cpp` |
| `Audio` | audio.dfy | `src/audio/audio.cpp` |
| `StringTable` | string_table.dfy | `src/string.cpp` |
| `Config` | config.dfy | `src/config_a5.cpp` |
| `Scenario` | scenario.dfy | `src/scenario.cpp` |
| `MentatGui` | mentat_gui.dfy | `src/gui/mentat.cpp` |
| `MentatUi` | mentat_ui.dfy | `src/newui/mentatnewui.cpp` |

## Model

| member | source | states |
|---|---|---|
| StringTable.Expand | src/string.cpp:40-50 | a byte below 0x80 is copied; a high byte becomes table[(c & 0x7F) >> 3] then table[(c & 0x7F) + 16], both inside the 144-entry table; only NUL yields NUL |
| StringTable.DecompressTableAlphabet | src/string.cpp:24 | the decompression table holds only lower-case letters, spaces, commas and full stops, so it never supplies a NUL or a high byte |
| StringTable.Decompress | src/string.cpp:33-53 | output length is input length plus the number of high bytes, so between n and 2n; no NUL is introduced; a text without high bytes is unchanged |
| StringTable.DecompressAppend | src/string.cpp:40-50 | decompression distributes over concatenation (it works byte by byte) |
| StringTable.DecompressInto | src/string.cpp:33-53 | the loop writes exactly the decompressed content and then a NUL at dest[count]; count is the number of characters before it, with no earlier NUL, and lies between n and 2n |
| StringTable.Extended | src/string.cpp:99-102 | `0x1B b` stands for 0x7F + b in 8 bits: 0x7F + b for b up to 0x80, b - 0x81 above |
| StringTable.TranslateSpecial | src/string.cpp:96-105 | output length is input length minus the number of escapes; a text without 0x1B is unchanged; an escape must not be the last byte |
| StringTable.TranslateAppend | src/string.cpp:96-105 | translation distributes over concatenation of pieces whose escapes are complete |
| StringTable.TranslateSpecialInPlace | src/string.cpp:91-106 | translating a buffer onto itself, as String_Load does, leaves the translation of the original content followed by NUL: the write cursor never overtakes the read cursor |
| StringTable.TranslateSpecialCall | src/string.cpp:93-94 | a NULL source or destination leaves the destination untouched |
| StringTable.Trim | src/string.cpp:245-253 | the result is a prefix of the input, does not end in whitespace, and only whitespace was removed |
| StringTable.TrimIdempotent | src/string.cpp:245-253 | trimming twice is trimming once |
| StringTable.TrimKeepsText | src/string.cpp:245-253 | every non-space byte, and everything before it, survives trimming |
| StringTable.GetBool | src/string.cpp:255-266 | first character 1/t/T/y/Y gives true, 0/f/F/n/N gives false; NULL, an empty string or any other first character keeps the old value |
| StringTable.FillSlotsAsWritten | src/string.cpp:146-173 | the slot-fill loop as written: a slot changes only if it lies in [start, end] and was empty or overridable, and then it holds a non-empty entry of the file |
| StringTable.OverridableSlotReplaced | src/string.cpp:108-118 | a filled first slot is replaced by the first entry exactly when its id is overridable (CARRYALL..SELECT_YOUR_NEXT_REGION, PICK_ANOTHER_HOUSE, ARE_YOU_SURE_NEW_HOUSE), and kept otherwise |
| StringTable.FillSlotsAsWrittenStuck | src/string.cpp:146-149 | as written, once the slot index reaches a filled slot that may not be overridden, no later slot changes |
| StringTable.FillSlotsAsWrittenAgrees | src/string.cpp:146-173 | when every slot in [start, end] is writable, the loop as written fills exactly as the corrected one |
| StringTable.FillSlotsAsWrittenStallsOnProtectedSlot | src/string.cpp:146-173 | as written, the loop stalls on a protected filled slot: the writable slot after it stays empty although an entry is left for it |
| StringTable.FillSlots | src/string.cpp:146-173 | corrected slot fill: a slot changes only if it lies in [start, end], was empty or overridable, and receives a non-empty string |
| StringTable.FillSlotsPlacesEntries | src/string.cpp:146-173 | with no empty entries, the corrected loop puts entry i in slot start + i whenever that slot is in range and writable |
| StringTable.DecodeEntry | src/string.cpp:151-169 | a stored entry has been decompressed and translated if compressed, cut at its NUL and trimmed: it holds no NUL and no trailing whitespace |
| StringTable.GrowSlots | src/string.cpp:132-144 | the table grows to end + 1 slots with the new slots NULL, the old ones kept, and slot 0 made the empty string if it was NULL |
| StringTable.StringLoad | src/string.cpp:120-176 | `end < 0` means start + count - 1; the table grows to at least end + 1 slots and slot 0 is never left NULL by growing; every other slot, old or added by the load, keeps what it held before (NULL for an added one) unless it lies in [start, end], was empty or overridable, and now holds a non-empty decoded entry of the file |
| StringTable.StringLoadPlacesEntry | src/string.cpp:120-176 | when no entry trims to nothing and the slots from start on are writable, entry i of the file ends up in slot start + i |
| StringTable.LoadGameFallback | src/string.cpp:213-229 | a missing or all-space "load game" string becomes a copy of "load a game"; otherwise nothing changes, and no other slot changes |
| RingBuffer.Next | src/input/input_dd.cpp:31 | `(i + 1) & 0xFF` on a slot index: the successor, wrapping from 255 to 0 |
| RingBuffer.EmptyRing | src/input/input_dd.cpp:8-10 | a queue with head == tail holds nothing |
| RingBuffer.Push | src/input/input_dd.cpp:29-40 | a push succeeds exactly when fewer than 255 entries are queued, and then appends; a refused push changes nothing |
| RingBuffer.PushContents | src/input/input_dd.cpp:29-40 | writing at tail and advancing tail adds the entry at the end of the queued contents |
| RingBuffer.Pop | src/input/input_dd.cpp:87-94 | taking at head returns the oldest entry and leaves the rest in order |
| RingBuffer.ClearToHead | src/input/input_dd.cpp:24-27 | tail = head empties the queue |
| RingBuffer.ClearToTail | src/audio/audio.cpp:375-379 | head = tail empties the queue |
| RingBuffer.PushPopFifo | src/input/input_dd.cpp:29-94 | push then pop gives the same entry and remainder as pop then push: first in, first out |
| Input.KeyIndex | src/input/input_dd.cpp:44 | the key map byte `(key & 0x7F) >> 3` lies within the 16-byte map |
| Input.SameKeySameBit | src/input/input_dd.cpp:44-45 | two scancodes share a map bit exactly when their low seven bits agree |
| Input.Init | src/input/input_dd.cpp:19-22 | after Input_Init no key tests as held, and the history is kept |
| Input.HistoryClear | src/input/input_dd.cpp:24-27 | the history is emptied and the key map kept |
| Input.AddHistory | src/input/input_dd.cpp:29-40 | the key is stored without its extended flag unless 255 keys are queued; a full history is left unchanged |
| Input.UpdateKeys | src/input/input_dd.cpp:50-57 | only the map byte that holds the key changes |
| Input.EventHandler | src/input/input_dd.cpp:42-60 | key 0 changes nothing; any other key updates the map and is then offered to the history, so a full history does not stop the map update |
| Input.MapUpdateBit | src/input/input_dd.cpp:50-57 | setting or clearing a bit affects exactly that bit of the map |
| Input.UpdateKeysHeld | src/input/input_dd.cpp:50-57 | after an update, a key is held exactly when the event was a press of it, or the event concerned another key and it was held |
| Input.EventTest | src/input/input_dd.cpp:42-68 | Input_Test after an event: held exactly when pressed by it, or untouched by it and held before |
| Input.Test | src/input/input_dd.cpp:62-68 | a key tests as held exactly when the map bit of its low seven bits is set |
| Input.IsInputAvailable | src/input/input_dd.cpp:70-73 | `head ^ tail` is non-zero exactly when events are queued |
| Input.PeekNextKey | src/input/input_dd.cpp:75-85 | the oldest queued key without consuming it, or SCANCODE_NONE when empty |
| Input.GetNextKey | src/input/input_dd.cpp:87-94 | returns the oldest key, removes it and keeps the key map |
| Input.HeldUntilReleased | src/input/input_dd.cpp:42-68 | a held key stays held through any run of events that does not release it |
| Audio.QueueVoice | src/audio/audio.cpp:358-368 | a sample is queued unless 255 are waiting; a refused one changes nothing |
| Audio.ValidPrefix | src/audio/audio.cpp:386-391 | the parts before the first SAMPLE_INVALID |
| Audio.EnqueueParts | src/audio/audio.cpp:384-395 | the parts are queued in order, stopping at the first SAMPLE_INVALID or the first part that does not fit |
| Audio.Enqueued | src/audio/audio.cpp:386-395 | the number of parts queued never exceeds the parts before the first SAMPLE_INVALID |
| Audio.Poll | src/audio/audio.cpp:407-425 | sound off: not playing, queue untouched; narrator busy: playing, queue untouched; otherwise the head sample is tried and dequeued exactly when it starts |
| Audio.PlayVoice | src/audio/audio.cpp:370-405 | VOICE_INVALID does nothing; VOICE_STOP empties the queue; with sound off nothing is queued; otherwise the parts are queued and one poll may take the head; the subtitle is set for four ticks exactly when subtitles are on |
| Audio.PlaySample | src/audio/audio.cpp:290-303 | plays exactly when audio and sound are on, the sample is valid and more than 8 ticks have passed; only then is its last-played tick updated, and no other sample's tick changes |
| Audio.ThrottledRun | src/audio/audio.cpp:298-302 | in any run of requests, two plays of the same sample are more than 8 ticks apart |
| Audio.PlaysAfter | src/audio/audio.cpp:298-302 | once a sample's last-played tick is at least f, its next play happens after f + 8 |
| Audio.DistanceVolume | src/audio/audio.cpp:328-332 | distance is capped at 64 and the volume is 255 - d*255/80, so it lies in [51, 255]: 255 at distance 0 and 51 from 64 on |
| Audio.VolumeNonIncreasing | src/audio/audio.cpp:328-332 | a sound further away is never louder |
| Audio.TileVolume | src/audio/audio.cpp:316-334 | full volume when either coordinate is 0, otherwise the distance volume |
| Audio.PlaySoundAtTile | src/audio/audio.cpp:305-337 | SOUND_INVALID and a sound mapped to no sample play nothing and change nothing; otherwise the replay throttle decides, a play records the tick of that sample only, and nothing changes without a play; the volume asked for is 255 for a position with a zero coordinate and the distance volume otherwise |
| Audio.SoundAtTileIsSamplePlay | src/audio/audio.cpp:305-336 | a mapped sound changes the throttle state exactly as a direct Audio_PlaySample of its sample does, whatever its position |
| Audio.SamplePrefix | src/audio/audio.cpp:170-191 | the file-name letter of a voice set is one of H, A, O, M and Z, and Z for the invalid set |
| Audio.SamplePrefixInjective | src/audio/audio.cpp:170-191 | distinct voice sets have distinct prefixes |
| Audio.SamplePrefixMatchesHouse | src/table/houseinfo.cpp:13-146 | every house's voice set has the same letter as the house's prefix character |
| Audio.Group | src/audio/audio.cpp:68-80 | a music id other than the two random groups stands for itself |
| Audio.PlayMusicFile | src/audio/audio.cpp:92-104 | with audio off nothing changes; otherwise the track plays, becomes the current one and is named in the message |
| Audio.PlayMusicGroup | src/audio/audio.cpp:54-90 | the music is stopped first in every case; MUSIC_STOP also forgets the current track and clears the message; audio or music off or MUSIC_INVALID leaves only that stop; otherwise a track plays exactly then, a random group's in [start, end) and never end, any other id itself |
| Audio.ReplayMusic | src/audio/audio.cpp:92-123 | with no current track, or with audio off, nothing changes; with audio on the current track plays again, stays current and is named in the message |
| Audio.ReplayPlaysChosenTrack | src/audio/audio.cpp:54-123 | replaying after a request that started a track restarts that same track; after MUSIC_STOP nothing plays |
| OsMath.Max | src/os/math.h:9 | the larger argument, and one of the two |
| OsMath.Min | src/os/math.h:13 | the smaller argument, and one of the two |
| OsMath.Clamp | src/os/math.h:17 | for a <= c the result is in [a, c] and is b when b is in range, else the nearer bound; for a > c it is c |
| OsMath.ClampIdempotent | src/os/math.h:17 | clamping twice into the same range is clamping once |
| CString.SkipSpace | src/newui/mentatnewui.cpp:161-162 | strips exactly the leading whitespace |
| CString.SplitComma | src/scenario.cpp:239-242 | strchr and cut at the first comma: the field before it and the rest, or nothing without a comma |
| CString.SplitCommaJoin | src/scenario.cpp:239-250 | a comma-free field, a comma and a rest split back into that field and rest |
| CString.AtoiItoa | src/config_a5.cpp:196-207 | the text `%d` writes for any int reads back with atoi as that int |
| CString.AtoiDigitsThen | src/scenario.cpp:546 | atoi reads a run of digits and stops at the first non-digit |
| Config.GetInt | src/config_a5.cpp:196-199 | atoi's value forced into [lo, hi]: kept when inside, the nearer bound otherwise |
| Config.WindowScanSpec | src/config_a5.cpp:227-239 | the scan finds a window request exactly when a w or W comes before the first # or ; |
| Config.ParseWindowMode | src/config_a5.cpp:209-241 | a value not starting with f/F is windowed; f/F gives fullscreen-window exactly when a w/W precedes any comment character, fullscreen otherwise |
| Config.WindowModeText | src/config_a5.cpp:243-253 | an out-of-range mode is written as "windowed" |
| Config.WindowModeRoundTrip | src/config_a5.cpp:209-253 | reading back a saved mode gives that mode, or windowed for an out-of-range value |
| Config.ParseDriver | src/config_a5.cpp:170-177 | Direct3D exactly when the value starts with D or d, OpenGL otherwise |
| Config.DriverText | src/config_a5.cpp:179-194 | a driver is saved as "direct3d" or "opengl", and the text starts with D or d exactly for Direct3D |
| Config.DriverRoundTrip | src/config_a5.cpp:170-194 | saving a driver and parsing the text gives the driver back |
| Config.KeysDistinct | src/config_a5.cpp:67-100 | no two options share a key |
| Config.LoadOption | src/config_a5.cpp:304-349 | each option kind is read from the value up to its first NUL, as the switch does: bools by String_GetBool keeping the old value on an unknown word, ints clamped to [0, INT_MAX], [0, 4] or [1, 16], driver and window mode by their parsers, strings as a prefix of the text cut to 1023 bytes; the value stays in its kind's range |
| Config.Load | src/config_a5.cpp:290-354 | with no file nothing changes; an option whose key is absent keeps its value, a present one is read by its kind |
| Config.SaveFromKeeps | src/config_a5.cpp:367-405 | a place in the file no remaining option writes keeps what it held |
| Config.SaveFromWrites | src/config_a5.cpp:367-405 | every remaining option but the aspect one is stored under its own key with its kind's text |
| Config.Save | src/config_a5.cpp:356-405 | every option but the aspect option is written under its own key as its kind's text, whether or not a file existed |
| Config.SaveKeepsOthers | src/config_a5.cpp:356-405 | every section and key of the loaded file that no option but the aspect option lives at keeps its presence and text |
| Config.SaveSkipsAspect | src/config_a5.cpp:401-403 | the aspect option's place in the file is left as it was |
| Config.LoadOptionOfSaveText | src/config_a5.cpp:304-399 | every value of a kind this model interprets reads back from its saved text |
| Config.SaveLoadRoundTrip | src/config_a5.cpp:290-405 | saving the options and loading the file restores every interpreted option, whatever the values before the load |
| Houses.HouseFromIndex | src/table/houseinfo.cpp:13-146 | the house with a given table index |
| Houses.IndexRoundTrip | src/table/houseinfo.cpp:13-146 | a house's index leads back to the house |
| Houses.MinimapColour | src/table/houseinfo.cpp:148-156 | house h gets palette entry 144 + 16h |
| Houses.Remap6to3 | src/table/houseinfo.cpp:161-165 | every house maps to Harkonnen, Atreides or Ordos, and those three map to themselves |
| Houses.RemapIdempotent | src/table/houseinfo.cpp:161-165 | remapping twice is remapping once |
| Houses.PresentationFollowsRemap | src/table/houseinfo.cpp:13-165 | prefix letter, mentat, voice set, music and the three picture sets equal those of the remapped house, and the picture-set numbers are its index |
| Houses.MusicNamesRemappedHouse | src/table/houseinfo.cpp:13-165 | the win, lose and briefing music is that of the remapped house |
| Houses.SuperWeaponConsistent | src/table/houseinfo.cpp:6-146 | the special-weapon data matches its kind; Fremen reinforcements are owned by the Fremen and a house's saboteur is its own |
| Houses.SpriteColourIsIndex | src/table/houseinfo.cpp:13-146 | each house's sprite colour is its own index |
| Scenario.ObjectInfoFlagsToUint16 | src/scenario.cpp:38-72 | a 16-bit word from which all 13 flags read back, with bits 2, 14 and 15 clear |
| Scenario.ObjectFlagsWordRoundTrip | src/scenario.cpp:38-72 | every word with those bits clear is the encoding of the flags it carries |
| Scenario.UnitInfoFlagsToUint16 | src/scenario.cpp:74-110 | a 16-bit word from which all 13 flags read back, with bits 0, 8 and 9 clear |
| Scenario.UnitFlagsWordRoundTrip | src/scenario.cpp:74-110 | every word with those bits clear is the encoding of the flags it carries |
| Scenario.ToInt8 | src/scenario.cpp:289 | `(int8)(uint8)n` is in [-128, 128) and agrees with n modulo 256 |
| Scenario.ParseBrain | src/scenario.cpp:141-156 | after upper-casing a-z, the brain is HUMAN, CPU_ALLY or CPU_ENEMY exactly when the text equals that name |
| Scenario.LoadHouse | src/scenario.cpp:133-166 | a house is set up exactly when its Brain entry names a known brain, and then with that brain; credits, quota and MaxUnit are stored in 16 bits, MaxUnit 39 when missing |
| Scenario.SubtractLimits | src/scenario.cpp:212-219 | the `uint8` subtraction loop stays a byte |
| Scenario.SubtractLimitsIsModSum | src/scenario.cpp:212-219 | subtracting limit by limit in 8 bits is subtracting their sum modulo 256 |
| Scenario.ComputerLimits | src/scenario.cpp:213-218 | the limits of the created houses other than the human one |
| Scenario.PlayerUnitLimit | src/scenario.cpp:199-222 | a player limit of 0 becomes (80 - sum of computer limits) mod 256, exactly 80 minus the sum when that is not negative; any other limit is kept |
| Scenario.DecodeTileStatus | src/scenario.cpp:440-446 | the house is value & 7, and re-encoding the status gives the low byte of the value |
| Scenario.TileStatusRoundTrip | src/scenario.cpp:440-446 | decoding an encoded status gives every field back |
| Scenario.GroundSprite | src/scenario.cpp:449 | the ground sprite is the value's low nine bits |
| Scenario.NextToken | src/scenario.cpp:439-448 | strtok with ",\r\n": a non-empty token free of delimiters, or nothing when only delimiters are left |
| Scenario.LoadMapEntry | src/scenario.cpp:422-455 | keys not starting with C are ignored; a decoded entry has house < 8 and sprite < 512 |
| Scenario.LoadMapEntryOfTokens | src/scenario.cpp:430-450 | for a C key, two digit tokens give the status decoded from the first number and the low nine bits of the second |
| Scenario.LoadMapEntryOfFields | src/scenario.cpp:430-450 | an encoded tile status and a sprite number written as text read back as that status and the sprite modulo 512 |
| Scenario.SplitFields | src/scenario.cpp:239-292 | n comma-ended fields and the rest, joining back to the text; nothing when there are fewer than n commas |
| Scenario.SplitJoinedFields | src/scenario.cpp:239-292 | comma-free fields joined with commas split back into the same fields |
| Scenario.LoadUnit | src/scenario.cpp:228-298 | fewer than five commas give no unit; hitpoints and position are 16-bit and orientation int8 |
| Scenario.LoadUnitOfFields | src/scenario.cpp:228-298 | a record written field by field reads back as those fields |
| Scenario.LoadUnitNeedsNames | src/scenario.cpp:244-295 | a unit is created only when its house, type and action names are known |
| Scenario.LocationId | src/scenario.cpp:525-542 | the number of the location name equal ignoring case, or nothing when none matches |
| Scenario.LocationNamesRead | src/scenario.cpp:525-540 | NORTH..HOMEBASE read as 0..7 |
| Scenario.LocationNamesDistinct | src/scenario.cpp:525-540 | no two location names are equal ignoring case |
| Scenario.DelayTicks | src/scenario.cpp:546 | timeBetween = atoi * 6 + 1 in 16 bits |
| Scenario.LoadReinforcement | src/scenario.cpp:480-550 | fewer than three commas give nothing; index is 8-bit, location < 8, timeBetween 16-bit |
| Scenario.LoadReinforcementOfFields | src/scenario.cpp:480-550 | a record written field by field reads back as those fields |
| Scenario.ReinforcementDelay | src/scenario.cpp:524-547 | a delay of n followed by '+' gives timeBetween n*6+1 with repeat set, at any location |
| Scenario.Repeats | src/scenario.cpp:547 | repeat is set exactly when the delay field ends in '+' |
| Scenario.RepeatedDelay | src/scenario.cpp:546-547 | a delay field "n+" means n*6+1 ticks and repeat; "n" alone does not repeat |
| MentatGui.SetSprites | src/gui/mentat.cpp:36-54 | three rows of five slots: slot [2][4] stays NULL, every other slot holds a sprite from the mentat's own block of 15 starting at 387 + 15m |
| MentatGui.SpritesDistinct | src/gui/mentat.cpp:36-54 | no sprite appears in two slots, for one mentat or two |
| MentatGui.RowScan | src/gui/mentat.cpp:398-403 | a row that stops short of the width limit stops at a sentence end, a carriage return or the end |
| MentatGui.BackToSpace | src/gui/mentat.cpp:405-409 | the last space in the row at or before the cursor, or none |
| MentatGui.SkipSeparators | src/gui/mentat.cpp:415-416 | skips exactly the spaces, sentence ends and carriage returns that follow |
| MentatGui.RowEnd | src/gui/mentat.cpp:398-409 | a row ends at a space, a sentence end, a carriage return or the text's end, not before its start |
| MentatGui.SplitLoop | src/gui/mentat.cpp:396-433 | the loop writes the layout: CR only over the space where a row had to be broken, NUL only over the last separator after a row that ends on a sentence end or CR or is the chunk's third, at most two CRs per chunk, every row laid out; chunks closed plus the open one equal the NULs written plus one, and the loop ends with a chunk open exactly when the final character became a CR |
| MentatGui.CloseChunk | src/gui/mentat.cpp:411-423 | closing a chunk keeps the layout and adds its NUL, unless the text ends first |
| MentatGui.BreakRow | src/gui/mentat.cpp:425-432 | breaking a row keeps the layout; a row that reaches the text's end closes the last chunk |
| MentatGui.LayoutUnique | src/gui/mentat.cpp:396-433 | a text has at most one layout |
| MentatGui.SplitTextAsWritten | src/gui/mentat.cpp:388-436 | the splitter as written: NULL gives 0; otherwise the text is laid out and the count is the NULs written, plus one for a non-empty text unless its final character became a CR |
| MentatGui.SplitTextAsWrittenDropsLastChunk | src/gui/mentat.cpp:405-433 | "abc " with one-pixel characters at width 4 returns 0 chunks, though the text is one chunk |
| MentatGui.SplitText | src/gui/mentat.cpp:388-436 | corrected splitter: NULL gives 0; otherwise the text is laid out and the count is the NULs written plus one for a non-empty text |
| MentatGui.SplitTextAsWrittenAgrees | src/gui/mentat.cpp:388-436 | both splitters succeed on the same texts and write the same bytes; their counts differ by one exactly when the text ends on a row break |
| MentatGui.SplitTextWritesTheLayout | src/gui/mentat.cpp:388-436 | whenever a text has a layout, the splitter succeeds and writes exactly that layout |
| MentatGui.OneRowBroken | src/gui/mentat.cpp:405-433 | a text that fills one row up to a final space gets a CR there and leaves its chunk open |
| MentatGui.SplitTextCountsLastChunk | src/gui/mentat.cpp:405-433 | the corrected splitter counts the one chunk of "abc " |
| MentatGui.NulCountUpdate | src/gui/mentat.cpp:419 | writing one byte changes the NUL count by what was overwritten and what was written |
| MentatUi.InitFromString | src/newui/mentatnewui.cpp:159-174 | after leading whitespace, a name equal ignoring case picks that mentat; with no match, the house's own mentat |
| MentatUi.MentatNamesDistinct | src/newui/mentatnewui.cpp:164-171 | no two mentat names are equal ignoring case, so the match is unambiguous |
| MentatUi.InitFromName | src/newui/mentatnewui.cpp:159-174 | whitespace followed by a mentat's name in any case picks that mentat |
| MentatUi.FaceParts | src/newui/mentatnewui.cpp:35-40 | every mentat has eyes and a mouth below them; only the Bene Gesserit lacks a shoulder, and only Cyril and Ammon have an accessory |
| MentatUi.EyePositions | src/newui/mentatnewui.cpp:176-184 | the eye rectangle starts at the mentat's eye position and is the shape's size |
| MentatUi.MouthPositions | src/newui/mentatnewui.cpp:186-194 | the mouth rectangle starts at the mentat's mouth position and is the shape's size |
| MentatUi.BackgroundHouse | src/newui/mentatnewui.cpp:204 | the Bene Gesserit uses the Mercenary room, every other mentat the house with its own index |
| MentatUi.BackgroundsNamedAfterHouse | src/newui/mentatnewui.cpp:196-206 | the room picture is MENTATx.CPS with x the house's initial, and different mentats get different rooms |
| MentatUi.SignedChar | src/newui/mentatnewui.cpp:114 | a buffer byte read as signed char is in [-128, 128) and agrees with the byte modulo 256 |
| MentatUi.ReadBE32 | src/newui/mentatnewui.cpp:127 | the big-endian offset is a 32-bit number |
| MentatUi.ItemAt | src/newui/mentatnewui.cpp:125-129 | category exactly when byte 6 is '0', no description exactly when byte 5 is '0', text cut to 63 characters |
| MentatUi.RecordStarts | src/newui/mentatnewui.cpp:107-112 | each record starts where the previous one's size byte says, and lies within the data |
| MentatUi.LoadHelpSubjects | src/newui/mentatnewui.cpp:106-131 | with skip_advice set, no listed subject lacks a description |
| MentatUi.LoadHelpSubjectsIsFilter | src/newui/mentatnewui.cpp:106-131 | the walk lists exactly the items of the kept records, in order: a record is dropped iff its last byte > campaignID + 1, or skip_advice holds and byte 5 is '0' |
| MentatUi.BriefingStringId | src/newui/mentatnewui.cpp:273-274 | (campaignID + 1) * 4 + entry, inside the campaign's block of four and congruent to the entry |
| MentatUi.BriefingStringIdInjective | src/newui/mentatnewui.cpp:273-274 | different campaigns or entries never share a string |
| MentatUi.BriefingSplitText | src/newui/mentatnewui.cpp:260-269 | the text is laid out in place at width 304 by the splitter as written; lines and lines0 are the count it reports, which misses a chunk ending on a row break; the mentat speaks for 4 ticks per character of the first chunk; nothing else changes |
| MentatUi.InitText | src/newui/mentatnewui.cpp:271-280 | no description, the campaign's entry laid out in chunks with the count the splitter as written reports, and the mentat speaking |
| MentatUi.NextChunk | src/newui/mentatnewui.cpp:323-328 | moving past the next NUL shortens the text |
| MentatUi.NextChunkSplit | src/newui/mentatnewui.cpp:323-328 | the text is the current chunk, its NUL and the rest |
| MentatUi.NextChunkCount | src/newui/mentatnewui.cpp:323-328 | the rest holds one NUL fewer |
| MentatUi.AdvanceText | src/newui/mentatnewui.cpp:321-341 | on to the next chunk with one line fewer; at lines <= 0 idle and silent, otherwise speaking for 4 ticks per character of the new chunk |
| MentatUi.DropChunksCount | src/newui/mentatnewui.cpp:323-328 | dropping k chunks removes k NULs |
| MentatUi.AdvanceTextSteps | src/newui/mentatnewui.cpp:321-341 | k advances drop k chunks and k lines; the text stays up until the lines run out |
| MentatUi.AdvanceThroughChunks | src/newui/mentatnewui.cpp:260-341 | with the splitter's line count, every chunk is spoken before the mentat falls idle, and idle comes exactly after the last one |
| MentatUi.AdvanceMissesLastChunk | src/newui/mentatnewui.cpp:321-341 | with one line fewer than chunks, as the splitter as written reports for a text ending on a row break, the mentat falls idle with the last chunk unspoken |
| MentatUi.JoinNextLine | src/newui/mentatnewui.cpp:305-311 | the description's first NUL becomes a line feed: same length, one NUL fewer |
| MentatUi.AdvanceDesc | src/newui/mentatnewui.cpp:298-319 | with more than one line left, the description's next line is joined (one NUL fewer) and the count drops by one; with three or more that is all, besides setting the timer 15 ticks ahead; once one line is left the text is shown, laid out with the count the splitter as written reports, with the mentat speaking |
| MentatUi.TickPauseDescription | src/newui/mentatnewui.cpp:426-443 | before the timer nothing changes; after it the description is split, and a single line goes straight to the text, otherwise the description shows |
| MentatUi.TickShowDescription | src/newui/mentatnewui.cpp:445-449 | the description advances only once its timer has passed |
| MentatUi.HelpListAction | src/newui/mentatnewui.cpp:50-79 | 0x8001 does nothing and the wheel always scrolls; with the switch's case labels distinct, a subject opens exactly on 0x8003, Enter, keypad 5 or Space, and the list scrolls exactly on the wheel and keypad 8, 2, 9, 3 |
| MentatUi.Hush | src/newui/mentatnewui.cpp:453-456 | once the speaking timer has passed the speaking mode is 0; nothing else changes |
| MentatUi.Tick | src/newui/mentatnewui.cpp:451-506 | the screen is left exactly on 0x8001 in the contents list; opening a subject pauses for 30 ticks, and any other key leaves the list as it was after the reset; 0x8001 elsewhere returns to the list silently without animation; otherwise a pause or description tick is TickPauseDescription or TickShowDescription of the reset state, and in the text Escape, Space and the mouse buttons do AdvanceText while other keys change nothing but the reset |
| MentatUi.TickOpensSubject | src/newui/mentatnewui.cpp:50-79 | in the contents list, 0x8003, Enter, keypad 5 or Space open the given page and pause on it for 30 ticks |
| MentatUi.TickMovesForward | src/newui/mentatnewui.cpp:426-506 | a tick only moves forward through contents, pause, description, text and idle, or back to the list |

## Left out

- The FM-synthesis chip, the AdLib player and the Allegro audio backend: only their interfaces are visible. Whether a sample starts, whether the narrator is busy, the clock and the random draw are parameters.
- Floating point: sample pan, music volume, aspect-ratio parsing and the float options. Those option kinds are read and written through parameter functions, and the round trip excludes them.
- Allegro configuration plumbing: creating, finding, reading and writing the file. The file is a map from (section, key) to text.
- Scancode values, music ids, string ids and sound-to-sample tables live in headers outside this model. They are parameters (`ScancodeConsts`, `MusicConsts`, `StringIds`, `MentatKeys`, the sample mapping).
- Drawing, animation and WSA playback of the mentat screen (GUI_Mentat_Animation, Mentat_Draw*, the draw routines), which depend on the clock, the random generator and video output.
- GUI_Mentat_ShowHelp's file reading and parsing, and Mentat_LoadHelpSubjects' file naming with the prefix-letter fallback. The loaded page and the help data are parameters.
- GUI_SplitText, which splits the picture description, is a parameter (`DescSplitter`).
- Mentat_LoadHelpSubjects: a record whose size byte is 0 makes the source loop forever, and one that runs past the data makes it read outside the buffer. The model returns None for both.
- MentatGui.SplitLoop: a row that has to be broken but holds no space makes the source walk back out of the row. The model returns None there. MentatUi.BriefingSplitText, InitText, AdvanceDesc, TickPauseDescription and TickShowDescription require `Splittable` to exclude that case, and so do MentatUi.Tick and TickMovesForward when the screen is pausing on or showing a description, the only states that split a text.
- MentatUi.NextChunk and MentatUi.JoinNextLine: with no NUL in the buffer the source reads past its end; the model stops at the end of the text.
- 16-bit overflow of the splitter's `width`, `height` and `lines` counters is not modelled; counts are unbounded.
- MentatUi.BriefingText: strncpy of a string of 1024 or more bytes leaves no terminator; the model cuts the string at 1024.
- Audio.PlayVoice: the contract says the queue afterwards is either everything queued, or that minus its head; which one depends on the backend's answers, as Audio.Poll states.
- Audio.PlayMusicGroup: the backend's stop and start are recorded as the track playing, and the music-name message as the track it names; the file name, the song title and the message text are outside the model.
- Audio_LoadSampleSet, Audio_LoadSampleFromSet and the music volume functions: file loading and floating point.
- StringTable.StringLoad: every entry of the file is taken to decode with its escapes complete, including entries the loop never reaches; the source decodes only the entries it reaches at a writable slot.
- CString.Atoi: int overflow of atoi on very long digit strings is not modelled; the value is unbounded.
- String_GenerateFilename, String_Get_ByIndex, String_GetMentatString, String_LoadCampaignStrings and String_Uninit: file naming and memory management, outside the core rules. The mentat strings are a parameter.
- Scenario_Load_Structure, Scenario_Load_Team, Scenario_Load_Choam, Scenario_Load_General, the map-part loaders and Scenario_Create_*: entity creation. A decoder's result is the record it would create from.
- Scenario.LoadMapEntry: the tile position (Tile_PackXY of the key's digits) and the sprite bookkeeping of g_mapSpriteID are not modelled. An entry with fewer than two numbers is declined, where the source would pass NULL to atoi.
- The DEBUG-only branches: windowed-only window mode and `unitCountMax = 0xFFFF`.
- The runtime house table is the base table; code that edits it at run time is outside this model.

## Findings

The operations built on these loops, StringTable.StringLoad and the mentat
screen's MentatUi.BriefingSplitText, InitText and AdvanceDesc, follow the code as written. The corrected
loops are proved alongside, and the agreement lemmas say exactly where the
two differ.

| source | as written | input that shows it | evidently intended | confidence | as-written member | corrected member |
|---|---|---|---|---|---|---|
| src/string.cpp:148-149 | a filled slot that may not be overridden is skipped with `continue`, which advances the entry index but not the slot index, so every later entry of the file is tried against the same protected slot and dropped | slots [NULL, "Old", NULL], loading two entries "A", "B" into slots 1..2 where slot 1 is not overridable: slot 2 stays NULL | the protected slot keeps its string and the next entry goes to the next slot | not executed; medium | StringTable.FillSlotsAsWrittenStallsOnProtectedSlot, StringTable.FillSlotsAsWrittenStuck | StringTable.FillSlotsPlacesEntries |
| src/gui/mentat.cpp:405-433 | when a row fills up exactly at the end of the text, the break is written over the final space and the loop ends on the terminator without counting the open chunk | "abc " with every character one pixel wide and maxWidth 4: the function returns 0 | the final chunk is counted, so the text is shown | not executed; medium | MentatGui.SplitTextAsWrittenDropsLastChunk, MentatUi.AdvanceMissesLastChunk | MentatGui.SplitTextCountsLastChunk, MentatGui.SplitTextAsWrittenAgrees |

=== FILE: audio.dfy ===
/**
 * The sound layer's own logic: the narrator's voice queue and how a voice
 * request fills and drains it, the per-sample replay throttle, the volume
 * of a sound heard at a map position, the sample-file prefix of each voice
 * set, and the choice of a track from a music group.
 *
 * The audio backend, the clock and the random generator are outside this
 * model; what they answer is a parameter.
 */
module Audio {
  import opened Wrappers
  import opened RingBuffer
  import opened OsMath
  import opened Houses
  import opened Seqs

  type SampleId = nat

  /** An entry of a sample table: SAMPLE_INVALID or a sample. */
  datatype SampleRef = NoSample | Sample(id: SampleId)

  /** The user's switches: audio as a whole, music, sound, subtitles. */
  datatype Switches = Switches(audio: bool, music: bool, sound: bool, subtitles: bool)

  /** The narrator's queue of samples still to speak. */
  type VoiceQueue = Ring<SampleId>

  /** Audio_QueueVoice: append a sample unless the queue is full. */
  function QueueVoice(q: VoiceQueue, id: SampleId): (res: (VoiceQueue, bool))
    requires q.Valid()
    ensures res.0.Valid()
    ensures res.1 <==> |q.Contents()| < Capacity - 1
    ensures res.1 ==> res.0.Contents() == q.Contents() + [id]
    ensures !res.1 ==> res.0 == q
  {
    Push(q, id)
  }

  /** The number of leading entries that name a sample. */
  function ValidPrefix(parts: seq<SampleRef>): (n: nat)
    ensures n <= |parts|
    ensures forall i :: 0 <= i < n ==> parts[i].Sample?
    ensures n < |parts| ==> parts[n].NoSample?
  {
    if |parts| == 0 || parts[0].NoSample? then 0 else 1 + ValidPrefix(parts[1..])
  }

  predicate AllSamples(parts: seq<SampleRef>) {
    forall i :: 0 <= i < |parts| ==> parts[i].Sample?
  }

  function Ids(parts: seq<SampleRef>): (ids: seq<SampleId>)
    requires AllSamples(parts)
    ensures |ids| == |parts|
    ensures forall i :: 0 <= i < |parts| ==> ids[i] == parts[i].id
  {
    seq(|parts|, i requires 0 <= i < |parts| => parts[i].id)
  }

  /** How many of a voice's parts fit: the valid prefix, cut to the free room. */
  function Enqueued(q: VoiceQueue, parts: seq<SampleRef>): (n: nat)
    requires q.Valid()
    ensures n <= ValidPrefix(parts)
  {
    Min(ValidPrefix(parts), Capacity - 1 - |q.Contents()|)
  }

  /**
   * The loop of Audio_PlayVoice: queue the parts in order, stopping at the
   * first SAMPLE_INVALID or at the first part that does not fit.
   */
  function EnqueueParts(q: VoiceQueue, parts: seq<SampleRef>): (r: VoiceQueue)
    requires q.Valid()
    ensures r.Valid()
    ensures r.Contents() == q.Contents() + Ids(parts[..Enqueued(q, parts)])
    decreases |parts|
  {
    if |parts| == 0 || parts[0].NoSample? then q
    else
      var (q', ok) := QueueVoice(q, parts[0].id);
      if !ok then q
      else
        var r := EnqueueParts(q', parts[1..]);
        EnqueuedStep(q, parts, q');
        EnqueueOne(q.Contents(), parts, r.Contents(), Enqueued(q', parts[1..]));
        r
  }

  /** Queuing the first part and then the rest is queuing the parts. */
  lemma EnqueueOne(c: seq<SampleId>, parts: seq<SampleRef>, rc: seq<SampleId>, n: nat)
    requires |parts| > 0 && parts[0].Sample? && n <= ValidPrefix(parts[1..])
    requires rc == c + [parts[0].id] + Ids(parts[1..][..n])
    ensures 1 + n <= ValidPrefix(parts) && rc == c + Ids(parts[..1 + n])
  {
    PrefixIds(parts, n);
    AppendAssoc(c, [parts[0].id], Ids(parts[1..][..n]));
  }

  lemma PrefixIds(parts: seq<SampleRef>, n: nat)
    requires |parts| > 0 && parts[0].Sample? && n <= ValidPrefix(parts[1..])
    ensures 1 + n <= ValidPrefix(parts) && Ids(parts[..1 + n]) == [parts[0].id] + Ids(parts[1..][..n])
  {
    assert ValidPrefix(parts) == 1 + ValidPrefix(parts[1..]);
    var b := parts[1..][..n];
    assert parts[..1 + n] == [parts[0]] + b;
    IdsCons(parts[0], b);
  }

  lemma EnqueuedStep(q: VoiceQueue, parts: seq<SampleRef>, q': VoiceQueue)
    requires q.Valid() && q'.Valid()
    requires |parts| > 0 && parts[0].Sample? && |q'.Contents()| == |q.Contents()| + 1
    ensures Enqueued(q, parts) == 1 + Enqueued(q', parts[1..])
  {
    assert ValidPrefix(parts) == 1 + ValidPrefix(parts[1..]);
  }

  lemma IdsCons(p: SampleRef, b: seq<SampleRef>)
    requires p.Sample? && AllSamples(b)
    ensures AllSamples([p] + b) && Ids([p] + b) == [p.id] + Ids(b)
  {
    var ids := Ids([p] + b);
    assert forall i :: 0 <= i < |ids| ==> ids[i] == ([p.id] + Ids(b))[i];
  }

  /** What Audio_Poll did: whether speech is going on, the queue after it, and the sample it tried to start. */
  datatype PollResult = PollResult(playing: bool, queue: VoiceQueue, tried: Option<SampleId>)

  /**
   * Audio_Poll. `narratorBusy` is the backend's answer to "is the narrator
   * still speaking?", `starts` its answer to "did the head sample start?".
   */
  function Poll(q: VoiceQueue, sw: Switches, narratorBusy: bool, starts: bool): (res: PollResult)
    requires q.Valid()
    ensures res.queue.Valid()
    ensures !(sw.audio && sw.sound) ==> !res.playing && res.queue == q && res.tried == None
    ensures sw.audio && sw.sound && narratorBusy ==> res.playing && res.queue == q && res.tried == None
    ensures sw.audio && sw.sound && !narratorBusy && |q.Contents()| == 0 ==>
      !res.playing && res.queue == q && res.tried == None
    ensures sw.audio && sw.sound && !narratorBusy && |q.Contents()| > 0 ==>
      && res.tried == Some(q.Contents()[0])
      && res.playing == starts
      && res.queue.Contents() == (if starts then q.Contents()[1..] else q.Contents())
  {
    if !sw.audio || !sw.sound then PollResult(false, q, None)
    else if narratorBusy then PollResult(true, q, None)
    else if q.head != q.tail then
      var (id, q') := Pop(q);
      PollResult(starts, if starts then q' else q, Some(id))
    else PollResult(false, q, None)
  }

  /** A voice id: VOICE_INVALID, VOICE_STOP, or an entry of the feedback table. */
  datatype VoiceRequest = VoiceInvalid | VoiceStop | Voice(parts: seq<SampleRef>, messageId: nat)

  /** The number of game ticks a subtitle stays up. */
  const SubtitleTicks: nat := 4

  datatype Subtitle = Subtitle(messageId: nat, counter: nat)

  datatype VoiceResult = VoiceResult(queue: VoiceQueue, subtitle: Option<Subtitle>)

  /** Audio_PlayVoice. */
  function PlayVoice(q: VoiceQueue, req: VoiceRequest, sw: Switches, narratorBusy: bool, starts: bool): (res: VoiceResult)
    requires q.Valid()
    ensures res.queue.Valid()
    ensures req.VoiceInvalid? ==> res.queue == q && res.subtitle == None
    ensures req.VoiceStop? ==> res.queue.Contents() == [] && res.subtitle == None
    ensures req.Voice? && !sw.sound ==> res.queue == q
    ensures req.Voice? && sw.sound ==>
      var all := q.Contents() + Ids(req.parts[..Enqueued(q, req.parts)]);
      res.queue.Contents() == all || (|all| > 0 && res.queue.Contents() == all[1..])
    ensures req.Voice? ==>
      res.subtitle == (if sw.subtitles then Some(Subtitle(req.messageId, SubtitleTicks)) else None)
  {
    match req
    case VoiceInvalid => VoiceResult(q, None)
    case VoiceStop => VoiceResult(ClearToTail(q), None)
    case Voice(parts, messageId) =>
      var q' := if sw.sound then Poll(EnqueueParts(q, parts), sw, narratorBusy, starts).queue else q;
      VoiceResult(q', if sw.subtitles then Some(Subtitle(messageId, SubtitleTicks)) else None)
  }

  /** s_sample_last_played, which starts out all zero. */
  type LastPlayed = map<SampleId, int>

  function LastTick(t: LastPlayed, id: SampleId): int {
    if id in t then t[id] else 0
  }

  /** The minimum number of ticks between two plays of one sample, exclusive. */
  const ReplayGap: int := 8

  /** Audio_PlaySample: play only if the sample has been quiet for more than eight ticks. */
  function PlaySample(t: LastPlayed, sw: Switches, s: SampleRef, now: int): (res: (LastPlayed, bool))
    ensures res.1 <==> sw.audio && sw.sound && s.Sample? && now - LastTick(t, s.id) > ReplayGap
    ensures res.1 ==> LastTick(res.0, s.id) == now
    ensures forall id :: (!res.1 || id != s.id) ==> LastTick(res.0, id) == LastTick(t, id)
  {
    if !sw.audio || s.NoSample? || !sw.sound then (t, false)
    else if now - LastTick(t, s.id) > ReplayGap then (t[s.id := now], true)
    else (t, false)
  }

  datatype PlayRequest = PlayRequest(sample: SampleRef, now: int)

  /** A run of play requests, with which of them were played. */
  function PlayRun(t: LastPlayed, sw: Switches, reqs: seq<PlayRequest>): (res: (LastPlayed, seq<bool>))
    ensures |res.1| == |reqs|
    decreases |reqs|
  {
    if |reqs| == 0 then (t, [])
    else
      var (t1, p) := PlaySample(t, sw, reqs[0].sample, reqs[0].now);
      var (t2, ps) := PlayRun(t1, sw, reqs[1..]);
      (t2, [p] + ps)
  }

  /** Once a sample's last-played tick is at least `floor`, it is next played only after `floor + 8`. */
  lemma {:induction false} PlaysAfter(t: LastPlayed, sw: Switches, reqs: seq<PlayRequest>, id: SampleId, floor: int)
    requires LastTick(t, id) >= floor
    ensures forall j :: 0 <= j < |reqs| && PlayRun(t, sw, reqs).1[j] && reqs[j].sample == Sample(id) ==>
      reqs[j].now > floor + ReplayGap
    decreases |reqs|
  {
    if |reqs| > 0 {
      var (t1, p) := PlaySample(t, sw, reqs[0].sample, reqs[0].now);
      assert LastTick(t1, id) >= floor;
      PlaysAfter(t1, sw, reqs[1..], id, floor);
      forall j | 0 < j < |reqs| && PlayRun(t, sw, reqs).1[j] && reqs[j].sample == Sample(id)
        ensures reqs[j].now > floor + ReplayGap
      {
        assert PlayRun(t, sw, reqs).1[j] == PlayRun(t1, sw, reqs[1..]).1[j - 1];
        assert reqs[1..][j - 1] == reqs[j];
      }
    }
  }

  /**
   * Whatever the clock does, two plays of the same sample in a run are more
   * than eight ticks apart.
   */
  lemma {:induction false} ThrottledRun(t: LastPlayed, sw: Switches, reqs: seq<PlayRequest>)
    ensures forall i, j :: (0 <= i < j < |reqs| && PlayRun(t, sw, reqs).1[i] && PlayRun(t, sw, reqs).1[j]
      && reqs[i].sample == reqs[j].sample) ==> reqs[j].now - reqs[i].now > ReplayGap
    decreases |reqs|
  {
    if |reqs| > 0 {
      var (t1, p) := PlaySample(t, sw, reqs[0].sample, reqs[0].now);
      var played := PlayRun(t, sw, reqs).1;
      var rest := PlayRun(t1, sw, reqs[1..]).1;
      assert forall j :: 0 < j < |reqs| ==> played[j] == rest[j - 1] && reqs[1..][j - 1] == reqs[j];
      ThrottledRun(t1, sw, reqs[1..]);
      if p {
        PlaysAfter(t1, sw, reqs[1..], reqs[0].sample.id, reqs[0].now);
      }
    }
  }

  /** The volume of a sound `distance` tiles from the view centre: distance is capped at 64, then `255 - d * 255 / 80`. */
  function DistanceVolume(distance: nat): (v: nat)
    ensures 51 <= v <= 255
    ensures distance == 0 ==> v == 255
    ensures distance >= 64 ==> v == 51
  {
    var d := Min(distance, 64);
    255 - d * 255 / 80
  }

  /** A sound further away is never louder. */
  lemma VolumeNonIncreasing(d1: nat, d2: nat)
    requires d1 <= d2
    ensures DistanceVolume(d1) >= DistanceVolume(d2)
  {
    var a, b := Min(d1, 64), Min(d2, 64);
    assert a * 255 / 80 <= b * 255 / 80;
  }

  /**
   * The volume of Audio_PlaySoundAtTile: full for a position with a zero
   * coordinate (a sound not placed on the map), by distance otherwise.
   * `distance` is the tile distance from the viewport centre.
   */
  function TileVolume(x: nat, y: nat, distance: nat): (v: nat)
    ensures 51 <= v <= 255
    ensures (x == 0 || y == 0) ==> v == 255
    ensures x != 0 && y != 0 ==> v == DistanceVolume(distance)
  {
    if x != 0 && y != 0 then DistanceVolume(distance) else 255
  }

  /**
   * Audio_PlaySoundAtTile: `sound` is None for SOUND_INVALID, and `mapping`
   * is the sound-to-sample table. The result is the throttle state, whether
   * the sample played, and the volume it was asked for.
   */
  function PlaySoundAtTile(t: LastPlayed, sw: Switches, sound: Option<nat>, mapping: seq<SampleRef>,
                           x: nat, y: nat, distance: nat, now: int): (res: (LastPlayed, bool, nat))
    requires sound.Some? ==> sound.value < |mapping|
    ensures sound.None? ==> res.0 == t && !res.1
    ensures sound.Some? ==>
      var s := mapping[sound.value];
      && res.1 == (s.Sample? && PlaySample(t, sw, s, now).1)
      && (res.1 ==> LastTick(res.0, s.id) == now)
      && (forall id :: (!res.1 || id != s.id) ==> LastTick(res.0, id) == LastTick(t, id))
    ensures !res.1 ==> res.0 == t
    ensures sound.Some? && mapping[sound.value].Sample? ==> res.2 == TileVolume(x, y, distance)
    ensures 51 <= res.2 <= 255
  {
    if sound.None? then (t, false, 255)
    else
      var s := mapping[sound.value];
      if s.NoSample? then (t, false, 255)
      else
        var (t', played) := PlaySample(t, sw, s, now);
        (t', played, TileVolume(x, y, distance))
  }

  /**
   * A sound placed on a tile changes the throttle state exactly as a
   * direct Audio_PlaySample request for its sample does, whatever its
   * position; only the volume depends on where it is.
   */
  lemma SoundAtTileIsSamplePlay(t: LastPlayed, sw: Switches, sound: nat, mapping: seq<SampleRef>,
                                x: nat, y: nat, distance: nat, now: int)
    requires sound < |mapping| && mapping[sound].Sample?
    ensures var res := PlaySoundAtTile(t, sw, Some(sound), mapping, x, y, distance, now);
      (res.0, res.1) == PlaySample(t, sw, mapping[sound], now)
  {
  }

  /** Audio_GetSamplePrefix: the letter that picks a voice set's sample files. */
  function SamplePrefix(voices: SampleSet): (c: char)
    ensures c in "HAOMZ"
    ensures voices == SampleSetInvalid ==> c == 'Z'
  {
    match voices
    case SampleSetHarkonnen => 'H'
    case SampleSetAtreides => 'A'
    case SampleSetOrdos => 'O'
    case SampleSetBeneGesserit => 'M'
    case SampleSetInvalid => 'Z'
  }

  /** Distinct voice sets load distinct files. */
  lemma SamplePrefixInjective(a: SampleSet, b: SampleSet)
    ensures SamplePrefix(a) == SamplePrefix(b) <==> a == b
  {
  }

  /** Every house's voice set is picked by the same letter as the house's own prefix. */
  lemma SamplePrefixMatchesHouse(h: HouseType)
    ensures SamplePrefix(BaseHouseInfo(h).sampleSet) == BaseHouseInfo(h).prefixChar
  {
  }

  /** The music ids this layer treats specially; their values live in a table outside this model. */
  datatype MusicConsts = MusicConsts(stop: int, invalid: int, randomIdle: int, randomAttack: int,
                                     idle1: int, bonus: int, attack1: int, attack6: int)

  /** The range `[start, end)` of tracks a music id chooses from. */
  function Group(c: MusicConsts, musicId: int): (g: (int, int))
    ensures musicId != c.randomIdle && musicId != c.randomAttack ==> g == (musicId, musicId)
  {
    if musicId == c.randomIdle then (c.idle1, c.bonus)
    else if musicId == c.randomAttack then (c.attack1, c.attack6)
    else (musicId, musicId)
  }

  /**
   * The music side of the sound layer: the track the backend is playing
   * (none once AudioA5_StopMusic has run), `curr_music`, and the track
   * `music_message` names (none when the message is empty). Tracks are
   * indices into the music table.
   */
  datatype MusicState = MusicState(playing: Option<int>, current: Option<int>, message: Option<int>)

  /** Audio_PlayMusicFile: with audio on, start the track and make it the current one. */
  function PlayMusicFile(st: MusicState, sw: Switches, track: int): (r: MusicState)
    ensures !sw.audio ==> r == st
    ensures sw.audio ==> r.playing == Some(track) && r.current == Some(track) && r.message == Some(track)
  {
    if !sw.audio then st else MusicState(Some(track), Some(track), Some(track))
  }

  /**
   * Audio_PlayMusicGroup. Whatever the request, the backend's track is
   * stopped first. `draw` is what the random generator returned when asked
   * for a number in `[0, end - start - 1]`.
   */
  function PlayMusicGroup(c: MusicConsts, musicId: int, sw: Switches, draw: int, st: MusicState): (r: MusicState)
    requires var (start, end) := Group(c, musicId); end > start ==> 0 <= draw < end - start
    ensures musicId == c.stop ==> r == MusicState(None, None, None)
    ensures musicId != c.stop && (!sw.audio || !sw.music || musicId == c.invalid) ==> r == st.(playing := None)
    ensures r.playing.Some? <==> musicId != c.stop && sw.audio && sw.music && musicId != c.invalid
    ensures r.playing.Some? ==> r.current == r.playing && r.message == r.playing
    ensures r.playing.Some? ==>
      var (start, end) := Group(c, musicId);
      if end > start then start <= r.playing.value < end else r.playing.value == musicId
    ensures r.playing.Some? && musicId != c.randomIdle && musicId != c.randomAttack ==> r.playing == Some(musicId)
  {
    var stopped := st.(playing := None);
    if musicId == c.stop then MusicState(None, None, None)
    else if !sw.audio || !sw.music || musicId == c.invalid then stopped
    else
      var (start, end) := Group(c, musicId);
      if end - start > 0 then PlayMusicFile(stopped, sw, start + draw) else PlayMusicFile(stopped, sw, musicId)
  }

  /** Audio_ReplayMusic: play the current track again, if there is one. */
  function ReplayMusic(st: MusicState, sw: Switches): (r: MusicState)
    ensures st.current.None? ==> r == st
    ensures !sw.audio ==> r == st
    ensures st.current.Some? && sw.audio ==> r.playing == st.current && r.current == st.current && r.message == st.current
  {
    if st.current.None? then st else PlayMusicFile(st, sw, st.current.value)
  }

  /**
   * Replaying restarts the track the last request chose, and after
   * MUSIC_STOP there is nothing to replay.
   */
  lemma ReplayPlaysChosenTrack(c: MusicConsts, musicId: int, sw: Switches, draw: int, st: MusicState)
    requires var (start, end) := Group(c, musicId); end > start ==> 0 <= draw < end - start
    ensures var r := PlayMusicGroup(c, musicId, sw, draw, st);
      r.playing.Some? ==> ReplayMusic(r, sw) == r
    ensures musicId == c.stop ==> ReplayMusic(PlayMusicGroup(c, musicId, sw, draw, st), sw).playing.None?
  {
  }
}

=== FILE: bits.dfy ===
/**
 * Words as their binary digits: the packing of boolean flags into the
 * 16-bit words and bytes the game's data formats use.
 */
module Bits {

  /** 2 to the power n. */
  function Pow2(n: nat): (r: nat)
    ensures r > 0
  {
    if n == 0 then 1 else 2 * Pow2(n - 1)
  }

  lemma Pow2Of16()
    ensures Pow2(3) == 8
    ensures Pow2(8) == 0x100
    ensures Pow2(16) == 0x1_0000
  {
    assert Pow2(4) == 16 by { assert Pow2(2) == 4; }
    assert Pow2(8) == 256 by { assert Pow2(6) == 64; }
    assert Pow2(12) == 4096 by { assert Pow2(10) == 1024; }
    assert Pow2(14) == 16384;
  }

  /** The number whose binary digits, least significant first, are `bits`. */
  function WordOf(bits: seq<bool>): (w: nat)
    ensures w < Pow2(|bits|)
  {
    if |bits| == 0 then 0 else (if bits[0] then 1 else 0) + 2 * WordOf(bits[1..])
  }

  /** The `n` lowest binary digits of `w`, least significant first. */
  function BitsOf(w: nat, n: nat): (bits: seq<bool>)
    ensures |bits| == n
  {
    if n == 0 then [] else [w % 2 == 1] + BitsOf(w / 2, n - 1)
  }

  /** Reading back the digits of a word gives the digits it was made of. */
  lemma {:induction false} BitsOfWordOf(bits: seq<bool>)
    ensures BitsOf(WordOf(bits), |bits|) == bits
    decreases |bits|
  {
    if |bits| > 0 {
      var w := WordOf(bits);
      assert w % 2 == 1 <==> bits[0];
      assert w / 2 == WordOf(bits[1..]);
      BitsOfWordOf(bits[1..]);
      assert bits == [bits[0]] + bits[1..];
    }
  }

  /** The word made of the `n` lowest digits of `w` is `w` modulo 2^n. */
  lemma {:induction false} WordOfBitsOf(w: nat, n: nat)
    ensures WordOf(BitsOf(w, n)) == w % Pow2(n)
    decreases n
  {
    if n > 0 {
      var bits := BitsOf(w, n);
      assert bits[1..] == BitsOf(w / 2, n - 1);
      WordOfBitsOf(w / 2, n - 1);
      HalveMod(w, Pow2(n - 1));
    }
  }

  /** A word below 2^n is made of its `n` lowest digits. */
  lemma WordOfBitsOfSmall(w: nat, n: nat)
    requires w < Pow2(n)
    ensures WordOf(BitsOf(w, n)) == w
  {
    WordOfBitsOf(w, n);
    ModOfSum(0, Pow2(n), w);
  }

  /** The lowest `k` of the `n` lowest digits are the `k` lowest digits. */
  lemma {:induction false} BitsOfPrefix(w: nat, n: nat, k: nat)
    requires k <= n
    ensures BitsOf(w, n)[..k] == BitsOf(w, k)
    decreases k
  {
    if k > 0 {
      BitsOfPrefix(w / 2, n - 1, k - 1);
      assert BitsOf(w, n)[..k] == [w % 2 == 1] + BitsOf(w / 2, n - 1)[..k - 1];
    }
  }

  /** The remainder by 2p is the last binary digit plus twice the remainder of the half by p. */
  lemma HalveMod(w: nat, p: nat)
    requires p > 0
    ensures w % (2 * p) == w % 2 + 2 * ((w / 2) % p)
  {
    var q, r := (w / 2) / p, (w / 2) % p;
    assert w / 2 == q * p + r;
    assert w == q * (2 * p) + (2 * r + w % 2);
    ModOfSum(q, 2 * p, 2 * r + w % 2);
  }

  /** The remainder of q * m + r by m is r, for any quotient q. */
  lemma ModOfSum(q: int, m: nat, r: nat)
    requires 0 <= r < m
    ensures (q * m + r) % m == r
  {
    var x := q * m + r;
    var q', r' := x / m, x % m;
    assert (q - q') * m == r' - r;
    if q > q' {
      AtLeastOnce(q - q', m);
    } else if q < q' {
      AtLeastOnce(q' - q, m);
    }
  }

  lemma AtLeastOnce(a: int, m: nat)
    requires a >= 1
    ensures a * m >= m
  {
  }
}

=== FILE: config.dfy ===
/**
 * The game options file: the table of options, how each kind of option is
 * read from its text and written back, and the load and save passes over
 * the table. This is the release build; the debug build's windowed-only
 * mode is not modelled.
 *
 * The configuration file itself is a map from (section, key) to the text
 * stored there. Floating-point options and the aspect-ratio option are read
 * and written by code outside this model, passed in as functions.
 */
module Config {
  import opened Wrappers
  import opened CString
  import opened OsMath
  import StringTable

  /*------------------------------------------------------------------
   * Integers
   *------------------------------------------------------------------*/

  const IntMax: int := 0x7FFF_FFFF

  /** Config_GetInt: the number atoi reads, forced into [lo, hi]. */
  function GetInt(text: seq<Byte>, lo: int, hi: int): (r: int)
    ensures lo <= hi ==> lo <= r <= hi
    ensures lo <= Atoi(text) <= hi ==> r == Atoi(text)
    ensures lo <= hi && Atoi(text) < lo ==> r == lo
    ensures lo <= hi && Atoi(text) > hi ==> r == hi
  {
    Clamp(lo, Atoi(text), hi)
  }

  /*------------------------------------------------------------------
   * Window mode
   *------------------------------------------------------------------*/

  /** WM_WINDOWED is 0, WM_FULLSCREEN 1, WM_FULLSCREEN_WINDOW 2. */
  datatype WindowMode = Windowed | Fullscreen | FullscreenWindow
  {
    function Index(): (i: nat)
      ensures i <= 2
    {
      match this
      case Windowed => 0
      case Fullscreen => 1
      case FullscreenWindow => 2
    }
  }

  function ModeFromIndex(i: nat): (m: WindowMode)
    requires i <= 2
    ensures m.Index() == i
  {
    if i == 0 then Windowed else if i == 1 then Fullscreen else FullscreenWindow
  }

  predicate IsF(c: Byte) { c == 'f' as int || c == 'F' as int }
  predicate IsW(c: Byte) { c == 'w' as int || c == 'W' as int }

  /** '#' and ';' start a comment in a configuration value. */
  predicate IsComment(c: Byte) { c == '#' as int || c == ';' as int }

  predicate NoComment(t: seq<Byte>) {
    forall k :: 0 <= k < |t| ==> !IsComment(t[k])
  }

  /** The scan of Config_GetWindowMode: meet a 'w' before any comment character. */
  function WindowScan(s: seq<Byte>): bool
    decreases |s|
  {
    if |s| == 0 then false
    else if IsW(s[0]) then true
    else if IsComment(s[0]) then false
    else WindowScan(s[1..])
  }

  /** The scan finds a window request exactly when a 'w' or 'W' comes before the first comment character. */
  lemma {:induction false} WindowScanSpec(s: seq<Byte>)
    ensures WindowScan(s) <==> exists i :: 0 <= i < |s| && IsW(s[i]) && NoComment(s[..i])
    decreases |s|
  {
    if |s| > 0 {
      if IsW(s[0]) {
        assert NoComment(s[..0]);
      } else if IsComment(s[0]) {
        forall i | 0 < i < |s|
          ensures !NoComment(s[..i])
        {
          assert s[..i][0] == s[0];
        }
      } else {
        WindowScanSpec(s[1..]);
        forall i | 0 < i < |s|
          ensures (IsW(s[i]) && NoComment(s[..i])) <==> (IsW(s[1..][i - 1]) && NoComment(s[1..][..i - 1]))
        {
          assert s[1..][..i - 1] == s[1..i];
          assert forall k :: 0 < k < i ==> s[..i][k] == s[1..i][k - 1];
        }
        if WindowScan(s) {
          var j :| 0 <= j < |s[1..]| && IsW(s[1..][j]) && NoComment(s[1..][..j]);
          assert IsW(s[j + 1]) && NoComment(s[..j + 1]);
        }
      }
    }
  }

  /** Config_GetWindowMode: a value not starting with 'f' is windowed; "f..." is fullscreen, windowed if it asks for a window. */
  function ParseWindowMode(s: seq<Byte>): (m: WindowMode)
    ensures (|s| == 0 || !IsF(s[0])) ==> m == Windowed
    ensures |s| > 0 && IsF(s[0]) ==> m != Windowed
    ensures m == FullscreenWindow <==>
      |s| > 0 && IsF(s[0]) && exists i :: 0 <= i < |s| && IsW(s[i]) && NoComment(s[..i])
  {
    WindowScanSpec(s);
    if |s| == 0 || !IsF(s[0]) then Windowed
    else if WindowScan(s) then FullscreenWindow
    else Fullscreen
  }

  const WindowedText: seq<Byte> := Ascii("windowed")
  const FullscreenText: seq<Byte> := Ascii("fullscreen")
  const FullscreenWindowText: seq<Byte> := Ascii("fullscreenwindow")

  /** Config_SetWindowMode: the text stored for a mode; an out-of-range value is stored as windowed. */
  function WindowModeText(value: nat): (t: seq<Byte>)
    ensures value > 2 ==> t == WindowedText
  {
    if value == 1 then FullscreenText
    else if value == 2 then FullscreenWindowText
    else WindowedText
  }

  /** Reading back a saved window mode gives the mode, or windowed for a value out of range. */
  lemma WindowModeRoundTrip(value: nat)
    ensures ParseWindowMode(WindowModeText(value)) == (if value <= 2 then ModeFromIndex(value) else Windowed)
  {
    var t := WindowModeText(value);
    if value == 1 {
      assert IsF(t[0]);
      forall i | 0 <= i < |t|
        ensures !IsW(t[i])
      {
      }
    } else if value == 2 {
      assert IsF(t[0]);
      assert IsW(t[10]);
      assert NoComment(t[..10]) by {
        forall k | 0 <= k < 10
          ensures !IsComment(t[..10][k])
        {
        }
      }
    } else {
      assert !IsF(t[0]);
    }
  }

  /*------------------------------------------------------------------
   * Graphics driver
   *------------------------------------------------------------------*/

  datatype GraphicsDriver = OpenGL | Direct3D

  /** Config_GetGraphicsDriver: a value starting with 'd' or 'D' picks Direct3D, anything else OpenGL. */
  function ParseDriver(s: seq<Byte>): (d: GraphicsDriver)
    ensures d == Direct3D <==> |s| > 0 && (s[0] == 'D' as int || s[0] == 'd' as int)
  {
    if |s| > 0 && (s[0] == 'D' as int || s[0] == 'd' as int) then Direct3D else OpenGL
  }

  const OpenGLText: seq<Byte> := Ascii("opengl")
  const Direct3DText: seq<Byte> := Ascii("direct3d")

  /** Config_SetGraphicsDriver. */
  function DriverText(d: GraphicsDriver): (t: seq<Byte>)
    ensures t == Direct3DText || t == OpenGLText
    ensures |t| > 0 && (t[0] == 'D' as int || t[0] == 'd' as int <==> d == Direct3D)
  {
    if d == Direct3D then Direct3DText else OpenGLText
  }

  lemma DriverRoundTrip(d: GraphicsDriver)
    ensures ParseDriver(DriverText(d)) == d
  {
    assert DriverText(d)[0] == (if d == Direct3D then 'd' as int else 'o' as int);
  }

  /*------------------------------------------------------------------
   * The option table
   *------------------------------------------------------------------*/

  /** The kinds of option, with the range an integer or float kind is forced into. */
  datatype OptionType =
    | AspectCorrection
    | BoolOption
    | FloatOption
    | Float05To2
    | Float1To3
    | DriverOption
    | IntOption
    | Int0To4
    | Int1To16
    | StringOption
    | WindowModeOption

  predicate IsExternal(t: OptionType) {
    t == AspectCorrection || t == FloatOption || t == Float05To2 || t == Float1To3
  }

  datatype GameOption = GameOption(section: string, key: string, kind: OptionType)
  {
    function Id(): (string, string) { (section, key) }
  }

  /** s_game_option, without its NULL-key sentinel (the loops stop there). */
  const Options: seq<GameOption> := [
    GameOption("game", "game_speed", Int0To4),
    GameOption("game", "hints", BoolOption),
    GameOption("graphics", "driver", DriverOption),
    GameOption("graphics", "window_mode", WindowModeOption),
    GameOption("graphics", "screen_width", IntOption),
    GameOption("graphics", "screen_height", IntOption),
    GameOption("graphics", "correct_aspect_ratio", AspectCorrection),
    GameOption("graphics", "menubar_scale", Float1To3),
    GameOption("graphics", "sidebar_scale", Float1To3),
    GameOption("graphics", "viewport_scale", Float1To3),
    GameOption("controls", "auto_scroll", BoolOption),
    GameOption("controls", "scroll_speed", Int1To16),
    GameOption("controls", "scroll_along_screen_edge", BoolOption),
    GameOption("controls", "left_click_orders", BoolOption),
    GameOption("controls", "hold_control_to_zoom", BoolOption),
    GameOption("controls", "pan_sensitivity", Float05To2),
    GameOption("audio", "enable_music", BoolOption),
    GameOption("audio", "enable_sounds", BoolOption),
    GameOption("audio", "enable_subtitles", BoolOption),
    GameOption("audio", "music_volume", FloatOption),
    GameOption("audio", "sound_volume", FloatOption),
    GameOption("audio", "voice_volume", FloatOption),
    GameOption("audio", "opl_mame", BoolOption),
    GameOption("enhancement", "brutal_ai", BoolOption),
    GameOption("enhancement", "fog_of_war", BoolOption)
  ]

  /** No two options share a key, so each is stored in a place of its own. */
  lemma KeysDistinct()
    ensures forall i, j :: 0 <= i < j < |Options| ==> Options[i].key != Options[j].key
  {
  }

  /** The value an option points at. External values are those of the float and aspect options. */
  datatype OptionValue =
    | BoolValue(b: bool)
    | IntValue(n: int)
    | DriverValue(driver: GraphicsDriver)
    | WindowValue(mode: nat)
    | StringValue(s: seq<Byte>)
    | External(raw: int)

  /** Whether a value is of an option's kind and within the range the game keeps it in. */
  predicate Fits(t: OptionType, v: OptionValue) {
    match t
    case BoolOption => v.BoolValue?
    case IntOption => v.IntValue? && 0 <= v.n <= IntMax
    case Int0To4 => v.IntValue? && 0 <= v.n <= 4
    case Int1To16 => v.IntValue? && 1 <= v.n <= 16
    case DriverOption => v.DriverValue?
    case WindowModeOption => v.WindowValue? && v.mode <= 2
    case StringOption => v.StringValue? && |v.s| < StringBufferSize && NoNul(v.s)
    case _ => v.External?
  }

  predicate Typed(values: seq<OptionValue>) {
    FitsAll(Options, values)
  }

  /** One value per option of `opts`, each of its option's kind. */
  predicate FitsAll(opts: seq<GameOption>, values: seq<OptionValue>) {
    |values| == |opts| && forall i :: 0 <= i < |opts| ==> Fits(opts[i].kind, values[i])
  }

  /** No two options of `opts` are stored in the same place. */
  predicate IdsDistinct(opts: seq<GameOption>) {
    forall i, j :: 0 <= i < j < |opts| ==> opts[i].Id() != opts[j].Id()
  }

  /** The size of a string option's buffer, terminator included. */
  const StringBufferSize: nat := 1024

  type ConfigFile = map<(string, string), seq<Byte>>

  /** How code outside this model reads an external option: kind, text, old value to new value. */
  type ExternalReader = (OptionType, seq<Byte>, int) -> int

  /** How code outside this model writes an external option. */
  type ExternalWriter = (OptionType, int) -> seq<Byte>

  /**
   * One case of the switch in GameOptions_Load: the value after reading
   * `text`. The value reaches the parsers as a C string, so only the bytes
   * before a NUL count.
   */
  function LoadOption(t: OptionType, text: seq<Byte>, v: OptionValue, readExternal: ExternalReader): (r: OptionValue)
    requires Fits(t, v)
    ensures Fits(t, r)
    ensures t == BoolOption ==> r == BoolValue(StringTable.GetBool(Some(CStr(text)), v.b))
    ensures t == IntOption ==> r == IntValue(GetInt(CStr(text), 0, IntMax))
    ensures t == Int0To4 ==> r == IntValue(GetInt(CStr(text), 0, 4))
    ensures t == Int1To16 ==> r == IntValue(GetInt(CStr(text), 1, 16))
    ensures t == DriverOption ==> r == DriverValue(ParseDriver(CStr(text)))
    ensures t == WindowModeOption ==> r == WindowValue(ParseWindowMode(CStr(text)).Index())
    ensures t == StringOption ==> r.s <= CStr(text) && |r.s| == Min(|CStr(text)|, StringBufferSize - 1)
  {
    var c := CStr(text);
    match t
    case BoolOption => BoolValue(StringTable.GetBool(Some(c), v.b))
    case IntOption => IntValue(GetInt(c, 0, IntMax))
    case Int0To4 => IntValue(GetInt(c, 0, 4))
    case Int1To16 => IntValue(GetInt(c, 1, 16))
    case DriverOption => DriverValue(ParseDriver(c))
    case WindowModeOption => WindowValue(ParseWindowMode(c).Index())
    case StringOption => StringValue(if |c| < StringBufferSize then c else c[..StringBufferSize - 1])
    case _ => External(readExternal(t, c, v.raw))
  }

  /**
   * GameOptions_Load: with no configuration file nothing changes; otherwise
   * every option whose key is present is read, and every other keeps its value.
   */
  function Load(cfg: Option<ConfigFile>, values: seq<OptionValue>, readExternal: ExternalReader): (r: seq<OptionValue>)
    requires Typed(values)
    ensures Typed(r)
    ensures cfg.None? ==> r == values
    ensures forall i :: 0 <= i < |Options| && (cfg.None? || Options[i].Id() !in cfg.value) ==> r[i] == values[i]
    ensures forall i :: 0 <= i < |Options| && cfg.Some? && Options[i].Id() in cfg.value ==>
      r[i] == LoadOption(Options[i].kind, cfg.value[Options[i].Id()], values[i], readExternal)
  {
    if cfg.None? then values
    else
      seq(|Options|, i requires 0 <= i < |Options| =>
        var id := Options[i].Id();
        if id in cfg.value then LoadOption(Options[i].kind, cfg.value[id], values[i], readExternal) else values[i])
  }

  /** One case of the switch in GameOptions_Save: the text stored for a value. */
  function SaveText(t: OptionType, v: OptionValue, writeExternal: ExternalWriter): seq<Byte>
    requires Fits(t, v) && t != AspectCorrection
  {
    match t
    case BoolOption => if v.b then Ascii("1") else Ascii("0")
    case IntOption => Itoa(v.n)
    case Int0To4 => Itoa(v.n)
    case Int1To16 => Itoa(v.n)
    case DriverOption => DriverText(v.driver)
    case WindowModeOption => WindowModeText(v.mode)
    case StringOption => v.s
    case FloatOption => writeExternal(t, v.raw)
    case Float05To2 => writeExternal(t, v.raw)
    case Float1To3 => writeExternal(t, v.raw)
    case AspectCorrection => []
  }

  /**
   * The loop of GameOptions_Save over the table `opts` from option `i` on;
   * the aspect option is never written. Save runs it over Options.
   */
  function SaveFrom(cfg: ConfigFile, opts: seq<GameOption>, values: seq<OptionValue>, i: nat,
                    writeExternal: ExternalWriter): ConfigFile
    requires FitsAll(opts, values) && i <= |opts|
    decreases |opts| - i
  {
    if i == |opts| then cfg
    else if opts[i].kind == AspectCorrection then SaveFrom(cfg, opts, values, i + 1, writeExternal)
    else SaveFrom(cfg[opts[i].Id() := SaveText(opts[i].kind, values[i], writeExternal)], opts, values, i + 1, writeExternal)
  }

  /** A place no later option writes keeps what it held. */
  lemma {:induction false} SaveFromKeeps(cfg: ConfigFile, opts: seq<GameOption>, values: seq<OptionValue>, i: nat,
                                         writeExternal: ExternalWriter, id: (string, string))
    requires FitsAll(opts, values) && i <= |opts|
    requires forall j :: i <= j < |opts| && opts[j].kind != AspectCorrection ==> opts[j].Id() != id
    ensures id in SaveFrom(cfg, opts, values, i, writeExternal) <==> id in cfg
    ensures id in cfg ==> SaveFrom(cfg, opts, values, i, writeExternal)[id] == cfg[id]
    decreases |opts| - i
  {
    if i < |opts| {
      if opts[i].kind == AspectCorrection {
        SaveFromKeeps(cfg, opts, values, i + 1, writeExternal, id);
      } else {
        SaveFromKeeps(cfg[opts[i].Id() := SaveText(opts[i].kind, values[i], writeExternal)], opts, values, i + 1, writeExternal, id);
      }
    }
  }

  /** Every option from `i` on, except the aspect option, ends up stored under its own key. */
  lemma {:induction false} SaveFromWrites(cfg: ConfigFile, opts: seq<GameOption>, values: seq<OptionValue>, i: nat,
                                          writeExternal: ExternalWriter, j: nat)
    requires FitsAll(opts, values) && IdsDistinct(opts)
    requires i <= j < |opts| && opts[j].kind != AspectCorrection
    ensures opts[j].Id() in SaveFrom(cfg, opts, values, i, writeExternal)
    ensures SaveFrom(cfg, opts, values, i, writeExternal)[opts[j].Id()] == SaveText(opts[j].kind, values[j], writeExternal)
    decreases |opts| - i
  {
    var cfg' := if opts[i].kind == AspectCorrection then cfg
      else cfg[opts[i].Id() := SaveText(opts[i].kind, values[i], writeExternal)];
    assert SaveFrom(cfg, opts, values, i, writeExternal) == SaveFrom(cfg', opts, values, i + 1, writeExternal);
    if i < j {
      SaveFromWrites(cfg', opts, values, i + 1, writeExternal, j);
    } else {
      SaveFromKeeps(cfg', opts, values, i + 1, writeExternal, opts[j].Id());
    }
  }

  /** Whether GameOptions_Save writes the place `id`: some option but the aspect option lives there. */
  predicate SavedPlace(id: (string, string)) {
    exists j :: 0 <= j < |Options| && Options[j].kind != AspectCorrection && Options[j].Id() == id
  }

  /**
   * GameOptions_Save: the file (a fresh one if none was loaded) with every
   * option but the aspect option written. SaveKeepsOthers states that every
   * other section and key of the file is kept as it was.
   */
  function Save(cfg: Option<ConfigFile>, values: seq<OptionValue>, writeExternal: ExternalWriter): (r: ConfigFile)
    requires Typed(values)
    ensures forall j :: 0 <= j < |Options| && Options[j].kind != AspectCorrection ==>
      Options[j].Id() in r && r[Options[j].Id()] == SaveText(Options[j].kind, values[j], writeExternal)
  {
    var prior := if cfg.Some? then cfg.value else map[];
    var r := SaveFrom(prior, Options, values, 0, writeExternal);
    KeysDistinct();
    forall j | 0 <= j < |Options| && Options[j].kind != AspectCorrection
      ensures Options[j].Id() in r && r[Options[j].Id()] == SaveText(Options[j].kind, values[j], writeExternal)
    {
      SaveFromWrites(prior, Options, values, 0, writeExternal, j);
    }
    r
  }

  /** al_set_config_value touches only the place it writes: the rest of the user's file survives a save. */
  lemma SaveKeepsOthers(cfg: Option<ConfigFile>, values: seq<OptionValue>, writeExternal: ExternalWriter, id: (string, string))
    requires Typed(values) && !SavedPlace(id)
    ensures var prior := if cfg.Some? then cfg.value else map[];
      && (id in Save(cfg, values, writeExternal) <==> id in prior)
      && (id in prior ==> Save(cfg, values, writeExternal)[id] == prior[id])
  {
    SaveFromKeeps(if cfg.Some? then cfg.value else map[], Options, values, 0, writeExternal, id);
  }

  /** The aspect option is hidden: saving leaves its place in the file as it was. */
  lemma SaveSkipsAspect(cfg: Option<ConfigFile>, values: seq<OptionValue>, writeExternal: ExternalWriter)
    requires Typed(values)
    ensures var id := Options[6].Id(); var prior := if cfg.Some? then cfg.value else map[];
      && Options[6].kind == AspectCorrection
      && (id in Save(cfg, values, writeExternal) <==> id in prior)
      && (id in prior ==> Save(cfg, values, writeExternal)[id] == prior[id])
  {
    KeysDistinct();
    SaveFromKeeps(if cfg.Some? then cfg.value else map[], Options, values, 0, writeExternal, Options[6].Id());
  }

  /** Every value this model interprets survives being saved and read back. */
  lemma LoadOptionOfSaveText(t: OptionType, v: OptionValue, before: OptionValue,
                             readExternal: ExternalReader, writeExternal: ExternalWriter)
    requires Fits(t, v) && Fits(t, before) && !IsExternal(t)
    ensures LoadOption(t, SaveText(t, v, writeExternal), before, readExternal) == v
  {
    SaveTextNoNul(t, v, writeExternal);
    CStrOfContent(SaveText(t, v, writeExternal));
    match t
    case BoolOption =>
      assert Ascii("1")[0] == '1' as int && Ascii("0")[0] == '0' as int;
    case IntOption => AtoiItoa(v.n);
    case Int0To4 => AtoiItoa(v.n);
    case Int1To16 => AtoiItoa(v.n);
    case DriverOption => DriverRoundTrip(v.driver);
    case WindowModeOption => WindowModeRoundTrip(v.mode);
    case StringOption => CStrOfContent(v.s);
  }

  /** The text saved for a value this model interprets is a C string's content. */
  lemma SaveTextNoNul(t: OptionType, v: OptionValue, writeExternal: ExternalWriter)
    requires Fits(t, v) && !IsExternal(t)
    ensures NoNul(SaveText(t, v, writeExternal))
  {
    match t
    case BoolOption =>
      assert Ascii("1") == ['1' as int] && Ascii("0") == ['0' as int];
    case IntOption => ItoaNoNul(v.n);
    case Int0To4 => ItoaNoNul(v.n);
    case Int1To16 => ItoaNoNul(v.n);
    case DriverOption =>
      assert forall i :: 0 <= i < |Direct3DText| ==> Direct3DText[i] == "direct3d"[i] as int;
      assert forall i :: 0 <= i < |OpenGLText| ==> OpenGLText[i] == "opengl"[i] as int;
    case WindowModeOption =>
      assert forall i :: 0 <= i < |WindowedText| ==> WindowedText[i] == "windowed"[i] as int;
      assert forall i :: 0 <= i < |FullscreenText| ==> FullscreenText[i] == "fullscreen"[i] as int;
      assert forall i :: 0 <= i < |FullscreenWindowText| ==> FullscreenWindowText[i] == "fullscreenwindow"[i] as int;
    case StringOption =>
  }

  /** `%d` writes a sign and digits, never a NUL. */
  lemma ItoaNoNul(n: int)
    ensures NoNul(Itoa(n))
  {
    var d := Digits(if n < 0 then -n else n);
    assert forall i :: 0 <= i < |d| ==> d[i] != NUL;
  }

  lemma CStrOfContent(s: seq<Byte>)
    requires NoNul(s)
    ensures CStr(s) == s
  {
  }

  /**
   * Saving the options and loading them back restores every option this
   * model interprets, whatever values were there before the load.
   */
  lemma SaveLoadRoundTrip(cfg: Option<ConfigFile>, values: seq<OptionValue>, before: seq<OptionValue>,
                          readExternal: ExternalReader, writeExternal: ExternalWriter)
    requires Typed(values) && Typed(before)
    ensures var r := Load(Some(Save(cfg, values, writeExternal)), before, readExternal);
      forall i :: 0 <= i < |Options| && !IsExternal(Options[i].kind) ==> r[i] == values[i]
  {
    var saved := Save(cfg, values, writeExternal);
    forall i | 0 <= i < |Options| && !IsExternal(Options[i].kind)
      ensures Load(Some(saved), before, readExternal)[i] == values[i]
    {
      LoadOptionOfSaveText(Options[i].kind, values[i], before[i], readExternal, writeExternal);
    }
  }
}

=== FILE: cstring.dfy ===
/**
 * C strings as byte sequences, and the C library routines the game's text
 * handling relies on (isspace, toupper/tolower, stricmp, strchr, atoi and
 * the "%d" conversion of snprintf), all in the "C" locale.
 *
 * A C string is modelled by its content: the bytes before the terminating
 * NUL. A raw buffer that still carries its terminator is cut with `CStr`.
 */
module CString {
  import opened Wrappers

  /** `char` in the source is one byte. */
  type Byte = b: int | 0 <= b < 256

  const NUL: Byte := 0

  /** The content of a C string never holds its terminator. */
  predicate NoNul(s: seq<Byte>) {
    NUL !in s
  }

  /** The bytes of an 8-bit string literal (each character's code, in 8 bits). */
  function Ascii(s: string): (r: seq<Byte>)
    ensures |r| == |s|
    ensures forall i :: 0 <= i < |s| && s[i] as int < 256 ==> r[i] == s[i] as int
  {
    seq(|s|, i requires 0 <= i < |s| => (s[i] as int) % 256)
  }

  /** The bytes before the first NUL of a buffer. */
  function CStr(buf: seq<Byte>): (r: seq<Byte>)
    ensures r <= buf
    ensures NoNul(r)
    ensures |r| < |buf| ==> buf[|r|] == NUL
  {
    if |buf| == 0 || buf[0] == NUL then [] else [buf[0]] + CStr(buf[1..])
  }

  /** isspace: space, \t, \n, \v, \f and \r. */
  predicate IsSpace(c: Byte) {
    c == 0x20 || 0x09 <= c <= 0x0D
  }

  predicate IsDigit(c: Byte) {
    '0' as int <= c <= '9' as int
  }

  /** toupper restricted to a-z, as the scenario loader writes it out by hand. */
  function ToUpper(c: Byte): (r: Byte)
    ensures 'a' as int <= c <= 'z' as int ==> r == c - 32
    ensures !('a' as int <= c <= 'z' as int) ==> r == c
  {
    if 'a' as int <= c <= 'z' as int then c - 32 else c
  }

  function ToLower(c: Byte): (r: Byte)
    ensures 'A' as int <= c <= 'Z' as int ==> r == c + 32
    ensures !('A' as int <= c <= 'Z' as int) ==> r == c
  {
    if 'A' as int <= c <= 'Z' as int then c + 32 else c
  }

  function UpperString(s: seq<Byte>): (r: seq<Byte>)
    ensures |r| == |s|
    ensures forall i :: 0 <= i < |s| ==> r[i] == ToUpper(s[i])
  {
    seq(|s|, i requires 0 <= i < |s| => ToUpper(s[i]))
  }

  /** `stricmp(a, b) == 0`: same length and equal after tolower, byte by byte. */
  predicate EqualsIgnoreCase(a: seq<Byte>, b: seq<Byte>) {
    |a| == |b| && forall i :: 0 <= i < |a| ==> ToLower(a[i]) == ToLower(b[i])
  }

  /** The leading whitespace that atoi and the mentat name parser skip. */
  function SkipSpace(s: seq<Byte>): (r: seq<Byte>)
    ensures |r| <= |s| && r == s[|s| - |r|..]
    ensures forall i :: 0 <= i < |s| - |r| ==> IsSpace(s[i])
    ensures |r| == 0 || !IsSpace(r[0])
  {
    if |s| > 0 && IsSpace(s[0]) then SkipSpace(s[1..]) else s
  }

  /** strchr(s, c): the index of the first occurrence of `c`, if any. */
  function IndexOf(s: seq<Byte>, c: Byte): (r: Option<nat>)
    ensures r.None? <==> c !in s
    ensures r.Some? ==> r.value < |s| && s[r.value] == c && c !in s[..r.value]
  {
    if |s| == 0 then None
    else if s[0] == c then Some(0)
    else match IndexOf(s[1..], c)
      case None => None
      case Some(k) => assert s[1..][..k] == s[1..k + 1]; Some(k + 1)
  }

  /**
   * One step of the scenario loader's field walk: find the first ',' with
   * strchr, overwrite it with NUL, and continue after it.
   */
  function SplitComma(s: seq<Byte>): (r: Option<(seq<Byte>, seq<Byte>)>)
    ensures r.None? <==> ',' as int !in s
    ensures r.Some? ==> r.value.0 + [',' as int] + r.value.1 == s
    ensures r.Some? ==> ',' as int !in r.value.0
  {
    match IndexOf(s, ',' as int)
    case None => None
    case Some(k) =>
      assert s[..k] + [',' as int] + s[k + 1..] == s;
      Some((s[..k], s[k + 1..]))
  }

  /** A field without a comma, a comma and the rest split back into the field and the rest. */
  lemma SplitCommaJoin(a: seq<Byte>, b: seq<Byte>)
    requires ',' as int !in a
    ensures SplitComma(a + [',' as int] + b) == Some((a, b))
  {
    var s := a + [',' as int] + b;
    var x := SplitComma(s).value.0;
    assert s[|a|] == ',' as int;
    assert s[|x|] == ',' as int;
    assert forall i :: 0 <= i < |a| ==> s[i] == a[i];
    assert forall i :: 0 <= i < |x| ==> s[i] == x[i];
    assert |x| == |a|;
    assert x == s[..|a|] == a;
  }

  /** The length of the run of decimal digits that starts `s`. */
  function DigitRun(s: seq<Byte>): (r: nat)
    ensures r <= |s|
    ensures forall i :: 0 <= i < r ==> IsDigit(s[i])
    ensures r < |s| ==> !IsDigit(s[r])
  {
    if |s| > 0 && IsDigit(s[0]) then 1 + DigitRun(s[1..]) else 0
  }

  predicate AllDigits(d: seq<Byte>) {
    forall i :: 0 <= i < |d| ==> IsDigit(d[i])
  }

  /** The value of a string of decimal digits, most significant first. */
  function DigitsValue(d: seq<Byte>): nat
    requires AllDigits(d)
  {
    if |d| == 0 then 0 else DigitsValue(d[..|d| - 1]) * 10 + (d[|d| - 1] - '0' as int)
  }

  function UnsignedPrefix(t: seq<Byte>): nat {
    DigitsValue(t[..DigitRun(t)])
  }

  /**
   * atoi: skip whitespace, read an optional sign and the digits that follow;
   * anything else ends the number, and no digits at all give 0.
   */
  function Atoi(s: seq<Byte>): int {
    var t := SkipSpace(s);
    if |t| > 0 && t[0] == '-' as int then -(UnsignedPrefix(t[1..]) as int)
    else if |t| > 0 && t[0] == '+' as int then UnsignedPrefix(t[1..])
    else UnsignedPrefix(t)
  }

  /** The decimal digits of a natural number, without leading zeros. */
  function Digits(n: nat): (r: seq<Byte>)
    ensures |r| > 0 && AllDigits(r)
  {
    (if n >= 10 then Digits(n / 10) else []) + ['0' as int + n % 10]
  }

  /** snprintf(str, size, "%d", n) for a value that fits the buffer. */
  function Itoa(n: int): seq<Byte> {
    if n < 0 then ['-' as int] + Digits(-n) else Digits(n)
  }

  lemma {:induction false} DigitsValueOfDigits(n: nat)
    ensures DigitsValue(Digits(n)) == n
    decreases n
  {
    var d := Digits(n);
    var last := '0' as int + n % 10;
    if n >= 10 {
      DigitsValueOfDigits(n / 10);
      assert d[..|d| - 1] == Digits(n / 10);
    } else {
      assert d == [last];
      assert d[..|d| - 1] == [];
    }
  }

  lemma UnsignedPrefixOfDigits(n: nat)
    ensures UnsignedPrefix(Digits(n)) == n
  {
    var d := Digits(n);
    DigitsValueOfDigits(n);
    assert DigitRun(d) == |d| by { DigitRunOfAllDigits(d); }
    assert d[..DigitRun(d)] == d;
  }

  lemma {:induction false} DigitRunOfAllDigits(d: seq<Byte>)
    requires AllDigits(d)
    ensures DigitRun(d) == |d|
  {
    if |d| > 0 {
      DigitRunOfAllDigits(d[1..]);
    }
  }

  /** A run of digits followed by a non-digit ends where the non-digit starts. */
  lemma {:induction false} DigitRunThen(d: seq<Byte>, t: seq<Byte>)
    requires AllDigits(d)
    requires |t| == 0 || !IsDigit(t[0])
    ensures DigitRun(d + t) == |d|
    decreases |d|
  {
    if |d| > 0 {
      assert (d + t)[1..] == d[1..] + t;
      DigitRunThen(d[1..], t);
    } else {
      assert d + t == t;
    }
  }

  /** atoi reads the digits of a number and stops at the first character that is not a digit. */
  lemma AtoiDigitsThen(n: nat, t: seq<Byte>)
    requires |t| == 0 || !IsDigit(t[0])
    ensures Atoi(Digits(n) + t) == n
  {
    var s := Digits(n) + t;
    assert s[0] == Digits(n)[0];
    assert SkipSpace(s) == s;
    UnsignedPrefixThen(n, t);
  }

  lemma UnsignedPrefixThen(n: nat, t: seq<Byte>)
    requires |t| == 0 || !IsDigit(t[0])
    ensures UnsignedPrefix(Digits(n) + t) == n
  {
    var s := Digits(n) + t;
    DigitRunThen(Digits(n), t);
    assert s[..DigitRun(s)] == Digits(n);
    DigitsValueOfDigits(n);
  }

  /** Writing an int with "%d" and reading it back with atoi gives the same int. */
  lemma AtoiItoa(n: int)
    ensures Atoi(Itoa(n)) == n
  {
    if n < 0 {
      AtoiNegative(-n);
    } else {
      AtoiDigits(n);
    }
  }

  lemma AtoiNegative(m: nat)
    requires m > 0
    ensures Atoi(['-' as int] + Digits(m)) == -(m as int)
  {
    var s := ['-' as int] + Digits(m);
    assert SkipSpace(s) == s;
    assert s[1..] == Digits(m);
    UnsignedPrefixOfDigits(m);
  }

  lemma AtoiDigits(n: nat)
    ensures Atoi(Digits(n)) == n
  {
    var d := Digits(n);
    assert IsDigit(d[0]);
    assert SkipSpace(d) == d;
    UnsignedPrefixOfDigits(n);
  }
}

=== FILE: houses.dfy ===
/**
 * The six houses and their constant properties: the base house table, the
 * minimap colours and the mapping of every house onto one of the three
 * playable ones (whose mentat, music, voices and graphics it borrows).
 */
module Houses {

  datatype HouseType = Harkonnen | Atreides | Ordos | Fremen | Sardaukar | Mercenary
  {
    /** HOUSE_HARKONNEN is 0, up to HOUSE_MERCENARY at 5. */
    function Index(): (i: nat)
      ensures i < HouseCount
    {
      match this
      case Harkonnen => 0
      case Atreides => 1
      case Ordos => 2
      case Fremen => 3
      case Sardaukar => 4
      case Mercenary => 5
    }

    /** One of the three houses a player can choose. */
    predicate IsPlayable() {
      this == Harkonnen || this == Atreides || this == Ordos
    }
  }

  const HouseCount: nat := 6

  /** The house with a given index; the inverse of `Index`. */
  function HouseFromIndex(i: nat): (h: HouseType)
    requires i < HouseCount
    ensures h.Index() == i
  {
    if i == 0 then Harkonnen
    else if i == 1 then Atreides
    else if i == 2 then Ordos
    else if i == 3 then Fremen
    else if i == 4 then Sardaukar
    else Mercenary
  }

  lemma IndexRoundTrip(h: HouseType)
    ensures HouseFromIndex(h.Index()) == h
  {
  }

  /** MENTAT_RADNOR is 0, MENTAT_CYRIL 1, MENTAT_AMMON 2, MENTAT_BENE_GESSERIT 3. */
  datatype MentatId = Radnor | Cyril | Ammon | BeneGesserit
  {
    function Index(): (i: nat)
      ensures i < MentatCount
    {
      match this
      case Radnor => 0
      case Cyril => 1
      case Ammon => 2
      case BeneGesserit => 3
    }
  }

  const MentatCount: nat := 4

  /** The three sets of unit voices, plus the narrator's Bene Gesserit set. */
  datatype SampleSet = SampleSetHarkonnen | SampleSetAtreides | SampleSetOrdos | SampleSetBeneGesserit | SampleSetInvalid

  datatype HouseWeapon = WeaponMissile | WeaponFremen | WeaponSaboteur

  /** The unit types the special weapons deliver. */
  datatype UnitType = UnitTroopers | UnitTrooper | UnitSaboteur

  /** What a house's special weapon is, with the units it delivers and their owner. */
  datatype SuperWeapon =
    | DeathHand
    | FremenWeapon(fremenOwner: HouseType, unit75: UnitType, unit25: UnitType)
    | SaboteurWeapon(saboteurOwner: HouseType, unit: UnitType)

  /** The piece of music a house uses when it wins, loses or is briefed. */
  datatype Theme = Win | Lose | Briefing
  datatype Music = Music(theme: Theme, side: HouseType)

  datatype HouseInfo = HouseInfo(
    name: string,
    toughness: nat,
    degradingChance: nat,
    degradingAmount: nat,
    spriteColor: nat,
    specialCountDown: nat,
    starportDeliveryTime: nat,
    prefixChar: char,
    specialWeapon: HouseWeapon,
    musicWin: Music,
    musicLose: Music,
    musicBriefing: Music,
    voiceFilename: string,
    mentat: MentatId,
    sampleSet: SampleSet,
    superWeapon: SuperWeapon,
    fameCps: nat,
    mapmachCps: nat,
    miscCps: nat)

  /** g_table_base_houseInfo. */
  function BaseHouseInfo(h: HouseType): HouseInfo {
    match h
    case Harkonnen =>
      HouseInfo("Harkonnen", 200, 85, 3, 0, 600, 10, 'H', WeaponMissile,
        Music(Win, Harkonnen), Music(Lose, Harkonnen), Music(Briefing, Harkonnen),
        "nhark.voc", Radnor, SampleSetHarkonnen, DeathHand, 0, 0, 0)
    case Atreides =>
      HouseInfo("Atreides", 77, 0, 1, 1, 300, 10, 'A', WeaponFremen,
        Music(Win, Atreides), Music(Lose, Atreides), Music(Briefing, Atreides),
        "nattr.voc", Cyril, SampleSetAtreides, FremenWeapon(Fremen, UnitTroopers, UnitTrooper), 1, 1, 1)
    case Ordos =>
      HouseInfo("Ordos", 128, 10, 2, 2, 300, 10, 'O', WeaponSaboteur,
        Music(Win, Ordos), Music(Lose, Ordos), Music(Briefing, Ordos),
        "nordo.voc", Ammon, SampleSetOrdos, SaboteurWeapon(Ordos, UnitSaboteur), 2, 2, 2)
    case Fremen =>
      HouseInfo("Fremen", 55, 0, 1, 3, 300, 10, 'A', WeaponFremen,
        Music(Win, Atreides), Music(Lose, Atreides), Music(Briefing, Atreides),
        "afremen.voc", Cyril, SampleSetAtreides, FremenWeapon(Fremen, UnitTroopers, UnitTrooper), 1, 1, 1)
    case Sardaukar =>
      HouseInfo("Sardaukar", 234, 0, 1, 4, 600, 10, 'H', WeaponMissile,
        Music(Win, Harkonnen), Music(Lose, Harkonnen), Music(Briefing, Harkonnen),
        "asard.voc", Radnor, SampleSetHarkonnen, DeathHand, 0, 0, 0)
    case Mercenary =>
      HouseInfo("Mercenary", 0, 10, 2, 5, 300, 10, 'O', WeaponSaboteur,
        Music(Win, Ordos), Music(Lose, Ordos), Music(Briefing, Ordos),
        "amerc.voc", Ammon, SampleSetOrdos, SaboteurWeapon(Mercenary, UnitSaboteur), 2, 2, 2)
  }

  /** g_table_minimapColour: sixteen palette entries per house, from 144. */
  function MinimapColour(h: HouseType): (c: nat)
    ensures c == 144 + 16 * h.Index()
    ensures c < 256
  {
    match h
    case Harkonnen => 144
    case Atreides => 160
    case Ordos => 176
    case Fremen => 192
    case Sardaukar => 208
    case Mercenary => 224
  }

  /** g_table_houseRemap6to3: every house maps onto a playable one, and a playable house onto itself. */
  function Remap6to3(h: HouseType): (r: HouseType)
    ensures r.IsPlayable()
    ensures h.IsPlayable() ==> r == h
  {
    match h
    case Harkonnen => Harkonnen
    case Atreides => Atreides
    case Ordos => Ordos
    case Fremen => Atreides
    case Sardaukar => Harkonnen
    case Mercenary => Ordos
  }

  lemma RemapIdempotent(h: HouseType)
    ensures Remap6to3(Remap6to3(h)) == Remap6to3(h)
  {
  }

  /**
   * Every house borrows its presentation from the playable house it maps to:
   * the sample prefix letter, the mentat, the voice set, the three pieces of
   * music and the three picture sets are those of `Remap6to3(h)`, and the
   * picture-set numbers are that house's index.
   */
  lemma PresentationFollowsRemap(h: HouseType)
    ensures var info, base := BaseHouseInfo(h), BaseHouseInfo(Remap6to3(h));
      && info.prefixChar == base.prefixChar
      && info.mentat == base.mentat
      && info.sampleSet == base.sampleSet
      && info.musicWin == base.musicWin
      && info.musicLose == base.musicLose
      && info.musicBriefing == base.musicBriefing
      && info.fameCps == Remap6to3(h).Index()
      && info.mapmachCps == Remap6to3(h).Index()
      && info.miscCps == Remap6to3(h).Index()
  {
  }

  /** The music a house uses is that of the playable house it maps to, for the right theme. */
  lemma MusicNamesRemappedHouse(h: HouseType)
    ensures BaseHouseInfo(h).musicWin == Music(Win, Remap6to3(h))
    ensures BaseHouseInfo(h).musicLose == Music(Lose, Remap6to3(h))
    ensures BaseHouseInfo(h).musicBriefing == Music(Briefing, Remap6to3(h))
  {
  }

  /** Whether a special-weapon description is of the kind the weapon enumeration names. */
  predicate WeaponMatches(w: HouseWeapon, s: SuperWeapon) {
    match w
    case WeaponMissile => s.DeathHand?
    case WeaponFremen => s.FremenWeapon?
    case WeaponSaboteur => s.SaboteurWeapon?
  }

  /**
   * The special weapon's data agrees with its kind, Fremen units are always
   * owned by the Fremen, and a house's saboteur is its own.
   */
  lemma SuperWeaponConsistent(h: HouseType)
    ensures WeaponMatches(BaseHouseInfo(h).specialWeapon, BaseHouseInfo(h).superWeapon)
    ensures BaseHouseInfo(h).superWeapon.FremenWeapon? ==> BaseHouseInfo(h).superWeapon.fremenOwner == Fremen
    ensures BaseHouseInfo(h).superWeapon.SaboteurWeapon? ==> BaseHouseInfo(h).superWeapon.saboteurOwner == h
  {
  }

  /** Every house's sprite colour is its own index, and so distinct from the others'. */
  lemma SpriteColourIsIndex(h: HouseType)
    ensures BaseHouseInfo(h).spriteColor == h.Index()
  {
  }
}

=== FILE: input.dfy ===
/**
 * The keyboard and mouse input layer: a 128-bit map of keys currently held
 * and a history of key events waiting to be read.
 *
 * A scancode's low seven bits name the key or mouse button; the higher bits
 * carry flags. The values of the "extended", "release" and "none" scancodes
 * come from a header outside this model, so they are a parameter.
 */
module Input {
  import opened RingBuffer

  /** A scancode is 16 bits wide. */
  type Scancode = k: int | 0 <= k < 0x10000

  /** The scancode constants this layer uses. */
  datatype ScancodeConsts = ScancodeConsts(extended: Scancode, release: Scancode, none: Scancode)

  /** The mouse events share the key map, counting down from 0x7F. */
  const MouseZAxis: Scancode := 0x7F
  const MouseLmb: Scancode := 0x7E
  const MouseRmb: Scancode := 0x7D

  datatype InputState = InputState(keys: seq<bv8>, history: Ring<Scancode>)
  {
    predicate Valid() {
      |keys| == 16 && history.Valid()
    }
  }

  /** `(key & 0x7F) >> 3`: the byte of the key map that holds `key`. */
  function KeyIndex(key: Scancode): (i: nat)
    ensures i < 16
  {
    (key % 128) / 8
  }

  /** `key & 0x7`: the position of the key's bit within that byte. */
  function BitPos(key: Scancode): (b: nat)
    ensures b < 8
  {
    key % 8
  }

  /** `1 << b` as a byte. */
  function Bit(b: nat): bv8
    requires b < 8
  {
    1 << (b as bv8)
  }

  /** Two scancodes share a map bit exactly when their low seven bits agree. */
  predicate SameKey(a: Scancode, b: Scancode) {
    a % 128 == b % 128
  }

  lemma SameKeySameBit(a: Scancode, b: Scancode)
    ensures SameKey(a, b) <==> (KeyIndex(a) == KeyIndex(b) && BitPos(a) == BitPos(b))
  {
    var la, lb := a % 128, b % 128;
    assert la % 8 == a % 8 && lb % 8 == b % 8;
    assert la == 8 * (la / 8) + la % 8;
    assert lb == 8 * (lb / 8) + lb % 8;
  }

  /** `key & flag` is non-zero. */
  predicate HasFlag(key: Scancode, flag: Scancode) {
    (key as bv16) & (flag as bv16) != 0
  }

  /** `key & ~flag`. */
  function WithoutFlag(key: Scancode, flag: Scancode): Scancode {
    ((key as bv16) & !(flag as bv16)) as int
  }

  /** Input_Init: all keys up. */
  function Init(s: InputState): (s': InputState)
    requires s.Valid()
    ensures s'.Valid() && s'.history == s.history
    ensures forall k: Scancode :: !Test(s', k)
  {
    InputState(seq(16, _ => 0), s.history)
  }

  /** Input_History_Clear: drop the unread events, keep the key map. */
  function HistoryClear(s: InputState): (s': InputState)
    requires s.Valid()
    ensures s'.Valid() && s'.keys == s.keys
    ensures s'.history.Contents() == []
  {
    InputState(s.keys, ClearToHead(s.history))
  }

  /**
   * Input_AddHistory: store the key without its "extended" flag, unless the
   * history is full; the flag says whether it was stored.
   */
  function AddHistory(h: Ring<Scancode>, key: Scancode, consts: ScancodeConsts): (res: (Ring<Scancode>, bool))
    requires h.Valid()
    ensures res.0.Valid()
    ensures res.1 <==> |h.Contents()| < Capacity - 1
    ensures res.1 ==> res.0.Contents() == h.Contents() + [WithoutFlag(key, consts.extended)]
    ensures !res.1 ==> res.0 == h
  {
    Push(h, WithoutFlag(key, consts.extended))
  }

  /** The key map after an event: the key's bit cleared for a release, set for a press. */
  function UpdateKeys(keys: seq<bv8>, key: Scancode, consts: ScancodeConsts): (keys': seq<bv8>)
    requires |keys| == 16
    ensures |keys'| == 16
    ensures forall i :: 0 <= i < 16 && i != KeyIndex(key) ==> keys'[i] == keys[i]
  {
    var idx := KeyIndex(key);
    var bit := Bit(BitPos(key));
    if HasFlag(key, consts.release) then keys[idx := keys[idx] & !bit]
    else keys[idx := keys[idx] | bit]
  }

  /**
   * Input_EventHandler: key 0 is ignored; otherwise the key map is updated
   * and the event is added to the history (if there is room).
   */
  function EventHandler(s: InputState, key: Scancode, consts: ScancodeConsts): (s': InputState)
    requires s.Valid()
    ensures s'.Valid()
    ensures key == 0 ==> s' == s
    ensures key != 0 ==> s'.history == AddHistory(s.history, key, consts).0
  {
    if key == 0 then s
    else InputState(UpdateKeys(s.keys, key, consts), AddHistory(s.history, key, consts).0)
  }

  /** Input_Test: whether the key is currently held; only its low seven bits name it, the flag bits play no part. */
  function Test(s: InputState, key: Scancode): (held: bool)
    requires s.Valid()
    ensures held <==> Held(s.keys, key % 128)
  {
    var low: Scancode := key % 128;
    assert low % 128 == low;
    SameKeySameBit(key, low);
    assert KeyIndex(low) == KeyIndex(key) && BitPos(low) == BitPos(key);
    Held(s.keys, key)
  }

  /** Whether the key's bit is set in a key map. */
  predicate Held(keys: seq<bv8>, k: Scancode)
    requires |keys| == 16
  {
    keys[KeyIndex(k)] & Bit(BitPos(k)) != 0
  }

  /** Setting or clearing one bit of a key map, seen through any bit. */
  lemma MapUpdateBit(keys: seq<bv8>, idx: nat, kb: nat, tidx: nat, tb: nat, release: bool)
    requires |keys| == 16 && idx < 16 && tidx < 16 && kb < 8 && tb < 8
    ensures var b' := if release then keys[idx] & !Bit(kb) else keys[idx] | Bit(kb);
      keys[idx := b'][tidx] & Bit(tb) != 0 <==>
        if idx == tidx && kb == tb then !release else keys[tidx] & Bit(tb) != 0
  {
    if idx == tidx {
      if kb == tb {
        SameBit(keys[idx], kb as bv8);
      } else {
        OtherBit(keys[idx], kb as bv8, tb as bv8);
      }
    }
  }

  lemma SameBit(b: bv8, x: bv8)
    requires x < 8
    ensures (b | (1 << x)) & (1 << x) != 0
    ensures (b & !(1 << x)) & (1 << x) == 0
  {
  }

  lemma OtherBit(b: bv8, x: bv8, y: bv8)
    requires x < 8 && y < 8 && x != y
    ensures (b | (1 << x)) & (1 << y) == b & (1 << y)
    ensures (b & !(1 << x)) & (1 << y) == b & (1 << y)
  {
  }

  lemma UpdateKeysHeld(keys: seq<bv8>, key: Scancode, consts: ScancodeConsts, k: Scancode)
    requires |keys| == 16
    ensures Held(UpdateKeys(keys, key, consts), k) <==>
      if SameKey(key, k) then !HasFlag(key, consts.release) else Held(keys, k)
  {
    SameKeySameBit(key, k);
    MapUpdateBit(keys, KeyIndex(key), BitPos(key), KeyIndex(k), BitPos(k), HasFlag(key, consts.release));
  }

  /**
   * After an event, a key tests as held exactly when the event was a press of
   * that key, or the event concerned another key (or was 0) and it was held.
   */
  lemma EventTest(s: InputState, key: Scancode, consts: ScancodeConsts, k: Scancode)
    requires s.Valid()
    ensures Test(EventHandler(s, key, consts), k) <==>
      if key != 0 && SameKey(key, k) then !HasFlag(key, consts.release) else Test(s, k)
  {
    if key != 0 {
      UpdateKeysHeld(s.keys, key, consts, k);
    }
  }

  /** Input_IsInputAvailable: the history's head and tail differ exactly when unread events are queued. */
  function IsInputAvailable(s: InputState): (available: bool)
    requires s.Valid()
    ensures available <==> |s.history.Contents()| > 0
  {
    s.history.head != s.history.tail
  }

  /** Input_PeekNextKey: the oldest unread event, or the "none" scancode. */
  function PeekNextKey(s: InputState, consts: ScancodeConsts): (key: Scancode)
    requires s.Valid()
    ensures |s.history.Contents()| > 0 ==> key == s.history.Contents()[0]
    ensures |s.history.Contents()| == 0 ==> key == consts.none
  {
    if IsInputAvailable(s) then s.history.slots[s.history.head] else consts.none
  }

  /** Input_GetNextKey: remove and return the oldest unread event. */
  function GetNextKey(s: InputState): (res: (Scancode, InputState))
    requires s.Valid() && IsInputAvailable(s)
    ensures res.1.Valid() && res.1.keys == s.keys
    ensures res.0 == s.history.Contents()[0]
    ensures res.1.history.Contents() == s.history.Contents()[1..]
  {
    var (key, h) := Pop(s.history);
    (key, InputState(s.keys, h))
  }

  /** Feed a run of events to the handler, in order. */
  function Feed(s: InputState, keys: seq<Scancode>, consts: ScancodeConsts): (s': InputState)
    requires s.Valid()
    ensures s'.Valid()
    decreases |keys|
  {
    if |keys| == 0 then s else Feed(EventHandler(s, keys[0], consts), keys[1..], consts)
  }

  /** Whether event `e` releases key `k`. */
  predicate IsReleaseOf(e: Scancode, k: Scancode, consts: ScancodeConsts) {
    e != 0 && SameKey(e, k) && HasFlag(e, consts.release)
  }

  /** Whether some event in `keys` releases key `k`. */
  predicate ReleasesKey(keys: seq<Scancode>, k: Scancode, consts: ScancodeConsts) {
    exists i :: 0 <= i < |keys| && IsReleaseOf(keys[i], k, consts)
  }

  lemma ReleasesKeyTail(keys: seq<Scancode>, k: Scancode, consts: ScancodeConsts)
    requires |keys| > 0 && !ReleasesKey(keys, k, consts)
    ensures !ReleasesKey(keys[1..], k, consts)
    ensures !IsReleaseOf(keys[0], k, consts)
  {
    forall i | 0 <= i < |keys[1..]|
      ensures !IsReleaseOf(keys[1..][i], k, consts)
    {
      assert keys[1..][i] == keys[i + 1];
    }
  }

  /** A held key stays held through any run of events that does not release it. */
  lemma {:induction false} HeldUntilReleased(s: InputState, keys: seq<Scancode>, consts: ScancodeConsts, k: Scancode)
    requires s.Valid() && Test(s, k) && !ReleasesKey(keys, k, consts)
    ensures Test(Feed(s, keys, consts), k)
    decreases |keys|
  {
    if |keys| > 0 {
      ReleasesKeyTail(keys, k, consts);
      EventTest(s, keys[0], consts, k);
      HeldUntilReleased(EventHandler(s, keys[0], consts), keys[1..], consts, k);
    }
  }
}

=== FILE: math.dfy ===
/**
 * The max, min and clamp macros of the portable math header, on integers.
 * Each macro evaluates `a > b` or `a < b` and picks one argument, so on a
 * tie the second argument is returned.
 */
module OsMath {

  /** max(a, b): the larger argument. */
  function Max(a: int, b: int): (r: int)
    ensures r >= a && r >= b
    ensures r == a || r == b
  {
    if a > b then a else b
  }

  /** min(a, b): the smaller argument. */
  function Min(a: int, b: int): (r: int)
    ensures r <= a && r <= b
    ensures r == a || r == b
  {
    if a < b then a else b
  }

  /** clamp(a, b, c) = min(max(a, b), c): b forced into [a, c]. */
  function Clamp(a: int, b: int, c: int): (r: int)
    ensures a <= c ==> a <= r <= c
    ensures a <= b <= c ==> r == b
    ensures b < a <= c ==> r == a
    ensures a <= c < b ==> r == c
    ensures a > c ==> r == c
  {
    Min(Max(a, b), c)
  }

  /** Clamping twice into the same non-empty range changes nothing more. */
  lemma ClampIdempotent(a: int, b: int, c: int)
    requires a <= c
    ensures Clamp(a, Clamp(a, b, c), c) == Clamp(a, b, c)
  {
  }
}

=== FILE: mentat_gui.dfy ===
/**
 * The mentat screen's sprite table and its text splitter: the text a mentat
 * speaks is cut, in place, into chunks of at most three rows; a row ends
 * where the next word would not fit, and a chunk ends at the end of a
 * sentence.
 */
module MentatGui {
  import opened Wrappers
  import opened CString
  import opened Houses

  /*------------------------------------------------------------------
   * Sprites
   *------------------------------------------------------------------*/

  /** The first sprite of a mentat's fifteen: eyes, mouth, then the shoulder and accessory. */
  function SpriteBase(m: MentatId): nat {
    387 + 15 * m.Index()
  }

  /**
   * GUI_Mentat_SetSprites: three rows of five slots; rows 0 and 1 take
   * five consecutive sprites each, row 2 takes four, and its last slot
   * stays empty.
   */
  function SetSprites(m: MentatId): (sprites: seq<seq<Option<nat>>>)
    ensures |sprites| == 3 && forall r :: 0 <= r < 3 ==> |sprites[r]| == 5
    ensures sprites[2][4].None?
    ensures forall r, c :: 0 <= r < 3 && 0 <= c < 5 && (r, c) != (2, 4) ==> sprites[r][c].Some?
    ensures forall r, c :: 0 <= r < 3 && 0 <= c < 5 && sprites[r][c].Some? ==>
      SpriteBase(m) <= sprites[r][c].value < SpriteBase(m) + 15
  {
    var b := SpriteBase(m);
    [ seq(5, i => Some(b + i)),
      seq(5, i => Some(b + 5 + i)),
      seq(4, i => Some(b + 11 + i)) + [None] ]
  }

  /** No sprite is used twice, whether by one mentat or by two different ones. */
  lemma SpritesDistinct(m: MentatId, r: nat, c: nat, m': MentatId, r': nat, c': nat)
    requires r < 3 && c < 5 && r' < 3 && c' < 5
    requires SetSprites(m)[r][c].Some? && SetSprites(m')[r'][c'].Some?
    requires SetSprites(m)[r][c] == SetSprites(m')[r'][c']
    ensures m == m' && r == r' && c == c'
  {
    var v := SetSprites(m)[r][c].value;
    assert SpriteBase(m) <= v < SpriteBase(m) + 15;
    assert SpriteBase(m') <= v < SpriteBase(m') + 15;
    assert m.Index() == m'.Index();
    assert m == m' by {
      match m
      case Radnor =>
      case Cyril =>
      case Ammon =>
      case BeneGesserit =>
    }
  }

  /*------------------------------------------------------------------
   * Text splitting
   *------------------------------------------------------------------*/

  const CR: Byte := '\r' as int
  const SP: Byte := ' ' as int

  /** The width of a character in the current font (Font_GetCharWidth). */
  type Font = Byte -> nat

  /** The byte at `i`, reading the terminating NUL just past the end. */
  function At(s: seq<Byte>, i: nat): (c: Byte)
    ensures i < |s| ==> c == s[i]
  {
    if i < |s| then s[i] else NUL
  }

  /** A sentence end, a carriage return or the end of the text: no row reaches past it. */
  predicate IsRowStop(c: Byte) {
    c == '.' as int || c == '!' as int || c == '?' as int || c == CR || c == NUL
  }

  /** The characters skipped between two chunks. */
  predicate IsSeparator(c: Byte) {
    c == SP || c == '.' as int || c == '!' as int || c == '?' as int || c == CR
  }

  /** How far a row reaches from `p`: it takes characters while it is narrower than the limit and meets no row stop. */
  function RowScan(s: seq<Byte>, font: Font, maxWidth: nat, p: nat, width: nat): (r: (nat, nat))
    requires p <= |s|
    ensures p <= r.0 <= |s|
    ensures r.1 < maxWidth ==> IsRowStop(At(s, r.0))
    decreases |s| - p
  {
    if width < maxWidth && !IsRowStop(At(s, p)) then RowScan(s, font, maxWidth, p + 1, width + font(s[p]))
    else (p, width)
  }

  /** The last space at or before `p` in the row that starts at `rowStart`. */
  function BackToSpace(s: seq<Byte>, rowStart: nat, p: nat): (r: Option<nat>)
    requires rowStart <= p <= |s|
    ensures r.Some? ==> rowStart <= r.value <= p && At(s, r.value) == SP
    ensures r.Some? ==> forall i :: r.value < i <= p ==> At(s, i) != SP
    ensures r.None? ==> forall i :: rowStart <= i <= p ==> At(s, i) != SP
    decreases p
  {
    if At(s, p) == SP then Some(p)
    else if p == rowStart then None
    else BackToSpace(s, rowStart, p - 1)
  }

  /** The first position at or after `p` that is not a separator. */
  function SkipSeparators(s: seq<Byte>, p: nat): (r: nat)
    requires p <= |s|
    ensures p <= r <= |s|
    ensures forall i :: p <= i < r ==> IsSeparator(s[i])
    ensures r < |s| ==> !IsSeparator(s[r])
    decreases |s| - p
  {
    if p < |s| && IsSeparator(s[p]) then SkipSeparators(s, p + 1) else p
  }

  /** Where the splitter may write: a row break over a space, a chunk end over a separator. */
  predicate EditedFrom(s: seq<Byte>, t: seq<Byte>) {
    |t| == |s| &&
    forall i :: 0 <= i < |s| ==> t[i] == s[i] || (t[i] == CR && s[i] == SP) || (t[i] == NUL && IsSeparator(s[i]))
  }

  function NulCount(t: seq<Byte>): nat {
    multiset(t)[NUL]
  }

  lemma NulCountUpdate(t: seq<Byte>, i: nat, v: Byte)
    requires i < |t|
    ensures NulCount(t[i := v]) == NulCount(t) - (if t[i] == NUL then 1 else 0) + (if v == NUL then 1 else 0)
  {
    assert t == t[..i] + [t[i]] + t[i + 1..];
    assert t[i := v] == t[..i] + [v] + t[i + 1..];
  }

  /** Where the row that starts at `p` ends: at the row stop it reaches, or, once it is full, at the last space before that point. */
  function RowEnd(s: seq<Byte>, font: Font, maxWidth: nat, p: nat): (r: Option<nat>)
    requires p <= |s|
    ensures r.Some? ==> p <= r.value <= |s| && (At(s, r.value) == SP || IsRowStop(At(s, r.value)))
  {
    var (end, width) := RowScan(s, font, maxWidth, p, 0);
    if width >= maxWidth then BackToSpace(s, p, end) else Some(end)
  }

  /** The characters that end a chunk where a row stops on them. */
  predicate IsChunkStop(c: Byte) {
    c == '.' as int || c == '!' as int || c == '?' as int || c == CR
  }

  /*------------------------------------------------------------------
   * The layout of a split text
   *------------------------------------------------------------------*/

  /** A space the splitter turned into a row break. */
  predicate RowBreak(s: seq<Byte>, t: seq<Byte>, i: nat) {
    i < |s| && i < |t| && s[i] == SP && t[i] == CR
  }

  /** A row starts at the text's start, after a chunk's NUL and after a row break. */
  predicate RowStart(s: seq<Byte>, t: seq<Byte>, p: nat) {
    p == 0 || (p <= |t| && (t[p - 1] == NUL || RowBreak(s, t, p - 1)))
  }

  /** The start of the row that holds position `i`. */
  function LastRowStart(s: seq<Byte>, t: seq<Byte>, i: nat): (r: nat)
    ensures r <= i
    ensures i <= |t| ==> RowStart(s, t, r)
    decreases i
  {
    if i == 0 || i > |t| || RowStart(s, t, i) then i else LastRowStart(s, t, i - 1)
  }

  /** The row breaks written since the last NUL before position `i`: the rows above `i` in its chunk. */
  function RowsOpen(s: seq<Byte>, t: seq<Byte>, i: nat): nat
    decreases i
  {
    if i == 0 || i > |t| || t[i - 1] == NUL then 0
    else RowsOpen(s, t, i - 1) + (if RowBreak(s, t, i - 1) then 1 else 0)
  }

  /** A row break sits where the row it ends had to be broken: at the last space before the row filled up. */
  predicate BrokenRow(s: seq<Byte>, t: seq<Byte>, font: Font, maxWidth: nat, i: nat) {
    i < |s| && RowEnd(s, font, maxWidth, LastRowStart(s, t, i)) == Some(i)
  }

  /**
   * A NUL ends a chunk: its row ended on a sentence end or a carriage
   * return, or was the chunk's third row, and the NUL is over the last of
   * the separators that follow, right before the next chunk.
   */
  predicate ChunkEnd(s: seq<Byte>, t: seq<Byte>, font: Font, maxWidth: nat, i: nat) {
    i + 1 < |s| &&
    var r := LastRowStart(s, t, i);
    RowEnd(s, font, maxWidth, r).Some? &&
    var q := RowEnd(s, font, maxWidth, r).value;
    q <= i && SkipSeparators(s, q) == i + 1 &&
    (IsChunkStop(At(s, q)) || RowsOpen(s, t, r) == 2)
  }

  /**
   * The row that starts at `r` was laid out: it ends where RowEnd says, and
   * there it either closes the chunk (a NUL before the next chunk, unless
   * the text ends first) or breaks to the next row.
   */
  predicate RowHandled(s: seq<Byte>, t: seq<Byte>, font: Font, maxWidth: nat, r: nat) {
    r <= |s| == |t| && RowEnd(s, font, maxWidth, r).Some? &&
    var q := RowEnd(s, font, maxWidth, r).value;
    var n := SkipSeparators(s, q);
    if IsChunkStop(At(s, q)) || RowsOpen(s, t, r) == 2 then n < |s| ==> 0 < n && t[n - 1] == NUL
    else q == |s| || RowBreak(s, t, q)
  }

  /** No chunk below `p` holds more than two row breaks. */
  predicate RowsBounded(s: seq<Byte>, t: seq<Byte>, p: nat) {
    forall i :: 0 <= i <= p ==> RowsOpen(s, t, i) <= 2
  }

  /** Every row break below `p` is where its row had to be broken. */
  predicate BreaksPlaced(s: seq<Byte>, font: Font, maxWidth: nat, t: seq<Byte>, p: nat) {
    forall i {:trigger BrokenRow(s, t, font, maxWidth, i)} :: 0 <= i < p && RowBreak(s, t, i) ==> BrokenRow(s, t, font, maxWidth, i)
  }

  /** Every NUL below `p` ends a chunk. */
  predicate NulsPlaced(s: seq<Byte>, font: Font, maxWidth: nat, t: seq<Byte>, p: nat) {
    forall i {:trigger ChunkEnd(s, t, font, maxWidth, i)} :: 0 <= i < p && i < |t| && t[i] == NUL ==> ChunkEnd(s, t, font, maxWidth, i)
  }

  /** Every row that starts below `p` is laid out. */
  predicate RowsLaid(s: seq<Byte>, font: Font, maxWidth: nat, t: seq<Byte>, p: nat) {
    forall r {:trigger RowHandled(s, t, font, maxWidth, r)} :: 0 <= r < p && RowStart(s, t, r) ==> RowHandled(s, t, font, maxWidth, r)
  }

  /** The layout of `t` up to position `p`: at most two row breaks per chunk, every edit where it belongs, every row laid out. */
  predicate LaidTo(s: seq<Byte>, font: Font, maxWidth: nat, t: seq<Byte>, p: nat) {
    RowsBounded(s, t, p) && BreaksPlaced(s, font, maxWidth, t, p) &&
    NulsPlaced(s, font, maxWidth, t, p) && RowsLaid(s, font, maxWidth, t, p)
  }

  /** `t` is `s` split into chunks of at most three rows of at most `maxWidth` pixels. */
  predicate Layout(s: seq<Byte>, font: Font, maxWidth: nat, t: seq<Byte>) {
    EditedFrom(s, t) && LaidTo(s, font, maxWidth, t, |s|)
  }

  /*------------------------------------------------------------------
   * Facts about the layout
   *------------------------------------------------------------------*/

  /** Texts that agree below `k`. */
  predicate AgreeBelow(t: seq<Byte>, t': seq<Byte>, k: nat) {
    |t| == |t'| && k <= |t| && forall j :: 0 <= j < k ==> t[j] == t'[j]
  }

  /** Rows, row starts and open rows up to `k` only look at the text below `k`. */
  lemma {:induction false} FrameBelow(s: seq<Byte>, t: seq<Byte>, t': seq<Byte>, k: nat, i: nat)
    requires AgreeBelow(t, t', k) && i <= k
    ensures RowStart(s, t, i) == RowStart(s, t', i)
    ensures LastRowStart(s, t, i) == LastRowStart(s, t', i)
    ensures RowsOpen(s, t, i) == RowsOpen(s, t', i)
    decreases i
  {
    if i > 0 {
      assert t[i - 1] == t'[i - 1];
      FrameBelow(s, t, t', k, i - 1);
    }
  }

  /** A row break or a NUL at or below `k` keeps its meaning when only the text from `k` on changes. */
  lemma FrameEdits(s: seq<Byte>, t: seq<Byte>, t': seq<Byte>, font: Font, maxWidth: nat, k: nat, i: nat)
    requires AgreeBelow(t, t', k) && i <= k
    ensures BrokenRow(s, t, font, maxWidth, i) == BrokenRow(s, t', font, maxWidth, i)
    ensures ChunkEnd(s, t, font, maxWidth, i) == ChunkEnd(s, t', font, maxWidth, i)
  {
    FrameBelow(s, t, t', k, i);
    FrameBelow(s, t, t', k, LastRowStart(s, t, i));
  }

  /** Over a stretch the splitter has not touched no row starts, so the row and its open rows stay the same. */
  lemma {:induction false} Untouched(s: seq<Byte>, t: seq<Byte>, a: nat, b: nat)
    requires NoNul(s) && |t| == |s| && a <= b <= |s|
    requires forall j :: a <= j < b ==> t[j] == s[j]
    ensures a < b ==> !RowStart(s, t, b)
    ensures LastRowStart(s, t, b) == LastRowStart(s, t, a) && RowsOpen(s, t, b) == RowsOpen(s, t, a)
    decreases b - a
  {
    if a < b {
      Untouched(s, t, a, b - 1);
      assert t[b - 1] == s[b - 1] != NUL;
      assert !RowStart(s, t, b);
    }
  }

  /** A row laid out below `p` stays laid out when the splitter writes at or after `p`. */
  lemma HandledKept(s: seq<Byte>, t: seq<Byte>, t': seq<Byte>, font: Font, maxWidth: nat, p: nat, r: nat)
    requires NoNul(s) && |t| == |s| && p <= |s| && r < p
    requires forall j :: p <= j < |s| ==> t[j] == s[j]
    requires AgreeBelow(t, t', p)
    requires RowHandled(s, t, font, maxWidth, r)
    ensures RowHandled(s, t', font, maxWidth, r)
  {
    FrameBelow(s, t, t', p, r);
    var q := RowEnd(s, font, maxWidth, r).value;
    var n := SkipSeparators(s, q);
    if n < |s| && 0 < n && t[n - 1] == NUL {
      assert n - 1 < p;
    }
    if RowBreak(s, t, q) {
      assert q < p;
    }
  }

  /**
   * How far the row that starts at `p` leaves the text as it was: up to its
   * end when it breaks to the next row, and up to the NUL of its chunk (or
   * the end of the text) when it closes the chunk.
   */
  function CleanEnd(s: seq<Byte>, font: Font, maxWidth: nat, t: seq<Byte>, p: nat): nat
    requires p <= |s| && RowEnd(s, font, maxWidth, p).Some?
  {
    var q := RowEnd(s, font, maxWidth, p).value;
    var n := SkipSeparators(s, q);
    if IsChunkStop(At(s, q)) || RowsOpen(s, t, p) == 2 then (if n < |s| then n - 1 else |s|) else q
  }

  /** A row break inside the row starting at `p` is that row's end, and the row is not the chunk's second. */
  lemma BreakInRow(s: seq<Byte>, font: Font, maxWidth: nat, t: seq<Byte>, p: nat, j: nat)
    requires NoNul(s) && Layout(s, font, maxWidth, t) && RowStart(s, t, p)
    requires p <= j < |s| && RowBreak(s, t, j)
    requires forall i :: p <= i < j ==> t[i] == s[i]
    ensures RowEnd(s, font, maxWidth, p) == Some(j) && RowsOpen(s, t, p) < 2
  {
    Untouched(s, t, p, j);
    assert LastRowStart(s, t, p) == p;
    assert BrokenRow(s, t, font, maxWidth, j);
    assert RowsOpen(s, t, j + 1) == RowsOpen(s, t, j) + 1;
  }

  /** A NUL inside the row starting at `p` sits over the last separator after that row's end. */
  lemma NulInRow(s: seq<Byte>, font: Font, maxWidth: nat, t: seq<Byte>, p: nat, j: nat)
    requires NoNul(s) && Layout(s, font, maxWidth, t) && RowStart(s, t, p)
    requires p <= j < |s| && t[j] == NUL
    requires forall i :: p <= i < j ==> t[i] == s[i]
    ensures RowEnd(s, font, maxWidth, p).Some?
    ensures RowEnd(s, font, maxWidth, p).value <= j && j + 1 < |s|
    ensures SkipSeparators(s, RowEnd(s, font, maxWidth, p).value) == j + 1
  {
    Untouched(s, t, p, j);
    assert LastRowStart(s, t, p) == p;
    assert ChunkEnd(s, t, font, maxWidth, j);
  }

  /** In a laid-out text, a position inside a row and before its break or NUL is untouched. */
  lemma CleanAt(s: seq<Byte>, font: Font, maxWidth: nat, t: seq<Byte>, p: nat, j: nat)
    requires NoNul(s) && Layout(s, font, maxWidth, t) && RowStart(s, t, p)
    requires p <= j < |s| && RowEnd(s, font, maxWidth, p).Some?
    requires j < CleanEnd(s, font, maxWidth, t, p)
    requires forall i :: p <= i < j ==> t[i] == s[i]
    ensures t[j] == s[j]
  {
    if t[j] == CR && s[j] == SP {
      BreakInRow(s, font, maxWidth, t, p, j);
    } else if t[j] != s[j] {
      NulInRow(s, font, maxWidth, t, p, j);
    }
  }

  /** The untouched stretch of a row, position by position. */
  lemma {:induction false} CleanRun(s: seq<Byte>, font: Font, maxWidth: nat, t: seq<Byte>, p: nat, e: nat)
    requires NoNul(s) && Layout(s, font, maxWidth, t) && RowStart(s, t, p)
    requires p <= e <= |s| && RowEnd(s, font, maxWidth, p).Some?
    requires e <= CleanEnd(s, font, maxWidth, t, p)
    ensures forall i :: p <= i < e ==> t[i] == s[i]
    decreases e
  {
    if e > p {
      CleanRun(s, font, maxWidth, t, p, e - 1);
      CleanAt(s, font, maxWidth, t, p, e - 1);
    }
  }

  /** Two layouts that agree up to a row start agree everywhere. */
  lemma {:induction false} LayoutAgreeFrom(s: seq<Byte>, font: Font, maxWidth: nat, t1: seq<Byte>, t2: seq<Byte>, p: nat)
    requires NoNul(s) && Layout(s, font, maxWidth, t1) && Layout(s, font, maxWidth, t2)
    requires p <= |s| && RowStart(s, t1, p) && t1[..p] == t2[..p]
    ensures t1 == t2
    decreases |s| - p
  {
    assert AgreeBelow(t1, t2, p) by {
      forall i | 0 <= i < p ensures t1[i] == t2[i] {
        assert t1[..p][i] == t2[..p][i];
      }
    }
    FrameBelow(s, t1, t2, p, p);
    if p == |s| {
      assert t1 == t1[..p] && t2 == t2[..p];
    } else {
      assert RowHandled(s, t1, font, maxWidth, p);
      assert RowHandled(s, t2, font, maxWidth, p);
      var q := RowEnd(s, font, maxWidth, p).value;
      var n := SkipSeparators(s, q);
      var e := CleanEnd(s, font, maxWidth, t1, p);
      assert e == CleanEnd(s, font, maxWidth, t2, p);
      CleanRun(s, font, maxWidth, t1, p, e);
      CleanRun(s, font, maxWidth, t2, p, e);
      if e == |s| {
        assert t1 == t2 by {
          forall i | 0 <= i < |s| ensures t1[i] == t2[i] {
            if i >= p {
              assert t1[i] == s[i] == t2[i];
            }
          }
        }
      } else {
        var next := e + 1;
        assert t1[e] == t2[e];
        assert t1[..next] == t2[..next] by {
          forall i | 0 <= i < next ensures t1[i] == t2[i] {
            if p <= i < e {
              assert t1[i] == s[i] == t2[i];
            }
          }
        }
        assert RowStart(s, t1, next);
        LayoutAgreeFrom(s, font, maxWidth, t1, t2, next);
      }
    }
  }

  /** A text has at most one layout: the layout predicate pins down every byte the splitter writes. */
  lemma LayoutUnique(s: seq<Byte>, font: Font, maxWidth: nat, t1: seq<Byte>, t2: seq<Byte>)
    requires NoNul(s) && Layout(s, font, maxWidth, t1) && Layout(s, font, maxWidth, t2)
    ensures t1 == t2
  {
    LayoutAgreeFrom(s, font, maxWidth, t1, t2, 0);
  }

  /*------------------------------------------------------------------
   * The splitter
   *------------------------------------------------------------------*/

  /** The splitter's state between rows: the edited text, the chunks closed so far and the rows of the open chunk. */
  datatype SplitState = SplitState(text: seq<Byte>, lines: nat, height: nat)

  /**
   * The invariant of the splitter's loop at position `p`: a row starts at
   * `p`, `height` row breaks were written since the last NUL, everything
   * before `p` is laid out and nothing from `p` on was touched.
   */
  predicate LoopInvariant(s: seq<Byte>, font: Font, maxWidth: nat, p: nat, height: nat, lines: nat, t: seq<Byte>) {
    NoNul(s) && p <= |s| && EditedFrom(s, t) && height < 3 && lines == NulCount(t) &&
    (forall i :: p <= i < |s| ==> t[i] == s[i]) &&
    RowStart(s, t, p) && RowsOpen(s, t, p) == height && LaidTo(s, font, maxWidth, t, p)
  }

  /** The loop starts at the text's start with nothing written. */
  lemma LoopStart(s: seq<Byte>, font: Font, maxWidth: nat)
    requires NoNul(s)
    ensures LoopInvariant(s, font, maxWidth, 0, 0, 0, s)
  {
    assert NUL !in s;
    assert multiset(s)[NUL] == 0;
  }

  /**
   * The outer loop of GUI_Mentat_SplitText from position `p`. None stands
   * for a row that has to be broken but holds no space: there the source
   * walks back out of the row, which this model does not follow.
   *
   * Every chunk but the last one is ended by a NUL, so the chunks closed
   * plus an open chunk are the NULs written plus one; the loop stops with a
   * chunk open exactly when its last act was a row break over the text's
   * final character.
   */
  function SplitLoop(s: seq<Byte>, font: Font, maxWidth: nat, p: nat, height: nat, lines: nat, t: seq<Byte>): (r: Option<SplitState>)
    requires LoopInvariant(s, font, maxWidth, p, height, lines, t)
    ensures r.Some? ==> Layout(s, font, maxWidth, r.value.text)
    ensures r.Some? ==>
      r.value.lines + (if r.value.height > 0 then 1 else 0) == NulCount(r.value.text) + (if p < |s| || height > 0 then 1 else 0)
    ensures r.Some? ==> (r.value.height > 0 <==> |s| > 0 && RowBreak(s, r.value.text, |s| - 1))
    decreases |s| - p, 1
  {
    if p == |s| then
      EndOfText(s, font, maxWidth, height, lines, t);
      Some(SplitState(t, lines, height))
    else
      var back := RowEnd(s, font, maxWidth, p);
      if back.None? then None
      else if IsChunkStop(At(s, back.value)) || height + 1 >= 3 then CloseChunk(s, font, maxWidth, p, height, lines, t, back.value)
      else BreakRow(s, font, maxWidth, p, height, lines, t, back.value)
  }

  /**
   * The row from `p` ends on a sentence end or a carriage return, or is the
   * chunk's third: a NUL goes over the last separator after its end, unless
   * the text ends there.
   */
  function CloseChunk(s: seq<Byte>, font: Font, maxWidth: nat, p: nat, height: nat, lines: nat, t: seq<Byte>, q: nat): (r: Option<SplitState>)
    requires LoopInvariant(s, font, maxWidth, p, height, lines, t) && p < |s|
    requires RowEnd(s, font, maxWidth, p) == Some(q) && (IsChunkStop(At(s, q)) || height + 1 >= 3)
    ensures r.Some? ==> Layout(s, font, maxWidth, r.value.text)
    ensures r.Some? ==> r.value.lines + (if r.value.height > 0 then 1 else 0) == NulCount(r.value.text) + 1
    ensures r.Some? ==> (r.value.height > 0 <==> RowBreak(s, r.value.text, |s| - 1))
    decreases |s| - p, 0
  {
    var next := SkipSeparators(s, q);
    if next < |s| then
      ChunkEndKeeps(s, font, maxWidth, p, height, lines, t, q, next);
      SplitLoop(s, font, maxWidth, next, 0, lines + 1, t[next - 1 := NUL])
    else
      LastChunkKeeps(s, font, maxWidth, p, height, lines, t, q);
      Some(SplitState(t, lines + 1, 0))
  }

  /**
   * The row from `p` ends on a space, which becomes a carriage return, or on
   * the text's end, which closes the last chunk.
   */
  function BreakRow(s: seq<Byte>, font: Font, maxWidth: nat, p: nat, height: nat, lines: nat, t: seq<Byte>, q: nat): (r: Option<SplitState>)
    requires LoopInvariant(s, font, maxWidth, p, height, lines, t) && p < |s|
    requires RowEnd(s, font, maxWidth, p) == Some(q) && !IsChunkStop(At(s, q)) && height + 1 < 3
    ensures r.Some? ==> Layout(s, font, maxWidth, r.value.text)
    ensures r.Some? ==> r.value.lines + (if r.value.height > 0 then 1 else 0) == NulCount(r.value.text) + 1
    ensures r.Some? ==> (r.value.height > 0 <==> RowBreak(s, r.value.text, |s| - 1))
    decreases |s| - p, 0
  {
    if At(s, q) == NUL then
      LastChunkKeeps(s, font, maxWidth, p, height, lines, t, q);
      Some(SplitState(t, lines + 1, 0))
    else
      RowBreakKeeps(s, font, maxWidth, p, height, lines, t, q);
      SplitLoop(s, font, maxWidth, q + 1, height + 1, lines, t[q := CR])
  }

  /** A row that closes the last chunk, by its stop or by running into the text's end, finishes the layout. */
  lemma LastChunkKeeps(s: seq<Byte>, font: Font, maxWidth: nat, p: nat, height: nat, lines: nat, t: seq<Byte>, q: nat)
    requires LoopInvariant(s, font, maxWidth, p, height, lines, t)
    requires p < |s| && RowEnd(s, font, maxWidth, p) == Some(q)
    requires if IsChunkStop(At(s, q)) || height + 1 >= 3 then SkipSeparators(s, q) >= |s| else At(s, q) == NUL
    ensures Layout(s, font, maxWidth, t) && !RowBreak(s, t, |s| - 1) && lines == NulCount(t)
  {
    assert RowHandled(s, t, font, maxWidth, p);
    LastRowKeeps(s, font, maxWidth, p, height, lines, t);
  }

  /** At the end of the text a chunk is open exactly when the last row was ended by a row break. */
  lemma EndOfText(s: seq<Byte>, font: Font, maxWidth: nat, height: nat, lines: nat, t: seq<Byte>)
    requires LoopInvariant(s, font, maxWidth, |s|, height, lines, t)
    ensures Layout(s, font, maxWidth, t)
    ensures height > 0 <==> |s| > 0 && RowBreak(s, t, |s| - 1)
  {
  }

  /** What the splitter may assume when it writes at `k`: a row starts at `p` and nothing from `p` on was touched. */
  predicate WriteAt(s: seq<Byte>, p: nat, t: seq<Byte>, k: nat, t': seq<Byte>) {
    NoNul(s) && |t| == |s| && p <= k < |s| && (forall j :: p <= j < |s| ==> t[j] == s[j]) &&
    RowStart(s, t, p) && |t'| == |t| && t' == t[k := t'[k]]
  }

  /** Below the written position the rows are those before the write, and from `p` on they all belong to the row at `p`. */
  lemma WriteFrameAt(s: seq<Byte>, p: nat, t: seq<Byte>, k: nat, t': seq<Byte>, i: nat)
    requires WriteAt(s, p, t, k, t') && i <= k
    ensures RowsOpen(s, t', i) == RowsOpen(s, t, i) && RowStart(s, t', i) == RowStart(s, t, i)
    ensures LastRowStart(s, t', i) == LastRowStart(s, t, i)
    ensures p <= i ==> LastRowStart(s, t', i) == p && RowsOpen(s, t', i) == RowsOpen(s, t, p)
    ensures p < i ==> !RowStart(s, t', i)
  {
    assert AgreeBelow(t, t', k);
    FrameBelow(s, t, t', k, i);
    if p <= i {
      Untouched(s, t, p, i);
      assert LastRowStart(s, t, p) == p;
    }
  }

  /** A write keeps every chunk at two row breaks or fewer when the new row count is. */
  lemma WriteKeepsRows(s: seq<Byte>, p: nat, t: seq<Byte>, k: nat, t': seq<Byte>)
    requires WriteAt(s, p, t, k, t') && RowsBounded(s, t, p)
    requires RowsOpen(s, t', k + 1) <= 2
    ensures RowsBounded(s, t', k + 1)
  {
    assert RowsOpen(s, t, p) <= 2;
    forall i | 0 <= i <= k + 1
      ensures RowsOpen(s, t', i) <= 2
    {
      if i <= k {
        WriteFrameAt(s, p, t, k, t', i);
        if i <= p {
          assert RowsOpen(s, t, i) <= 2;
        }
      }
    }
  }

  /** A write keeps every row break where it belongs when a new one is. */
  lemma WriteKeepsBreaks(s: seq<Byte>, font: Font, maxWidth: nat, p: nat, t: seq<Byte>, k: nat, t': seq<Byte>)
    requires WriteAt(s, p, t, k, t') && BreaksPlaced(s, font, maxWidth, t, p)
    requires RowBreak(s, t', k) ==> BrokenRow(s, t', font, maxWidth, k)
    ensures BreaksPlaced(s, font, maxWidth, t', k + 1)
  {
    assert AgreeBelow(t, t', k);
    forall i | 0 <= i < k + 1 && RowBreak(s, t', i)
      ensures BrokenRow(s, t', font, maxWidth, i)
    {
      if i < k {
        assert t'[i] == t[i];
        assert RowBreak(s, t, i);
        assert i < p;
        FrameEdits(s, t, t', font, maxWidth, k, i);
      }
    }
  }

  /** A write keeps every NUL where it belongs when a new one is. */
  lemma WriteKeepsNuls(s: seq<Byte>, font: Font, maxWidth: nat, p: nat, t: seq<Byte>, k: nat, t': seq<Byte>)
    requires WriteAt(s, p, t, k, t') && NulsPlaced(s, font, maxWidth, t, p)
    requires t'[k] == NUL ==> ChunkEnd(s, t', font, maxWidth, k)
    ensures NulsPlaced(s, font, maxWidth, t', k + 1)
  {
    assert AgreeBelow(t, t', k);
    forall i | 0 <= i < k + 1 && i < |t'| && t'[i] == NUL
      ensures ChunkEnd(s, t', font, maxWidth, i)
    {
      if i < k {
        assert t[i] == NUL;
        assert i < p;
        FrameEdits(s, t, t', font, maxWidth, k, i);
      }
    }
  }

  /** A write keeps every row laid out when the row at `p` is. */
  lemma WriteKeepsHandled(s: seq<Byte>, font: Font, maxWidth: nat, p: nat, t: seq<Byte>, k: nat, t': seq<Byte>)
    requires WriteAt(s, p, t, k, t') && RowsLaid(s, font, maxWidth, t, p)
    requires RowHandled(s, t', font, maxWidth, p)
    ensures RowsLaid(s, font, maxWidth, t', k + 1)
  {
    assert AgreeBelow(t, t', k);
    assert AgreeBelow(t, t', p);
    forall r | 0 <= r < k + 1 && RowStart(s, t', r)
      ensures RowHandled(s, t', font, maxWidth, r)
    {
      WriteFrameAt(s, p, t, k, t', r);
      if r < p {
        assert RowStart(s, t, r);
        HandledKept(s, t, t', font, maxWidth, p, r);
      }
    }
  }

  /** The NUL that ends a chunk is where it belongs, and the row it ends is laid out. */
  lemma ChunkEndPlaced(s: seq<Byte>, font: Font, maxWidth: nat, p: nat, height: nat, t: seq<Byte>, q: nat, next: nat, t': seq<Byte>)
    requires p <= q < next < |s| && next == SkipSeparators(s, q)
    requires WriteAt(s, p, t, next - 1, t') && t'[next - 1] == NUL && RowsOpen(s, t, p) == height < 3
    requires RowEnd(s, font, maxWidth, p) == Some(q)
    requires IsChunkStop(At(s, q)) || height + 1 >= 3
    ensures ChunkEnd(s, t', font, maxWidth, next - 1) && RowHandled(s, t', font, maxWidth, p)
    ensures RowStart(s, t', next) && RowsOpen(s, t', next) == 0
  {
    WriteFrameAt(s, p, t, next - 1, t', p);
    WriteFrameAt(s, p, t, next - 1, t', next - 1);
  }

  /** The text stays laid out up to the next chunk once the NUL is written. */
  lemma ChunkEndLaid(s: seq<Byte>, font: Font, maxWidth: nat, p: nat, height: nat, t: seq<Byte>, q: nat, next: nat)
    requires p <= q < next < |s| && next == SkipSeparators(s, q)
    requires |t| == |s| && WriteAt(s, p, t, next - 1, t[next - 1 := NUL]) && RowsOpen(s, t, p) == height < 3
    requires LaidTo(s, font, maxWidth, t, p)
    requires RowEnd(s, font, maxWidth, p) == Some(q)
    requires IsChunkStop(At(s, q)) || height + 1 >= 3
    ensures LaidTo(s, font, maxWidth, t[next - 1 := NUL], next)
    ensures RowStart(s, t[next - 1 := NUL], next) && RowsOpen(s, t[next - 1 := NUL], next) == 0
  {
    var k := next - 1;
    var t' := t[k := NUL];
    ChunkEndPlaced(s, font, maxWidth, p, height, t, q, next, t');
    WriteKeepsRows(s, p, t, k, t');
    WriteKeepsBreaks(s, font, maxWidth, p, t, k, t');
    WriteKeepsNuls(s, font, maxWidth, p, t, k, t');
    WriteKeepsHandled(s, font, maxWidth, p, t, k, t');
  }

  /** Ending a chunk with a NUL over the last separator before the next chunk keeps the invariant. */
  lemma ChunkEndKeeps(s: seq<Byte>, font: Font, maxWidth: nat, p: nat, height: nat, lines: nat, t: seq<Byte>, q: nat, next: nat)
    requires LoopInvariant(s, font, maxWidth, p, height, lines, t)
    requires p < |s| && RowEnd(s, font, maxWidth, p) == Some(q)
    requires IsChunkStop(At(s, q)) || height + 1 >= 3
    requires next == SkipSeparators(s, q) && next < |s|
    ensures q < next && LoopInvariant(s, font, maxWidth, next, 0, lines + 1, t[next - 1 := NUL])
  {
    assert q < |s| && IsSeparator(s[q]);
    var k := next - 1;
    assert IsSeparator(s[k]);
    NulCountUpdate(t, k, NUL);
    ChunkEndLaid(s, font, maxWidth, p, height, t, q, next);
    assert EditedFrom(s, t[k := NUL]);
  }

  /** The row break is where it belongs, and the row it ends is laid out. */
  lemma RowBreakPlaced(s: seq<Byte>, font: Font, maxWidth: nat, p: nat, height: nat, t: seq<Byte>, q: nat, t': seq<Byte>)
    requires WriteAt(s, p, t, q, t') && t'[q] == CR && RowsOpen(s, t, p) == height && height + 1 < 3
    requires RowEnd(s, font, maxWidth, p) == Some(q) && s[q] == SP
    ensures BrokenRow(s, t', font, maxWidth, q) && RowHandled(s, t', font, maxWidth, p)
    ensures RowStart(s, t', q + 1) && RowsOpen(s, t', q + 1) == height + 1
  {
    WriteFrameAt(s, p, t, q, t', p);
    WriteFrameAt(s, p, t, q, t', q);
    assert RowBreak(s, t', q);
  }

  /** The text stays laid out up to the next row once the row break is written. */
  lemma RowBreakLaid(s: seq<Byte>, font: Font, maxWidth: nat, p: nat, height: nat, t: seq<Byte>, q: nat)
    requires q < |s| == |t| && WriteAt(s, p, t, q, t[q := CR]) && RowsOpen(s, t, p) == height && height + 1 < 3
    requires LaidTo(s, font, maxWidth, t, p)
    requires RowEnd(s, font, maxWidth, p) == Some(q) && s[q] == SP
    ensures LaidTo(s, font, maxWidth, t[q := CR], q + 1)
    ensures RowStart(s, t[q := CR], q + 1) && RowsOpen(s, t[q := CR], q + 1) == height + 1
  {
    var t' := t[q := CR];
    RowBreakPlaced(s, font, maxWidth, p, height, t, q, t');
    WriteKeepsRows(s, p, t, q, t');
    WriteKeepsBreaks(s, font, maxWidth, p, t, q, t');
    WriteKeepsNuls(s, font, maxWidth, p, t, q, t');
    WriteKeepsHandled(s, font, maxWidth, p, t, q, t');
  }

  /** A row break over a space keeps the invariant. */
  lemma RowBreakKeeps(s: seq<Byte>, font: Font, maxWidth: nat, p: nat, height: nat, lines: nat, t: seq<Byte>, q: nat)
    requires LoopInvariant(s, font, maxWidth, p, height, lines, t)
    requires p < |s| && RowEnd(s, font, maxWidth, p) == Some(q)
    requires q < |s| && s[q] == SP && height + 1 < 3
    ensures LoopInvariant(s, font, maxWidth, q + 1, height + 1, lines, t[q := CR])
  {
    NulCountUpdate(t, q, CR);
    RowBreakLaid(s, font, maxWidth, p, height, t, q);
    assert EditedFrom(s, t[q := CR]);
  }

  /** A last row that reaches the end of the text, or closes the last chunk, completes the layout. */
  lemma LastRowKeeps(s: seq<Byte>, font: Font, maxWidth: nat, p: nat, height: nat, lines: nat, t: seq<Byte>)
    requires LoopInvariant(s, font, maxWidth, p, height, lines, t)
    requires p < |s| && RowHandled(s, t, font, maxWidth, p)
    ensures Layout(s, font, maxWidth, t)
    ensures !RowBreak(s, t, |s| - 1)
  {
    assert RowsOpen(s, t, p) <= 2;
    assert RowsBounded(s, t, |s|) by {
      forall i | 0 <= i <= |s|
        ensures RowsOpen(s, t, i) <= 2
      {
        if i > p {
          Untouched(s, t, p, i);
        }
      }
    }
    assert BreaksPlaced(s, font, maxWidth, t, |s|) by {
      forall i | 0 <= i < |s| && RowBreak(s, t, i)
        ensures BrokenRow(s, t, font, maxWidth, i)
      {
        assert i < p;
      }
    }
    assert NulsPlaced(s, font, maxWidth, t, |s|) by {
      forall i | 0 <= i < |s| && i < |t| && t[i] == NUL
        ensures ChunkEnd(s, t, font, maxWidth, i)
      {
        assert i < p;
      }
    }
    assert RowsLaid(s, font, maxWidth, t, |s|) by {
      forall r | 0 <= r < |s| && RowStart(s, t, r)
        ensures RowHandled(s, t, font, maxWidth, r)
      {
        if r > p {
          Untouched(s, t, p, r);
        }
      }
    }
  }

  /** The text after splitting, and the number of chunks the function reports. */
  datatype SplitResult = SplitResult(text: seq<Byte>, lines: nat)

  /**
   * GUI_Mentat_SplitText as written: the text is laid out in chunks of at
   * most three rows, and the count returned is the number of chunks
   * closed, which leaves out a chunk whose last row break falls on the
   * text's final character.
   */
  function SplitTextAsWritten(str: Option<seq<Byte>>, font: Font, maxWidth: nat): (r: Option<SplitResult>)
    requires str.Some? ==> NoNul(str.value)
    ensures str.None? ==> r == Some(SplitResult([], 0))
    ensures str.Some? && r.Some? ==> Layout(str.value, font, maxWidth, r.value.text)
    ensures str.Some? && r.Some? ==>
      r.value.lines == NulCount(r.value.text) + (if |str.value| > 0 && !RowBreak(str.value, r.value.text, |str.value| - 1) then 1 else 0)
  {
    match str
    case None => Some(SplitResult([], 0))
    case Some(s) =>
      LoopStart(s, font, maxWidth);
      match SplitLoop(s, font, maxWidth, 0, 0, 0, s)
      case None => None
      case Some(st) => Some(SplitResult(st.text, st.lines))
  }

  /**
   * GUI_Mentat_SplitText with the open chunk counted at the end of the
   * text: a NULL text has no chunks, and otherwise the text is laid out
   * in one chunk more than the NULs written.
   */
  function SplitText(str: Option<seq<Byte>>, font: Font, maxWidth: nat): (r: Option<SplitResult>)
    requires str.Some? ==> NoNul(str.value)
    ensures str.None? ==> r == Some(SplitResult([], 0))
    ensures str.Some? && r.Some? ==> Layout(str.value, font, maxWidth, r.value.text)
    ensures str.Some? && r.Some? ==> r.value.lines == NulCount(r.value.text) + (if |str.value| > 0 then 1 else 0)
  {
    match str
    case None => Some(SplitResult([], 0))
    case Some(s) =>
      LoopStart(s, font, maxWidth);
      match SplitLoop(s, font, maxWidth, 0, 0, 0, s)
      case None => None
      case Some(st) => Some(SplitResult(st.text, st.lines + (if st.height > 0 then 1 else 0)))
  }

  /**
   * The two counts split the same text the same way and differ by one
   * exactly when the text ends on a row break.
   */
  lemma SplitTextAsWrittenAgrees(str: Option<seq<Byte>>, font: Font, maxWidth: nat)
    requires str.Some? ==> NoNul(str.value)
    ensures SplitTextAsWritten(str, font, maxWidth).Some? <==> SplitText(str, font, maxWidth).Some?
    ensures SplitText(str, font, maxWidth).Some? ==>
      var w := SplitTextAsWritten(str, font, maxWidth).value;
      var r := SplitText(str, font, maxWidth).value;
      w.text == r.text &&
      r.lines == w.lines + (if str.Some? && |str.value| > 0 && RowBreak(str.value, r.text, |str.value| - 1) then 1 else 0)
  {
  }

  /** Writing at `k` the byte the layout has there extends the agreement past `k`, over an untouched stretch from `p`. */
  lemma AgreeAfterWrite(s: seq<Byte>, t: seq<Byte>, layout: seq<Byte>, p: nat, k: nat, b: Byte)
    requires AgreeBelow(t, layout, p) && |s| == |t| && p <= k < |t| && layout[k] == b
    requires forall i :: p <= i < k ==> t[i] == s[i] && layout[i] == s[i]
    ensures AgreeBelow(t[k := b], layout, k + 1)
  {
    forall j | 0 <= j < k + 1 ensures t[k := b][j] == layout[j] {
      if p <= j < k {
        assert t[j] == s[j] == layout[j];
      }
    }
  }

  /** One step of the splitter at a row that closes its chunk. */
  lemma ChunkStep(s: seq<Byte>, font: Font, maxWidth: nat, p: nat, height: nat, lines: nat, t: seq<Byte>, q: nat, next: nat)
    requires LoopInvariant(s, font, maxWidth, p, height, lines, t) && p < |s|
    requires RowEnd(s, font, maxWidth, p) == Some(q) && (IsChunkStop(At(s, q)) || height + 1 >= 3)
    requires next == SkipSeparators(s, q)
    requires next < |s| ==> 0 < next && LoopInvariant(s, font, maxWidth, next, 0, lines + 1, t[next - 1 := NUL])
    ensures next < |s| ==>
      SplitLoop(s, font, maxWidth, p, height, lines, t) == SplitLoop(s, font, maxWidth, next, 0, lines + 1, t[next - 1 := NUL])
    ensures next >= |s| ==> SplitLoop(s, font, maxWidth, p, height, lines, t).Some?
  {
  }

  /** One step of the splitter at a row that ends in a row break, or at the text's end. */
  lemma BreakStep(s: seq<Byte>, font: Font, maxWidth: nat, p: nat, height: nat, lines: nat, t: seq<Byte>, q: nat)
    requires LoopInvariant(s, font, maxWidth, p, height, lines, t) && p < |s|
    requires RowEnd(s, font, maxWidth, p) == Some(q) && !IsChunkStop(At(s, q)) && height + 1 < 3
    requires At(s, q) != NUL ==> q < |s| && LoopInvariant(s, font, maxWidth, q + 1, height + 1, lines, t[q := CR])
    ensures At(s, q) != NUL ==>
      SplitLoop(s, font, maxWidth, p, height, lines, t) == SplitLoop(s, font, maxWidth, q + 1, height + 1, lines, t[q := CR])
    ensures At(s, q) == NUL ==> SplitLoop(s, font, maxWidth, p, height, lines, t).Some?
  {
  }

  /**
   * At a row start where the splitter agrees with a layout, the row has an
   * end, and the byte the splitter writes for the row is the layout's.
   */
  lemma RowFollowsLayout(s: seq<Byte>, font: Font, maxWidth: nat, p: nat, height: nat, lines: nat, t: seq<Byte>, layout: seq<Byte>)
    requires LoopInvariant(s, font, maxWidth, p, height, lines, t) && p < |s|
    requires Layout(s, font, maxWidth, layout) && AgreeBelow(t, layout, p)
    ensures RowEnd(s, font, maxWidth, p).Some?
    ensures var q := RowEnd(s, font, maxWidth, p).value;
      var next := SkipSeparators(s, q);
      (IsChunkStop(At(s, q)) || height + 1 >= 3 ==>
        next < |s| ==> 0 < next && AgreeBelow(t[next - 1 := NUL], layout, next)) &&
      (!IsChunkStop(At(s, q)) && height + 1 < 3 && At(s, q) != NUL ==>
        q < |s| && AgreeBelow(t[q := CR], layout, q + 1))
  {
    FrameBelow(s, t, layout, p, p);
    assert RowHandled(s, layout, font, maxWidth, p);
    var q := RowEnd(s, font, maxWidth, p).value;
    var next := SkipSeparators(s, q);
    CleanRun(s, font, maxWidth, layout, p, CleanEnd(s, font, maxWidth, layout, p));
    if IsChunkStop(At(s, q)) || height + 1 >= 3 {
      if next < |s| {
        AgreeAfterWrite(s, t, layout, p, next - 1, NUL);
      }
    } else if At(s, q) != NUL {
      AgreeAfterWrite(s, t, layout, p, q, CR);
    }
  }

  /**
   * The splitter does not give up on a text that has a layout: while what it
   * wrote agrees with that layout, each row it reaches has an end.
   */
  lemma {:induction false} SplitLoopFindsLayout(s: seq<Byte>, font: Font, maxWidth: nat, p: nat, height: nat, lines: nat, t: seq<Byte>, layout: seq<Byte>)
    requires LoopInvariant(s, font, maxWidth, p, height, lines, t)
    requires Layout(s, font, maxWidth, layout) && AgreeBelow(t, layout, p)
    ensures SplitLoop(s, font, maxWidth, p, height, lines, t).Some?
    decreases |s| - p, 1
  {
    if p < |s| {
      RowFollowsLayout(s, font, maxWidth, p, height, lines, t, layout);
      var q := RowEnd(s, font, maxWidth, p).value;
      if IsChunkStop(At(s, q)) || height + 1 >= 3 {
        ChunkFollowsLayout(s, font, maxWidth, p, height, lines, t, layout, q, SkipSeparators(s, q));
      } else {
        BreakFollowsLayout(s, font, maxWidth, p, height, lines, t, layout, q);
      }
    }
  }

  /** SplitLoopFindsLayout at a row that closes its chunk. */
  lemma {:induction false} ChunkFollowsLayout(s: seq<Byte>, font: Font, maxWidth: nat, p: nat, height: nat, lines: nat, t: seq<Byte>, layout: seq<Byte>, q: nat, next: nat)
    requires LoopInvariant(s, font, maxWidth, p, height, lines, t) && p < |s|
    requires RowEnd(s, font, maxWidth, p) == Some(q) && (IsChunkStop(At(s, q)) || height + 1 >= 3)
    requires next == SkipSeparators(s, q)
    requires Layout(s, font, maxWidth, layout)
    requires next < |s| ==> 0 < next && AgreeBelow(t[next - 1 := NUL], layout, next)
    ensures SplitLoop(s, font, maxWidth, p, height, lines, t).Some?
    decreases |s| - p, 0
  {
    if next < |s| {
      ChunkEndKeeps(s, font, maxWidth, p, height, lines, t, q, next);
    }
    ChunkStep(s, font, maxWidth, p, height, lines, t, q, next);
    if next < |s| {
      SplitLoopFindsLayout(s, font, maxWidth, next, 0, lines + 1, t[next - 1 := NUL], layout);
    }
  }

  /** SplitLoopFindsLayout at a row that ends in a row break or at the text's end. */
  lemma {:induction false} BreakFollowsLayout(s: seq<Byte>, font: Font, maxWidth: nat, p: nat, height: nat, lines: nat, t: seq<Byte>, layout: seq<Byte>, q: nat)
    requires LoopInvariant(s, font, maxWidth, p, height, lines, t) && p < |s|
    requires RowEnd(s, font, maxWidth, p) == Some(q) && !IsChunkStop(At(s, q)) && height + 1 < 3
    requires Layout(s, font, maxWidth, layout)
    requires At(s, q) != NUL ==> q < |s| && AgreeBelow(t[q := CR], layout, q + 1)
    ensures SplitLoop(s, font, maxWidth, p, height, lines, t).Some?
    decreases |s| - p, 0
  {
    if At(s, q) != NUL {
      RowBreakKeeps(s, font, maxWidth, p, height, lines, t, q);
    }
    BreakStep(s, font, maxWidth, p, height, lines, t, q);
    if At(s, q) != NUL {
      SplitLoopFindsLayout(s, font, maxWidth, q + 1, height + 1, lines, t[q := CR], layout);
    }
  }

  /**
   * The layout is an independent definition of the splitter: a text without
   * NULs has a layout exactly when the splitter succeeds, and then the
   * splitter writes that layout.
   */
  lemma SplitTextWritesTheLayout(s: seq<Byte>, font: Font, maxWidth: nat, layout: seq<Byte>)
    requires NoNul(s) && Layout(s, font, maxWidth, layout)
    ensures SplitText(Some(s), font, maxWidth) == Some(SplitResult(layout, NulCount(layout) + (if |s| > 0 then 1 else 0)))
  {
    LoopStart(s, font, maxWidth);
    SplitLoopFindsLayout(s, font, maxWidth, 0, 0, 0, s, layout);
    LayoutUnique(s, font, maxWidth, SplitText(Some(s), font, maxWidth).value.text, layout);
  }

  /** The font of the counterexample: every character one pixel wide. */
  function UnitFont(c: Byte): nat {
    1
  }

  /** A row broken at the text's final space leaves the splitter with its chunk open. */
  lemma LastRowBroken(s: seq<Byte>, font: Font, maxWidth: nat, p: nat, height: nat, lines: nat, t: seq<Byte>, q: nat)
    requires LoopInvariant(s, font, maxWidth, p, height, lines, t) && p < |s|
    requires RowEnd(s, font, maxWidth, p) == Some(q) && q + 1 == |s| && s[q] == SP && height + 1 < 3
    ensures SplitLoop(s, font, maxWidth, p, height, lines, t) == Some(SplitState(t[q := CR], lines, height + 1))
  {
    RowBreakKeeps(s, font, maxWidth, p, height, lines, t, q);
    BreakStep(s, font, maxWidth, p, height, lines, t, q);
  }

  /** A text that fills one row up to a final space is split by one row break there, with the chunk left open. */
  lemma OneRowBroken(s: seq<Byte>, font: Font, maxWidth: nat)
    requires NoNul(s) && |s| > 0 && s[|s| - 1] == SP && RowEnd(s, font, maxWidth, 0) == Some(|s| - 1)
    ensures SplitLoop(s, font, maxWidth, 0, 0, 0, s) == Some(SplitState(s[|s| - 1 := CR], 0, 1))
  {
    LoopStart(s, font, maxWidth);
    LastRowBroken(s, font, maxWidth, 0, 0, 0, s, |s| - 1);
  }

  /** The only row of "abc " at width 4 fills up at the text's end and is broken at the final space. */
  lemma AbcRowEnd()
    ensures RowEnd(Ascii("abc "), UnitFont, 4, 0) == Some(3)
  {
    var s := Ascii("abc ");
    assert s == [97, 98, 99, 32];
    assert RowScan(s, UnitFont, 4, 4, 4) == (4, 4);
    assert RowScan(s, UnitFont, 4, 3, 3) == (4, 4);
    assert RowScan(s, UnitFont, 4, 2, 2) == (4, 4);
    assert RowScan(s, UnitFont, 4, 1, 1) == (4, 4);
    assert RowScan(s, UnitFont, 4, 0, 0) == (4, 4);
    assert BackToSpace(s, 0, 4) == Some(3);
  }

  /** "abc " at width 4 is a text of the shape OneRowBroken describes, and the break turns it into "abc\r". */
  lemma AbcOneRow()
    ensures var s := Ascii("abc ");
      NoNul(s) && |s| > 0 && s[|s| - 1] == SP && RowEnd(s, UnitFont, 4, 0) == Some(|s| - 1)
      && s[|s| - 1 := CR] == Ascii("abc\r")
  {
    var s := Ascii("abc ");
    assert s == [97, 98, 99, 32];
    AbcRowEnd();
    assert s[3 := CR] == Ascii("abc\r");
  }

  /**
   * "abc " split at width 4: the row fills up at the end of the text, the
   * break goes over the final space, and the loop ends with the chunk still
   * open. The code as written reports no chunk at all, so nothing is shown.
   */
  lemma SplitTextAsWrittenDropsLastChunk()
    ensures SplitTextAsWritten(Some(Ascii("abc ")), UnitFont, 4) == Some(SplitResult(Ascii("abc\r"), 0))
  {
    AbcOneRow();
    OneRowBroken(Ascii("abc "), UnitFont, 4);
  }

  /** The corrected count reports the one chunk of "abc ". */
  lemma SplitTextCountsLastChunk()
    ensures SplitText(Some(Ascii("abc ")), UnitFont, 4) == Some(SplitResult(Ascii("abc\r"), 1))
  {
    AbcOneRow();
    OneRowBroken(Ascii("abc "), UnitFont, 4);
  }
}

=== FILE: mentat_ui.dfy ===
/**
 * The mentat screens: choosing a mentat by name, where its face is drawn,
 * which help subjects its list offers, and the briefing state machine that
 * pages through the mentat's text one chunk at a time.
 */
module MentatUi {
  import opened Wrappers
  import opened CString
  import opened OsMath
  import opened Houses
  import opened MentatGui

  /*------------------------------------------------------------------
   * Choosing a mentat
   *------------------------------------------------------------------*/

  /** The names Mentat_InitFromString recognises. */
  function MentatName(m: MentatId): seq<Byte> {
    match m
    case BeneGesserit => Ascii("BeneGesserit")
    case Radnor => Ascii("Radnor")
    case Cyril => Ascii("Cyril")
    case Ammon => Ascii("Ammon")
  }

  /**
   * Mentat_InitFromString: leading whitespace is skipped and the rest must
   * be a mentat's name in any case; anything else gives the house's own
   * mentat.
   */
  function InitFromString(str: seq<Byte>, info: HouseInfo): (m: MentatId)
    ensures (exists k: MentatId :: EqualsIgnoreCase(SkipSpace(str), MentatName(k))) ==>
      EqualsIgnoreCase(SkipSpace(str), MentatName(m))
    ensures (forall k: MentatId :: !EqualsIgnoreCase(SkipSpace(str), MentatName(k))) ==> m == info.mentat
  {
    var t := SkipSpace(str);
    if EqualsIgnoreCase(t, MentatName(BeneGesserit)) then BeneGesserit
    else if EqualsIgnoreCase(t, MentatName(Radnor)) then Radnor
    else if EqualsIgnoreCase(t, MentatName(Cyril)) then Cyril
    else if EqualsIgnoreCase(t, MentatName(Ammon)) then Ammon
    else info.mentat
  }

  /** No two mentat names are equal without regard to case. */
  lemma MentatNamesDistinct(a: MentatId, b: MentatId)
    requires EqualsIgnoreCase(MentatName(a), MentatName(b))
    ensures a == b
  {
    var x, y := MentatName(a), MentatName(b);
    assert ToLower(x[0]) == ToLower(y[0]);
  }

  lemma SkipSpaceBeforeName(pre: seq<Byte>, name: seq<Byte>)
    requires forall i :: 0 <= i < |pre| ==> IsSpace(pre[i])
    requires |name| > 0 && !IsSpace(name[0])
    ensures SkipSpace(pre + name) == name
  {
    var s := pre + name;
    var r := SkipSpace(s);
    var k := |s| - |r|;
    assert s[|pre|] == name[0];
    assert forall i :: 0 <= i < |pre| ==> s[i] == pre[i];
    assert k == |pre|;
  }

  /** A mentat's name, in any case and after any whitespace, chooses that mentat. */
  lemma InitFromName(pre: seq<Byte>, name: seq<Byte>, m: MentatId, info: HouseInfo)
    requires forall i :: 0 <= i < |pre| ==> IsSpace(pre[i])
    requires EqualsIgnoreCase(name, MentatName(m))
    ensures InitFromString(pre + name, info) == m
  {
    var n := MentatName(m);
    assert !IsSpace(ToLower(n[0]));
    assert !IsSpace(name[0]);
    SkipSpaceBeforeName(pre, name);
    var r := InitFromString(pre + name, info);
    assert EqualsIgnoreCase(SkipSpace(pre + name), MentatName(m));
    EqualsIgnoreCaseTransitive(MentatName(m), name, MentatName(r));
    MentatNamesDistinct(m, r);
  }

  lemma EqualsIgnoreCaseTransitive(a: seq<Byte>, b: seq<Byte>, c: seq<Byte>)
    requires EqualsIgnoreCase(b, a) && EqualsIgnoreCase(b, c)
    ensures EqualsIgnoreCase(a, c)
  {
  }

  /*------------------------------------------------------------------
   * Face and background
   *------------------------------------------------------------------*/

  /** A point of the mentat picture; (0, 0) marks a part the mentat does not have. */
  datatype Point = Point(x: int, y: int)
  {
    predicate IsDrawn() { x != 0 || y != 0 }
  }

  datatype MentatData = MentatData(eyes: Point, mouth: Point, shoulder: Point, accessory: Point)

  /** mentat_data: where each mentat's moving parts are drawn. */
  function CoordinateData(m: MentatId): MentatData {
    match m
    case Radnor => MentatData(Point(0x20, 0x58), Point(0x20, 0x68), Point(0x80, 0x68), Point(0x00, 0x00))
    case Cyril => MentatData(Point(0x28, 0x50), Point(0x28, 0x60), Point(0x80, 0x80), Point(0x48, 0x98))
    case Ammon => MentatData(Point(0x10, 0x50), Point(0x10, 0x60), Point(0x80, 0x80), Point(0x58, 0x90))
    case BeneGesserit => MentatData(Point(0x40, 0x50), Point(0x38, 0x60), Point(0x00, 0x00), Point(0x00, 0x00))
  }

  /**
   * Every mentat has eyes and a mouth below them; the Bene Gesserit has
   * neither shoulder nor accessory, and Radnor has no accessory.
   */
  lemma FaceParts(m: MentatId)
    ensures CoordinateData(m).eyes.IsDrawn() && CoordinateData(m).mouth.IsDrawn()
    ensures CoordinateData(m).mouth.y > CoordinateData(m).eyes.y
    ensures CoordinateData(m).shoulder.IsDrawn() <==> m != BeneGesserit
    ensures CoordinateData(m).accessory.IsDrawn() <==> m == Cyril || m == Ammon
  {
  }

  datatype Rect = Rect(left: int, top: int, right: int, bottom: int)

  /** Mentat_GetEyePositions: the eye shape's rectangle at the mentat's eye position. */
  function EyePositions(m: MentatId, shapeWidth: nat, shapeHeight: nat): (r: Rect)
    ensures Point(r.left, r.top) == CoordinateData(m).eyes
    ensures r.right - r.left == shapeWidth && r.bottom - r.top == shapeHeight
  {
    var p := CoordinateData(m).eyes;
    Rect(p.x, p.y, p.x + shapeWidth, p.y + shapeHeight)
  }

  /** Mentat_GetMouthPositions: the mouth shape's rectangle at the mentat's mouth position. */
  function MouthPositions(m: MentatId, shapeWidth: nat, shapeHeight: nat): (r: Rect)
    ensures Point(r.left, r.top) == CoordinateData(m).mouth
    ensures r.right - r.left == shapeWidth && r.bottom - r.top == shapeHeight
  {
    var p := CoordinateData(m).mouth;
    Rect(p.x, p.y, p.x + shapeWidth, p.y + shapeHeight)
  }

  /** The house whose room Mentat_DrawBackground shows: the Bene Gesserit sits in the Mercenary's. */
  function BackgroundHouse(m: MentatId): (h: HouseType)
    ensures m == BeneGesserit ==> h == Mercenary
    ensures m != BeneGesserit ==> h.Index() == m.Index()
  {
    if m == BeneGesserit then Mercenary else HouseFromIndex(m.Index())
  }

  /** The picture of each house's room, by house index. */
  function BackgroundFile(h: HouseType): seq<Byte> {
    match h
    case Harkonnen => Ascii("MENTATH.CPS")
    case Atreides => Ascii("MENTATA.CPS")
    case Ordos => Ascii("MENTATO.CPS")
    case Fremen => Ascii("MENTATF.CPS")
    case Sardaukar => Ascii("MENTATS.CPS")
    case Mercenary => Ascii("MENTATM.CPS")
  }

  /** Each room's picture is named after the house's initial, and each mentat has a room of its own. */
  lemma BackgroundsNamedAfterHouse(m: MentatId, m': MentatId)
    ensures var h := BackgroundHouse(m);
      |BackgroundFile(h)| == 11 && BackgroundFile(h)[6] == BaseHouseInfo(h).name[0] as int
    ensures BackgroundFile(BackgroundHouse(m)) == BackgroundFile(BackgroundHouse(m')) ==> m == m'
  {
    var f, f' := BackgroundFile(BackgroundHouse(m)), BackgroundFile(BackgroundHouse(m'));
    if f == f' {
      assert f[6] == f'[6];
    }
  }

  /*------------------------------------------------------------------
   * Help subjects
   *------------------------------------------------------------------*/

  /** A scroll-list entry: a category heading or a subject, where its text is, and whether it has a picture description. */
  datatype HelpItem = HelpItem(category: bool, offset: nat, noDesc: bool, text: seq<Byte>)

  /** A `char` of the buffer, which is signed. */
  function SignedChar(b: Byte): (v: int)
    ensures -128 <= v < 128
    ensures (v - b) % 256 == 0
  {
    if b >= 128 then b - 256 else b
  }

  /** The 32-bit big-endian number at `at`. */
  function ReadBE32(data: seq<Byte>, at: nat): (v: nat)
    requires at + 4 <= |data|
    ensures v < 0x1_0000_0000
  {
    ((data[at] as int * 0x100 + data[at + 1]) * 0x100 + data[at + 2]) * 0x100 + data[at + 3]
  }

  /** A record's size byte, offset, flags and text all lie within the data. */
  predicate RecordFits(data: seq<Byte>, pos: nat) {
    pos < |data| && data[pos] > 0 && pos + Max(data[pos], 8) <= |data|
  }

  /** Whether the record at `pos` is listed: its campaign is reached, and advice is wanted or it is not advice. */
  predicate Kept(data: seq<Byte>, pos: nat, campaignID: int, skipAdvice: bool)
    requires RecordFits(data, pos)
  {
    !(SignedChar(data[pos + data[pos] - 1]) > campaignID + 1) &&
    !(skipAdvice && data[pos + 5] == '0' as int)
  }

  /** The list entry a record makes; its text is cut to the 63 characters of the entry's buffer. */
  function ItemAt(data: seq<Byte>, pos: nat): (it: HelpItem)
    requires RecordFits(data, pos)
    ensures it.category <==> data[pos + 6] == '0' as int
    ensures it.noDesc <==> data[pos + 5] == '0' as int
    ensures |it.text| <= 63
  {
    var text := CStr(data[pos + 7..]);
    HelpItem(data[pos + 6] == '0' as int, ReadBE32(data, pos + 1), data[pos + 5] == '0' as int,
      text[..Min(|text|, 63)])
  }

  /** Where the records start: each begins where the previous one's size says. None if a record is empty or runs past the data. */
  function RecordStarts(data: seq<Byte>, pos: nat): (r: Option<seq<nat>>)
    ensures r.Some? ==> forall i :: 0 <= i < |r.value| ==> RecordFits(data, r.value[i])
    decreases |data| - pos
  {
    if pos >= |data| then Some([])
    else if !RecordFits(data, pos) then None
    else match RecordStarts(data, pos + data[pos])
      case None => None
      case Some(rest) => Some([pos] + rest)
  }

  /** The entries of the kept records, in order. */
  function KeptItems(data: seq<Byte>, starts: seq<nat>, campaignID: int, skipAdvice: bool): seq<HelpItem>
    requires forall i :: 0 <= i < |starts| ==> RecordFits(data, starts[i])
  {
    if |starts| == 0 then []
    else
      var rest := KeptItems(data, starts[1..], campaignID, skipAdvice);
      if Kept(data, starts[0], campaignID, skipAdvice) then [ItemAt(data, starts[0])] + rest else rest
  }

  /**
   * The record walk of Mentat_LoadHelpSubjects, one pass over the data.
   * None where the source would loop forever on an empty record or read
   * past the data.
   */
  function LoadHelpSubjects(data: seq<Byte>, pos: nat, campaignID: int, skipAdvice: bool): (r: Option<seq<HelpItem>>)
    ensures r.Some? && skipAdvice ==> forall i :: 0 <= i < |r.value| ==> !r.value[i].noDesc
    decreases |data| - pos
  {
    if pos >= |data| then Some([])
    else if !RecordFits(data, pos) then None
    else
      var size := data[pos];
      match LoadHelpSubjects(data, pos + size, campaignID, skipAdvice)
      case None => None
      case Some(rest) =>
        if Kept(data, pos, campaignID, skipAdvice) then Some([ItemAt(data, pos)] + rest) else Some(rest)
  }

  /** The walk lists exactly the entries of the kept records, in their order. */
  lemma {:induction false} LoadHelpSubjectsIsFilter(data: seq<Byte>, pos: nat, campaignID: int, skipAdvice: bool)
    ensures LoadHelpSubjects(data, pos, campaignID, skipAdvice).Some? <==> RecordStarts(data, pos).Some?
    ensures RecordStarts(data, pos).Some? ==>
      LoadHelpSubjects(data, pos, campaignID, skipAdvice).value == KeptItems(data, RecordStarts(data, pos).value, campaignID, skipAdvice)
    decreases |data| - pos
  {
    if pos < |data| && RecordFits(data, pos) {
      var next := pos + data[pos];
      LoadHelpSubjectsIsFilter(data, next, campaignID, skipAdvice);
      WalkStep(data, pos, campaignID, skipAdvice);
      if RecordStarts(data, next).Some? {
        FilterStep(data, pos, campaignID, skipAdvice);
      }
    }
  }

  lemma WalkStep(data: seq<Byte>, pos: nat, campaignID: int, skipAdvice: bool)
    requires RecordFits(data, pos)
    ensures var r := LoadHelpSubjects(data, pos + data[pos], campaignID, skipAdvice);
      LoadHelpSubjects(data, pos, campaignID, skipAdvice) ==
        if r.None? then None
        else Some((if Kept(data, pos, campaignID, skipAdvice) then [ItemAt(data, pos)] else []) + r.value)
  {
    var r := LoadHelpSubjects(data, pos + data[pos], campaignID, skipAdvice);
    if r.Some? {
      assert [] + r.value == r.value;
    }
  }

  /** One record of the walk: its entry, if kept, comes before those of the records after it. */
  lemma FilterStep(data: seq<Byte>, pos: nat, campaignID: int, skipAdvice: bool)
    requires RecordFits(data, pos)
    requires RecordStarts(data, pos + data[pos]).Some?
    ensures RecordStarts(data, pos) == Some([pos] + RecordStarts(data, pos + data[pos]).value)
    ensures KeptItems(data, RecordStarts(data, pos).value, campaignID, skipAdvice) ==
      (if Kept(data, pos, campaignID, skipAdvice) then [ItemAt(data, pos)] else []) +
      KeptItems(data, RecordStarts(data, pos + data[pos]).value, campaignID, skipAdvice)
  {
    var rest := RecordStarts(data, pos + data[pos]).value;
    assert ([pos] + rest)[1..] == rest;
  }

  /*------------------------------------------------------------------
   * Briefing
   *------------------------------------------------------------------*/

  datatype BriefingEntry = Orders | Win | Lose | Advice
  {
    function Index(): (i: nat)
      ensures i < 4
    {
      match this
      case Orders => 0
      case Win => 1
      case Lose => 2
      case Advice => 3
    }
  }

  /** The mentat string of a campaign's briefing entry: four per campaign, after the first four. */
  function BriefingStringId(campaignID: int, entry: BriefingEntry): (id: int)
    ensures 4 * (campaignID + 1) <= id < 4 * (campaignID + 2)
    ensures id % 4 == entry.Index()
  {
    (campaignID + 1) * 4 + entry.Index()
  }

  /** Different campaigns or entries never share a string. */
  lemma BriefingStringIdInjective(c: int, e: BriefingEntry, c': int, e': BriefingEntry)
    requires BriefingStringId(c, e) == BriefingStringId(c', e')
    ensures c == c' && e == e'
  {
    assert e.Index() == e'.Index();
    assert e == e' by {
      match e
      case Orders =>
      case Win =>
      case Lose =>
      case Advice =>
    }
  }

  datatype BriefingState = ShowContents | PauseDescription | ShowDescription | ShowText | Idle

  /**
   * MentatState. `text` is the mentat's text from the current chunk up to
   * its terminator, with the NULs the splitter wrote between chunks; `desc`
   * is the picture description (None for NULL); `wsa` says whether an
   * animation is loaded.
   */
  datatype MentatState = MentatState(
    state: BriefingState,
    desc: Option<seq<Byte>>,
    descLines: int,
    descTimer: int,
    text: seq<Byte>,
    lines0: int,
    lines: int,
    speakingMode: int,
    speakingTimer: int,
    wsa: bool)

  /** The width the mentat's text is split to. */
  const TextWidth: nat := 304

  /** Whether the mentat's text splits without a row that has no space to break at. */
  predicate Splittable(text: seq<Byte>, font: Font) {
    SplitTextAsWritten(Some(CStr(text)), font, TextWidth).Some?
  }

  /** The number of chunks GUI_Mentat_SplitText reports for `s` laid out as `t`: the last one is missed when `t` ends on a row break. */
  function ChunksReported(s: seq<Byte>, t: seq<Byte>): nat {
    NulCount(t) + (if |s| > 0 && !RowBreak(s, t, |s| - 1) then 1 else 0)
  }

  /**
   * MentatBriefing_SplitText: the text is laid out in chunks of at most
   * three rows, the count GUI_Mentat_SplitText reports becomes the number
   * of lines still to be spoken, and the mentat speaks for four ticks per
   * character of the first chunk.
   */
  function BriefingSplitText(m: MentatState, now: int, font: Font): (m': MentatState)
    requires Splittable(m.text, font)
    ensures Layout(CStr(m.text), font, TextWidth, m'.text)
    ensures m'.lines == m'.lines0 == ChunksReported(CStr(m.text), m'.text)
    ensures m'.speakingMode == 1 && m'.speakingTimer == now + 4 * |CStr(m'.text)|
    ensures m'.state == m.state && m'.desc == m.desc && m'.descLines == m.descLines && m'.descTimer == m.descTimer && m'.wsa == m.wsa
  {
    var r := SplitTextAsWritten(Some(CStr(m.text)), font, TextWidth).value;
    m.(text := r.text, lines0 := r.lines, lines := r.lines, speakingMode := 1,
       speakingTimer := now + 4 * |CStr(r.text)|)
  }

  /** The size of the mentat's text buffer. */
  const BufferSize: nat := 1024

  /** The mentat strings, by house and string number (String_GetMentatString). */
  type MentatStrings = (HouseType, int) -> seq<Byte>

  /** The briefing text as strncpy leaves it in the buffer. */
  function BriefingText(strings: MentatStrings, h: HouseType, campaignID: int, entry: BriefingEntry): seq<Byte> {
    var s := CStr(strings(h, BriefingStringId(campaignID, entry)));
    s[..Min(|s|, BufferSize)]
  }

  /** MentatBriefing_InitText: the campaign's entry, without a description, split into chunks. */
  function InitText(strings: MentatStrings, h: HouseType, campaignID: int, entry: BriefingEntry,
                    m: MentatState, now: int, font: Font): (m': MentatState)
    requires Splittable(BriefingText(strings, h, campaignID, entry), font)
    ensures m'.desc.None?
    ensures Layout(BriefingText(strings, h, campaignID, entry), font, TextWidth, m'.text)
    ensures m'.lines == ChunksReported(BriefingText(strings, h, campaignID, entry), m'.text)
    ensures m'.speakingMode == 1
  {
    var text := BriefingText(strings, h, campaignID, entry);
    assert CStr(text) == text by {
      var s := CStr(strings(h, BriefingStringId(campaignID, entry)));
      assert NoNul(text) by {
        assert forall i :: 0 <= i < |text| ==> text[i] == s[i];
      }
      CStrOfNoNul(text);
    }
    BriefingSplitText(m.(desc := None, text := text), now, font)
  }

  lemma {:induction false} CStrOfNoNul(s: seq<Byte>)
    requires NoNul(s)
    ensures CStr(s) == s
    decreases |s|
  {
    if |s| > 0 {
      assert s[0] in s;
      assert forall c :: c in s[1..] ==> c in s;
      CStrOfNoNul(s[1..]);
    }
  }

  /** The rest of the text after the current chunk; past the final chunk nothing is left. */
  function NextChunk(text: seq<Byte>): (r: seq<Byte>)
    ensures NUL in text ==> |r| < |text|
    ensures NUL !in text ==> r == []
  {
    if |text| == 0 then []
    else if text[0] == NUL then text[1..]
    else NextChunk(text[1..])
  }

  /** The text is the current chunk, its terminating NUL and the rest. */
  lemma {:induction false} NextChunkSplit(text: seq<Byte>)
    requires NUL in text
    ensures var r := NextChunk(text); var chunk := text[..|text| - |r| - 1];
      text == chunk + [NUL] + r && NUL !in chunk
  {
    var r := NextChunk(text);
    if text[0] == NUL {
      assert text[..|text| - |r| - 1] == [];
    } else {
      var tail := text[1..];
      NextChunkSplit(tail);
      ConsChunk(text, r, tail[..|tail| - |r| - 1]);
    }
  }

  /** A non-NUL byte in front of a chunk lengthens the chunk. */
  lemma ConsChunk(text: seq<Byte>, r: seq<Byte>, chunk: seq<Byte>)
    requires |text| > 0 && text[0] != NUL
    requires text[1..] == chunk + [NUL] + r && NUL !in chunk
    ensures |r| < |text| && text[..|text| - |r| - 1] == [text[0]] + chunk
    ensures text == text[..|text| - |r| - 1] + [NUL] + r && NUL !in text[..|text| - |r| - 1]
  {
    assert text == [text[0]] + text[1..];
    assert |text| == |chunk| + 2 + |r|;
    assert text[..|text| - |r| - 1] == [text[0]] + chunk;
  }

  /** So the rest holds one NUL fewer. */
  lemma {:induction false} NextChunkCount(text: seq<Byte>)
    requires NUL in text
    ensures NulCount(NextChunk(text)) + 1 == NulCount(text)
  {
    assert text == [text[0]] + text[1..];
    if text[0] != NUL {
      NextChunkCount(text[1..]);
    }
  }

  /**
   * MentatBriefing_AdvanceText: on to the next chunk, one line fewer; with
   * none left the mentat falls idle and silent, otherwise it speaks the new
   * chunk.
   */
  function AdvanceText(m: MentatState, now: int): (m': MentatState)
    ensures m'.text == NextChunk(m.text) && m'.lines == m.lines - 1
    ensures m'.lines <= 0 ==> m'.state == Idle && m'.speakingMode == 0
    ensures m'.lines > 0 ==> m'.state == m.state && m'.speakingMode == 1 && m'.speakingTimer == now + 4 * |CStr(m'.text)|
  {
    var m1 := m.(text := NextChunk(m.text), lines := m.lines - 1);
    if m1.lines <= 0 then m1.(state := Idle, speakingMode := 0)
    else m1.(speakingMode := 1, speakingTimer := now + 4 * |CStr(m1.text)|)
  }

  /** `k` advances of the text. */
  function AdvanceTextN(m: MentatState, k: nat, now: int): MentatState
    decreases k
  {
    if k == 0 then m else AdvanceTextN(AdvanceText(m, now), k - 1, now)
  }

  /** The text after its first `k` chunks. */
  function DropChunks(text: seq<Byte>, k: nat): seq<Byte>
    decreases k
  {
    if k == 0 then text else DropChunks(NextChunk(text), k - 1)
  }

  /** Each chunk dropped takes one NUL with it, as long as there are NULs to take. */
  lemma {:induction false} DropChunksCount(text: seq<Byte>, k: nat)
    requires k <= NulCount(text)
    ensures NulCount(DropChunks(text, k)) + k == NulCount(text)
    decreases k
  {
    if k > 0 {
      NulPresent(text);
      NextChunkCount(text);
      DropChunksCount(NextChunk(text), k - 1);
    }
  }

  lemma NulPresent(t: seq<Byte>)
    requires NulCount(t) > 0
    ensures NUL in t
  {
  }

  /** Each advance moves to the next chunk and counts one line off; the text stays up while lines remain. */
  lemma {:induction false} AdvanceTextSteps(m: MentatState, k: nat, now: int)
    requires m.state == ShowText && k <= m.lines
    ensures AdvanceTextN(m, k, now).text == DropChunks(m.text, k)
    ensures AdvanceTextN(m, k, now).lines == m.lines - k
    ensures AdvanceTextN(m, k, now).state == (if k == m.lines && k > 0 then Idle else ShowText)
    decreases k
  {
    if k > 0 {
      var m1 := AdvanceText(m, now);
      if m1.lines > 0 {
        AdvanceTextSteps(m1, k - 1, now);
      } else {
        assert AdvanceTextN(m1, 0, now) == m1;
      }
    }
  }

  /**
   * When the line count is one more than the NULs between chunks, as the
   * splitter leaves it, the mentat speaks every chunk and then stops: each
   * advance but the last keeps it on the text, with one NUL left per line
   * still to come, and the last leaves it idle.
   */
  lemma AdvanceThroughChunks(m: MentatState, now: int)
    requires m.state == ShowText && m.lines == NulCount(m.text) + 1
    ensures AdvanceTextN(m, m.lines, now).state == Idle
    ensures forall k :: 0 <= k < m.lines ==>
      AdvanceTextN(m, k, now).state == ShowText &&
      AdvanceTextN(m, k, now).lines == NulCount(AdvanceTextN(m, k, now).text) + 1
  {
    forall k | 0 <= k < m.lines
      ensures AdvanceTextN(m, k, now).state == ShowText
      ensures AdvanceTextN(m, k, now).lines == NulCount(AdvanceTextN(m, k, now).text) + 1
    {
      AdvanceTextSteps(m, k, now);
      DropChunksCount(m.text, k);
    }
    AdvanceTextSteps(m, m.lines, now);
  }

  /**
   * With the count GUI_Mentat_SplitText reports for a text that ends on a
   * row break, one line fewer than the chunks: the mentat falls idle with
   * the last chunk still unspoken.
   */
  lemma AdvanceMissesLastChunk(m: MentatState, now: int)
    requires m.state == ShowText && m.lines == NulCount(m.text) && m.lines > 0
    ensures AdvanceTextN(m, m.lines, now).state == Idle
    ensures AdvanceTextN(m, m.lines, now).text == DropChunks(m.text, m.lines)
    ensures NUL !in AdvanceTextN(m, m.lines, now).text
  {
    AdvanceTextSteps(m, m.lines, now);
    DropChunksCount(m.text, m.lines);
    NulAbsent(DropChunks(m.text, m.lines));
  }

  lemma NulAbsent(t: seq<Byte>)
    requires NulCount(t) == 0
    ensures NUL !in t
  {
  }

  /** The description buffer with its first NUL made a line feed, so one more line of it shows. */
  function JoinNextLine(desc: seq<Byte>): (r: seq<Byte>)
    ensures NUL in desc ==> |r| == |desc| && NulCount(r) + 1 == NulCount(desc)
  {
    match IndexOf(desc, NUL)
    case None => desc
    case Some(i) =>
      NulCountUpdate(desc, i, '\n' as int);
      desc[i := '\n' as int]
  }

  /**
   * MentatBriefing_AdvanceDesc: while more than one line is hidden, the
   * next one is joined on and the description waits 15 ticks; once at
   * most one is left the mentat turns to its text.
   */
  function AdvanceDesc(m: MentatState, now: int, font: Font): (m': MentatState)
    requires Splittable(m.text, font)
    ensures m.descLines > 2 ==> m' == m.(descLines := m.descLines - 1, descTimer := now + 15, desc := m'.desc)
    ensures m.descLines > 1 && m.desc.Some? && NUL in m.desc.value ==>
      m'.desc.Some? && NulCount(m'.desc.value) + 1 == NulCount(m.desc.value)
    ensures m.descLines <= 2 ==> m'.state == ShowText && m'.speakingMode == 1
    ensures m.descLines <= 2 ==> Layout(CStr(m.text), font, TextWidth, m'.text) && m'.lines == ChunksReported(CStr(m.text), m'.text)
  {
    var m1 :=
      if m.descLines > 1 then
        m.(descTimer := now + 15, descLines := m.descLines - 1,
           desc := if m.desc.Some? then Some(JoinNextLine(m.desc.value)) else None)
      else m;
    if m1.descLines <= 1 then BriefingSplitText(m1.(state := ShowText), now, font)
    else m1
  }

  /** The splitter of the picture description, GUI_SplitText, which is not part of this model. */
  type DescSplitter = Option<seq<Byte>> -> (Option<seq<Byte>>, int)

  /** MentatHelp_TickPauseDescription: when the pause is over, the description is split; one line goes straight to the text. */
  function TickPauseDescription(m: MentatState, now: int, font: Font, split: DescSplitter): (m': MentatState)
    requires Splittable(m.text, font)
    ensures now < m.descTimer ==> m' == m
    ensures now >= m.descTimer ==> m'.descLines == split(m.desc).1 && m'.descTimer == now + 15
    ensures now >= m.descTimer ==> (m'.state == ShowText <==> split(m.desc).1 == 1)
    ensures now >= m.descTimer && split(m.desc).1 != 1 ==> m'.state == ShowDescription
  {
    if now >= m.descTimer then
      var (desc, lines) := split(m.desc);
      var m1 := m.(desc := desc, descLines := lines, descTimer := now + 15);
      if lines == 1 then BriefingSplitText(m1.(state := ShowText), now, font)
      else m1.(state := ShowDescription, descTimer := now + 15)
    else m
  }

  /** MentatHelp_TickShowDescription. */
  function TickShowDescription(m: MentatState, now: int, font: Font): (m': MentatState)
    requires Splittable(m.text, font)
    ensures now < m.descTimer ==> m' == m
    ensures now >= m.descTimer ==> m' == AdvanceDesc(m, now, font)
  {
    if now >= m.descTimer then AdvanceDesc(m, now, font) else m
  }

  /** The key codes of the game that the mentat screens react to; their values are not part of this model. */
  datatype MentatKeys = MentatKeys(escape: int, space: int, enter: int,
                                   keypad2: int, keypad3: int, keypad5: int, keypad8: int, keypad9: int)

  /** The event the widgets report for the exit button; 0x8003 opens the selected subject. */
  const WidgetExit: int := 0x8001
  const WidgetSelect: int := 0x8003
  const MouseLmb: int := 0x7E
  const MouseRmb: int := 0x7D
  const MouseWheel: int := 0x80 + 0x7F

  datatype ListAction = Scroll | OpenSubject | NoAction

  /**
   * The case labels of GUI_Mentat_HelpListLoop's switch are distinct, as C
   * demands, and none of the scancodes is the exit event it tests first.
   */
  predicate SwitchLabelsDistinct(keys: MentatKeys) {
    var labels := [WidgetExit, MouseWheel, keys.keypad8, keys.keypad2, keys.keypad9, keys.keypad3,
                   MouseLmb, WidgetSelect, keys.enter, keys.keypad5, keys.space];
    forall i, j :: 0 <= i < j < |labels| ==> labels[i] != labels[j]
  }

  /** With distinct labels, an opening key is no scrolling key, not the exit event and not the left button, and the exit event scrolls nothing. */
  lemma OpenKeyApart(keys: MentatKeys, key: int)
    ensures SwitchLabelsDistinct(keys) && key in {WidgetSelect, keys.enter, keys.keypad5, keys.space} ==>
      key !in {WidgetExit, MouseWheel, keys.keypad8, keys.keypad2, keys.keypad9, keys.keypad3, MouseLmb}
    ensures SwitchLabelsDistinct(keys) ==> WidgetExit !in {keys.keypad8, keys.keypad2, keys.keypad9, keys.keypad3}
  {
    if SwitchLabelsDistinct(keys) {
      var labels := [WidgetExit, MouseWheel, keys.keypad8, keys.keypad2, keys.keypad9, keys.keypad3,
                     MouseLmb, WidgetSelect, keys.enter, keys.keypad5, keys.space];
      assert labels[0] != labels[2] && labels[0] != labels[3] && labels[0] != labels[4] && labels[0] != labels[5];
    }
    if SwitchLabelsDistinct(keys) && key in {WidgetSelect, keys.enter, keys.keypad5, keys.space} {
      var labels := [WidgetExit, MouseWheel, keys.keypad8, keys.keypad2, keys.keypad9, keys.keypad3,
                     MouseLmb, WidgetSelect, keys.enter, keys.keypad5, keys.space];
      var j: nat := if key == WidgetSelect then 7 else if key == keys.enter then 8 else if key == keys.keypad5 then 9 else 10;
      assert labels[j] == key;
      assert labels[0] != labels[j] && labels[1] != labels[j] && labels[2] != labels[j] && labels[3] != labels[j];
      assert labels[4] != labels[j] && labels[5] != labels[j] && labels[6] != labels[j];
    }
  }

  /** GUI_Mentat_HelpListLoop: what a key does in the subject list. */
  function HelpListAction(key: int, keys: MentatKeys): (a: ListAction)
    ensures key == WidgetExit ==> a == NoAction
    ensures a == OpenSubject ==> key in {WidgetSelect, keys.enter, keys.keypad5, keys.space}
    ensures a == Scroll ==> key in {MouseWheel, keys.keypad8, keys.keypad2, keys.keypad9, keys.keypad3}
    ensures key == MouseWheel ==> a == Scroll
    ensures SwitchLabelsDistinct(keys) ==>
      (a == OpenSubject <==> key in {WidgetSelect, keys.enter, keys.keypad5, keys.space})
    ensures SwitchLabelsDistinct(keys) ==>
      (a == Scroll <==> key in {MouseWheel, keys.keypad8, keys.keypad2, keys.keypad9, keys.keypad3})
  {
    OpenKeyApart(keys, key);
    if key == WidgetExit then NoAction
    else if key in {MouseWheel, keys.keypad8, keys.keypad2, keys.keypad9, keys.keypad3} then Scroll
    else if key == MouseLmb then NoAction
    else if key in {WidgetSelect, keys.enter, keys.keypad5, keys.space} then OpenSubject
    else NoAction
  }

  /**
   * What GUI_Mentat_ShowHelp loads for the selected subject: the
   * description (None for none), the text, and whether its picture loaded.
   */
  datatype HelpPage = HelpPage(desc: Option<seq<Byte>>, text: seq<Byte>, wsa: bool)

  /** The keys that move the mentat's text on. */
  predicate AdvancesText(key: int, keys: MentatKeys) {
    key == keys.escape || key == keys.space || key == MouseLmb || key == MouseRmb
  }

  /** The start of MentatHelp_Tick: once the speaking timer has run out the mouth stops. */
  function Hush(m: MentatState, now: int): (r: MentatState)
    ensures r.speakingMode == (if now >= m.speakingTimer then 0 else m.speakingMode)
    ensures r.(speakingMode := m.speakingMode) == m
  {
    if now >= m.speakingTimer then m.(speakingMode := 0) else m
  }

  /**
   * MentatHelp_Tick, given the event the widgets report and, for an opened
   * subject, the page GUI_Mentat_ShowHelp loads (None when the selection
   * is a category). The result says whether the help screen is left.
   */
  function Tick(m: MentatState, now: int, event: int, keys: MentatKeys, font: Font,
                split: DescSplitter, page: Option<HelpPage>): (r: (MentatState, bool))
    requires m.state == PauseDescription || m.state == ShowDescription ==> Splittable(m.text, font)
    ensures r.1 <==> m.state == ShowContents && event == WidgetExit
    ensures m.state == ShowContents && event != WidgetExit ==>
      (r.0.state == PauseDescription <==> HelpListAction(event, keys) == OpenSubject && page.Some?)
    ensures m.state == ShowContents && r.0.state == PauseDescription && page.Some? ==>
      r.0.descTimer == now + 30 && r.0.text == page.value.text && r.0.desc == page.value.desc
    ensures m.state != ShowContents && event == WidgetExit ==>
      r.0.state == ShowContents && r.0.speakingMode == 0 && !r.0.wsa
    ensures m.state == ShowText && event != WidgetExit && !AdvancesText(event, keys) ==>
      r.0.text == m.text && r.0.lines == m.lines && r.0.state == ShowText
    ensures m.state == ShowText && event != WidgetExit && AdvancesText(event, keys) ==>
      r.0.text == NextChunk(m.text) && r.0.lines == m.lines - 1
    ensures m.state == ShowContents && event != WidgetExit && !(HelpListAction(event, keys) == OpenSubject && page.Some?) ==>
      r.0 == Hush(m, now)
    ensures m.state == PauseDescription && event != WidgetExit ==>
      r.0 == TickPauseDescription(Hush(m, now), now, font, split)
    ensures m.state == ShowDescription && event != WidgetExit ==>
      r.0 == TickShowDescription(Hush(m, now), now, font)
    ensures m.state == ShowText && event != WidgetExit ==>
      r.0 == if AdvancesText(event, keys) then AdvanceText(Hush(m, now), now) else Hush(m, now)
    ensures m.state == Idle ==> r.0 == if event == WidgetExit then Hush(m, now).(state := ShowContents, speakingMode := 0, wsa := false) else Hush(m, now)
  {
    var m0 := Hush(m, now);
    if m0.state == ShowContents then
      if event == WidgetExit then (m0, true)
      else if HelpListAction(event, keys) == OpenSubject && page.Some? then
        (m0.(state := PauseDescription, desc := page.value.desc, text := page.value.text, wsa := page.value.wsa,
             descTimer := now + 30), false)
      else (m0, false)
    else if event == WidgetExit then
      (m0.(state := ShowContents, speakingMode := 0, wsa := false), false)
    else if m0.state == PauseDescription then (TickPauseDescription(m0, now, font, split), false)
    else if m0.state == ShowDescription then (TickShowDescription(m0, now, font), false)
    else if m0.state == ShowText && AdvancesText(event, keys) then (AdvanceText(m0, now), false)
    else (m0, false)
  }

  /** The states a briefing can be in one tick after another: it only moves forward, or back to the list. */
  predicate CanFollow(a: BriefingState, b: BriefingState) {
    b == a || b == ShowContents ||
    match a
    case ShowContents => b == PauseDescription
    case PauseDescription => b == ShowDescription || b == ShowText
    case ShowDescription => b == ShowText
    case ShowText => b == Idle
    case Idle => false
  }

  /**
   * In the contents list, each of the keys GUI_Mentat_HelpListLoop opens a
   * subject with opens the page it is given and pauses on it for 30 ticks.
   */
  lemma TickOpensSubject(m: MentatState, now: int, event: int, keys: MentatKeys, font: Font,
                         split: DescSplitter, page: HelpPage)
    requires m.state == ShowContents && SwitchLabelsDistinct(keys)
    requires event in {WidgetSelect, keys.enter, keys.keypad5, keys.space}
    ensures var r := Tick(m, now, event, keys, font, split, Some(page));
      !r.1 && r.0.state == PauseDescription && r.0.descTimer == now + 30
      && r.0.text == page.text && r.0.desc == page.desc
  {
    OpenKeyApart(keys, event);
  }

  /** Every tick moves the briefing along its order of states. */
  lemma TickMovesForward(m: MentatState, now: int, event: int, keys: MentatKeys, font: Font,
                         split: DescSplitter, page: Option<HelpPage>)
    requires m.state == PauseDescription || m.state == ShowDescription ==> Splittable(m.text, font)
    ensures CanFollow(m.state, Tick(m, now, event, keys, font, split, page).0.state)
  {
  }
}

=== FILE: ring.dfy ===
/**
 * The 256-slot circular queue used twice by the game: for the keyboard and
 * mouse history and for the narrator's voice queue. `head` is the next slot
 * to read, `tail` the next slot to write; both wrap with `& 0xFF`, and one
 * slot always stays free so that `head == tail` means "empty".
 */
module RingBuffer {

  const Capacity: nat := 256

  /** `(i + 1) & 0xFF` for an index in range. */
  function Next(i: nat): (r: nat)
    requires i < Capacity
    ensures r < Capacity
    ensures i < Capacity - 1 ==> r == i + 1
    ensures i == Capacity - 1 ==> r == 0
  {
    (i + 1) % Capacity
  }

  datatype Ring<T> = Ring(slots: seq<T>, head: nat, tail: nat)
  {
    predicate Valid() {
      |slots| == Capacity && head < Capacity && tail < Capacity
    }

    /** The number of queued entries. */
    function Count(): (n: nat)
      requires Valid()
      ensures n < Capacity
      ensures n == 0 <==> head == tail
    {
      (tail - head) % Capacity
    }

    /** The queued entries, oldest first. */
    function Contents(): (c: seq<T>)
      requires Valid()
      ensures |c| == Count()
    {
      seq(Count(), k requires 0 <= k < Count() => slots[(head + k) % Capacity])
    }
  }

  /** A queue of `Capacity` copies of `fill` with nothing in it. */
  function EmptyRing<T>(fill: T): (r: Ring<T>)
    ensures r.Valid() && r.Contents() == []
  {
    Ring(seq(Capacity, _ => fill), 0, 0)
  }

  /**
   * Append `x` unless the queue already holds `Capacity - 1` entries; the
   * flag says whether it was stored, and a refused entry changes nothing.
   */
  function Push<T>(r: Ring<T>, x: T): (res: (Ring<T>, bool))
    requires r.Valid()
    ensures res.0.Valid()
    ensures res.1 <==> |r.Contents()| < Capacity - 1
    ensures res.1 ==> res.0.Contents() == r.Contents() + [x]
    ensures !res.1 ==> res.0 == r
  {
    var index := Next(r.tail);
    if index == r.head then (r, false)
    else
      var r' := Ring(r.slots[r.tail := x], r.head, index);
      PushContents(r, x, r');
      (r', true)
  }

  lemma PushContents<T>(r: Ring<T>, x: T, r': Ring<T>)
    requires r.Valid() && Next(r.tail) != r.head
    requires r' == Ring(r.slots[r.tail := x], r.head, Next(r.tail))
    ensures r'.Valid() && r'.Count() == r.Count() + 1
    ensures r'.Contents() == r.Contents() + [x]
  {
    var n := r.Count();
    assert r'.Count() == n + 1;
    forall k | 0 <= k < n
      ensures r'.Contents()[k] == r.Contents()[k]
    {
      assert (r.head + k) % Capacity != r.tail;
    }
    assert (r.head + n) % Capacity == r.tail;
  }

  /** Take the oldest entry. */
  function Pop<T>(r: Ring<T>): (res: (T, Ring<T>))
    requires r.Valid() && r.Count() > 0
    ensures res.1.Valid()
    ensures res.0 == r.Contents()[0]
    ensures res.1.Contents() == r.Contents()[1..]
  {
    var r' := Ring(r.slots, Next(r.head), r.tail);
    assert r'.Count() == r.Count() - 1;
    forall k | 0 <= k < r'.Count()
      ensures r'.Contents()[k] == r.Contents()[k + 1]
    {
      assert (Next(r.head) + k) % Capacity == (r.head + (k + 1)) % Capacity;
    }
    (r.slots[r.head], r')
  }

  /** Drop everything queued by moving the write index back to the read index. */
  function ClearToHead<T>(r: Ring<T>): (r': Ring<T>)
    requires r.Valid()
    ensures r'.Valid() && r'.Contents() == []
    ensures r'.slots == r.slots && r'.head == r.head
  {
    Ring(r.slots, r.head, r.head)
  }

  /** Drop everything queued by moving the read index up to the write index. */
  function ClearToTail<T>(r: Ring<T>): (r': Ring<T>)
    requires r.Valid()
    ensures r'.Valid() && r'.Contents() == []
    ensures r'.slots == r.slots && r'.tail == r.tail
  {
    Ring(r.slots, r.tail, r.tail)
  }

  /** Pushing onto a queue and then popping it gives the entries back in the order they came. */
  lemma {:induction false} PushPopFifo<T>(r: Ring<T>, x: T)
    requires r.Valid() && r.Count() > 0 && r.Count() < Capacity - 1
    ensures Pop(Push(r, x).0).0 == Pop(r).0
    ensures Pop(Push(r, x).0).1.Contents() == Push(Pop(r).1, x).0.Contents()
  {
    var (p, ok) := Push(r, x);
    assert ok;
    var (y, q) := Pop(r);
    assert |q.Contents()| < Capacity - 1;
    assert Push(q, x).0.Contents() == r.Contents()[1..] + [x];
    assert Pop(p).1.Contents() == (r.Contents() + [x])[1..];
  }
}

=== FILE: scenario.dfy ===
/**
 * The record decoders of the scenario loader: the object and unit flag
 * words, the house "Brain" entries and the player's unit limit, the map
 * tile entries, and the comma-separated unit and reinforcement records.
 *
 * The ini-file reader, the name-to-type tables and the creation of houses,
 * units and reinforcements are outside this model: the name lookups are
 * parameters and a decoder's result is the record it would create from.
 */
module Scenario {
  import opened Wrappers
  import opened CString
  import opened Bits

  /*------------------------------------------------------------------
   * Flag words
   *------------------------------------------------------------------*/

  datatype ObjectFlags = ObjectFlags(
    hasShadow: bool, factory: bool, notOnConcrete: bool, busyStateIsIncoming: bool,
    blurTile: bool, hasTurret: bool, conquerable: bool, canBePickedUp: bool,
    noMessageOnDeath: bool, tabSelectable: bool, scriptNoSlowdown: bool,
    targetAir: bool, priority: bool)

  /** Where ObjectInfo_FlagsToUint16 puts each flag, bit 0 first; bits 2, 14 and 15 stay clear. */
  function ObjectBits(f: ObjectFlags): (bits: seq<bool>)
    ensures |bits| == 16
  {
    [f.hasShadow, f.factory, false, f.notOnConcrete, f.busyStateIsIncoming, f.blurTile,
     f.hasTurret, f.conquerable, f.canBePickedUp, f.noMessageOnDeath, f.tabSelectable,
     f.scriptNoSlowdown, f.targetAir, f.priority, false, false]
  }

  /** The flags a word in the object layout carries. */
  function ObjectFlagsOf(w: nat): ObjectFlags {
    var b := BitsOf(w, 16);
    ObjectFlags(b[0], b[1], b[3], b[4], b[5], b[6], b[7], b[8], b[9], b[10], b[11], b[12], b[13])
  }

  /** ObjectInfo_FlagsToUint16: a 16-bit word from which every flag reads back, with the unused bits clear. */
  function ObjectInfoFlagsToUint16(f: ObjectFlags): (w: nat)
    ensures w < 0x1_0000
    ensures ObjectFlagsOf(w) == f
    ensures !BitsOf(w, 16)[2] && !BitsOf(w, 16)[14] && !BitsOf(w, 16)[15]
  {
    var bits := ObjectBits(f);
    BitsOfWordOf(bits);
    Pow2Of16();
    WordOf(bits)
  }

  /** Every 16-bit word with the unused bits clear is the encoding of the flags it carries. */
  lemma ObjectFlagsWordRoundTrip(w: nat)
    requires w < 0x1_0000
    requires !BitsOf(w, 16)[2] && !BitsOf(w, 16)[14] && !BitsOf(w, 16)[15]
    ensures ObjectInfoFlagsToUint16(ObjectFlagsOf(w)) == w
  {
    ObjectBitsOfWord(w);
    Pow2Of16();
    WordOfBitsOfSmall(w, 16);
  }

  lemma ObjectBitsOfWord(w: nat)
    requires !BitsOf(w, 16)[2] && !BitsOf(w, 16)[14] && !BitsOf(w, 16)[15]
    ensures ObjectBits(ObjectFlagsOf(w)) == BitsOf(w, 16)
  {
    var b := BitsOf(w, 16);
    assert b == [b[0], b[1], b[2], b[3], b[4], b[5], b[6], b[7], b[8], b[9], b[10], b[11], b[12], b[13], b[14], b[15]];
  }

  datatype UnitFlags = UnitFlags(
    isBullet: bool, explodeOnDeath: bool, sonicProtection: bool, canWobble: bool,
    isTracked: bool, isGroundUnit: bool, mustStayInMap: bool, firesTwice: bool,
    impactOnSand: bool, isNotDeviatable: bool, hasAnimationSet: bool,
    notAccurate: bool, isNormalUnit: bool)

  /** Where UnitInfo_FlagsToUint16 puts each flag, bit 0 first; bits 0, 8 and 9 stay clear. */
  function UnitBits(f: UnitFlags): (bits: seq<bool>)
    ensures |bits| == 16
  {
    [false, f.isBullet, f.explodeOnDeath, f.sonicProtection, f.canWobble, f.isTracked,
     f.isGroundUnit, f.mustStayInMap, false, false, f.firesTwice, f.impactOnSand,
     f.isNotDeviatable, f.hasAnimationSet, f.notAccurate, f.isNormalUnit]
  }

  /** The flags a word in the unit layout carries. */
  function UnitFlagsOf(w: nat): UnitFlags {
    var b := BitsOf(w, 16);
    UnitFlags(b[1], b[2], b[3], b[4], b[5], b[6], b[7], b[10], b[11], b[12], b[13], b[14], b[15])
  }

  /** UnitInfo_FlagsToUint16: a 16-bit word from which every flag reads back, with the unused bits clear. */
  function UnitInfoFlagsToUint16(f: UnitFlags): (w: nat)
    ensures w < 0x1_0000
    ensures UnitFlagsOf(w) == f
    ensures !BitsOf(w, 16)[0] && !BitsOf(w, 16)[8] && !BitsOf(w, 16)[9]
  {
    var bits := UnitBits(f);
    BitsOfWordOf(bits);
    Pow2Of16();
    WordOf(bits)
  }

  /** Every 16-bit word with the unused bits clear is the encoding of the flags it carries. */
  lemma UnitFlagsWordRoundTrip(w: nat)
    requires w < 0x1_0000
    requires !BitsOf(w, 16)[0] && !BitsOf(w, 16)[8] && !BitsOf(w, 16)[9]
    ensures UnitInfoFlagsToUint16(UnitFlagsOf(w)) == w
  {
    UnitBitsOfWord(w);
    Pow2Of16();
    WordOfBitsOfSmall(w, 16);
  }

  lemma UnitBitsOfWord(w: nat)
    requires !BitsOf(w, 16)[0] && !BitsOf(w, 16)[8] && !BitsOf(w, 16)[9]
    ensures UnitBits(UnitFlagsOf(w)) == BitsOf(w, 16)
  {
    var b := BitsOf(w, 16);
    assert b == [b[0], b[1], b[2], b[3], b[4], b[5], b[6], b[7], b[8], b[9], b[10], b[11], b[12], b[13], b[14], b[15]];
  }

  /*------------------------------------------------------------------
   * Integer conversions of the C source
   *------------------------------------------------------------------*/

  /** Conversion of an int to uint8. */
  function ToUint8(n: int): (r: nat)
    ensures r < 0x100
    ensures 0 <= n < 0x100 ==> r == n
  {
    n % 0x100
  }

  /** Conversion of an int to uint16. */
  function ToUint16(n: int): (r: nat)
    ensures r < 0x1_0000
    ensures 0 <= n < 0x1_0000 ==> r == n
  {
    n % 0x1_0000
  }

  /** `(int8)(uint8)n`: the low byte, read as two's complement. */
  function ToInt8(n: int): (r: int)
    ensures -128 <= r < 128
    ensures (r - n) % 0x100 == 0
  {
    var b := n % 0x100;
    if b >= 0x80 then b - 0x100 else b
  }

  /*------------------------------------------------------------------
   * Houses
   *------------------------------------------------------------------*/

  datatype Brain = BrainNone | BrainHuman | BrainCpuAlly | BrainCpuEnemy

  const HumanText: seq<Byte> := Ascii("HUMAN")
  const CpuAllyText: seq<Byte> := Ascii("CPU_ALLY")
  const CpuEnemyText: seq<Byte> := Ascii("CPU_ENEMY")
  const NoneText: seq<Byte> := Ascii("NONE")

  /** The "Brain" entry, upper-cased on a-z only, must be one of three names exactly. */
  function ParseBrain(text: seq<Byte>): (b: Brain)
    ensures b == BrainHuman <==> UpperString(text) == HumanText
    ensures b == BrainCpuAlly <==> UpperString(text) == CpuAllyText
    ensures b == BrainCpuEnemy <==> UpperString(text) == CpuEnemyText
  {
    var up := UpperString(text);
    assert HumanText != CpuAllyText && HumanText != CpuEnemyText by {
      assert HumanText[0] != CpuAllyText[0] && HumanText[0] != CpuEnemyText[0];
    }
    assert CpuAllyText != CpuEnemyText by {
      assert |CpuAllyText| != |CpuEnemyText|;
    }
    if up == HumanText then BrainHuman
    else if up == CpuAllyText then BrainCpuAlly
    else if up == CpuEnemyText then BrainCpuEnemy
    else BrainNone
  }

  /** What Scenario_Load_House hands to Scenario_Create_House. */
  datatype HouseSetup = HouseSetup(brain: Brain, credits: nat, creditsQuota: nat, unitCountMax: nat)
  {
    predicate IsHuman() { brain == BrainHuman }
  }

  /**
   * Scenario_Load_House: the house's entries as the ini reader returns them
   * (None for a missing key). No house is created unless the brain is known;
   * the numbers are stored in 16 bits, with 0, 0 and 39 for missing keys.
   */
  function LoadHouse(brain: Option<seq<Byte>>, credits: Option<int>, quota: Option<int>, maxUnit: Option<int>): (r: Option<HouseSetup>)
    ensures var b := ParseBrain(if brain.Some? then brain.value else NoneText);
      && (r.None? <==> b == BrainNone)
      && (r.Some? ==> r.value.brain == b)
    ensures brain.None? ==> r.None?
    ensures r.Some? ==> r.value.credits < 0x1_0000 && r.value.creditsQuota < 0x1_0000 && r.value.unitCountMax < 0x1_0000
    ensures r.Some? && maxUnit.None? ==> r.value.unitCountMax == 39
    ensures r.Some? && maxUnit.Some? && 0 <= maxUnit.value < 0x1_0000 ==> r.value.unitCountMax == maxUnit.value
  {
    var b := ParseBrain(if brain.Some? then brain.value else NoneText);
    assert brain.None? ==> b == BrainNone by {
      assert UpperString(NoneText) == NoneText;
      assert NoneText[0] != HumanText[0] && |NoneText| != |CpuAllyText| && |NoneText| != |CpuEnemyText|;
    }
    if b == BrainNone then None
    else Some(HouseSetup(b,
      ToUint16(if credits.Some? then credits.value else 0),
      ToUint16(if quota.Some? then quota.value else 0),
      ToUint16(if maxUnit.Some? then maxUnit.value else 39)))
  }

  /** The sum of a sequence of unit limits. */
  function Sum(s: seq<nat>): nat {
    if |s| == 0 then 0 else s[0] + Sum(s[1..])
  }

  /** The loop of Scenario_Load_Houses: `max -= limit` on a uint8, limit by limit. */
  function SubtractLimits(max: nat, limits: seq<nat>): (r: nat)
    requires max < 0x100
    ensures r < 0x100
    decreases |limits|
  {
    if |limits| == 0 then max else SubtractLimits(ToUint8(max - limits[0]), limits[1..])
  }

  /** Subtracting in 8 bits limit by limit is subtracting the sum, modulo 256. */
  lemma {:induction false} SubtractLimitsIsModSum(max: nat, limits: seq<nat>)
    requires max < 0x100
    ensures SubtractLimits(max, limits) == (max - Sum(limits)) % 0x100
    decreases |limits|
  {
    if |limits| > 0 {
      var m' := ToUint8(max - limits[0]);
      SubtractLimitsIsModSum(m', limits[1..]);
      ModSubStep(max - limits[0], Sum(limits[1..]));
    }
  }

  lemma ModSubStep(a: int, b: int)
    ensures (a % 0x100 - b) % 0x100 == (a - b) % 0x100
  {
    var q := a / 0x100;
    assert a == q * 0x100 + a % 0x100;
    assert a - b == (a % 0x100 - b) + q * 0x100;
  }

  /** The unit limits of the created houses that are not human. */
  function ComputerLimits(houses: seq<Option<HouseSetup>>): (s: seq<nat>)
    ensures |s| <= |houses|
  {
    if |houses| == 0 then []
    else
      var own := if houses[0].Some? && !houses[0].value.IsHuman() then [houses[0].value.unitCountMax] else [];
      own + ComputerLimits(houses[1..])
  }

  /**
   * The player's unit limit after Scenario_Load_Houses (release build): a
   * limit of 0 becomes 80 minus the computer houses' limits, computed in 8
   * bits.
   */
  function PlayerUnitLimit(player: HouseSetup, houses: seq<Option<HouseSetup>>): (r: nat)
    ensures player.unitCountMax != 0 ==> r == player.unitCountMax
    ensures player.unitCountMax == 0 ==> r == (80 - Sum(ComputerLimits(houses))) % 0x100
    ensures player.unitCountMax == 0 && Sum(ComputerLimits(houses)) <= 80 ==> r == 80 - Sum(ComputerLimits(houses))
  {
    if player.unitCountMax == 0 then
      SubtractLimitsIsModSum(80, ComputerLimits(houses));
      SubtractLimits(80, ComputerLimits(houses))
    else player.unitCountMax
  }

  /*------------------------------------------------------------------
   * Map tiles
   *------------------------------------------------------------------*/

  /** What a MAP entry says about its tile. */
  datatype TileStatus = TileStatus(houseId: nat, isUnveiled: bool, hasUnit: bool, hasStructure: bool,
                                   hasAnimation: bool, hasExplosion: bool)

  /** The tile status carried by the low byte of a MAP entry's first number, read in 16 bits. */
  function DecodeTileStatus(value: int): (t: TileStatus)
    ensures t.houseId < 8
    ensures t.houseId == value % 8
    ensures EncodeTileStatus(t) == value % 0x100
  {
    var v := ToUint16(value);
    var b := BitsOf(v, 8);
    var t := TileStatus(WordOf(b[..3]), b[3], b[4], b[5], b[6], b[7]);
    TileStatusDigits(v, t);
    LowBitsOfUint16(value);
    t
  }

  /** Cutting to 16 bits keeps the lowest three and the lowest eight bits. */
  lemma LowBitsOfUint16(value: int)
    ensures ToUint16(value) % 8 == value % 8
    ensures ToUint16(value) % 0x100 == value % 0x100
  {
    var u, q := ToUint16(value), value / 0x1_0000;
    assert value == (q * 0x2000 + u / 8) * 8 + u % 8;
    ModOfSum(q * 0x2000 + u / 8, 8, u % 8);
    assert value == (q * 0x100 + u / 0x100) * 0x100 + u % 0x100;
    ModOfSum(q * 0x100 + u / 0x100, 0x100, u % 0x100);
  }

  lemma TileStatusDigits(v: nat, t: TileStatus)
    requires v < 0x1_0000
    requires var b := BitsOf(v, 8); t == TileStatus(WordOf(b[..3]), b[3], b[4], b[5], b[6], b[7])
    ensures t.houseId < 8 && t.houseId == v % 8 && EncodeTileStatus(t) == v % 0x100
  {
    var b := BitsOf(v, 8);
    HouseBits(v);
    SplitByte(b);
    assert StatusBits(t) == b;
    Pow2Of16();
    WordOfBitsOf(v, 8);
  }

  lemma SplitByte(b: seq<bool>)
    requires |b| == 8
    ensures b[..3] + [b[3], b[4], b[5], b[6], b[7]] == b
  {
  }

  /** The house number is the first three bits of the byte, and reads back as those bits. */
  lemma HouseBits(v: nat)
    ensures var b := BitsOf(v, 8);
      WordOf(b[..3]) == v % 8 && BitsOf(WordOf(b[..3]), 3) == b[..3]
  {
    var b := BitsOf(v, 8);
    Pow2Of16();
    BitsOfPrefix(v, 8, 3);
    WordOfBitsOf(v, 3);
    BitsOfWordOf(b[..3]);
  }

  /** The binary digits of a status byte: the house in bits 0-2, then the five flags. */
  function StatusBits(t: TileStatus): (bits: seq<bool>)
    ensures |bits| == 8
  {
    BitsOf(t.houseId, 3) + [t.isUnveiled, t.hasUnit, t.hasStructure, t.hasAnimation, t.hasExplosion]
  }

  /** The first number of a MAP entry that stands for a status. */
  function EncodeTileStatus(t: TileStatus): (value: nat)
    ensures value < 0x100
  {
    Pow2Of16();
    WordOf(StatusBits(t))
  }

  /** Decoding reads back every field of an encoded status. */
  lemma TileStatusRoundTrip(t: TileStatus)
    requires t.houseId < 8
    ensures DecodeTileStatus(EncodeTileStatus(t)) == t
  {
    var v := EncodeTileStatus(t);
    var bits := StatusBits(t);
    Pow2Of16();
    assert ToUint16(v) == v;
    BitsOfWordOf(bits);
    assert BitsOf(v, 8) == bits;
    assert bits[..3] == BitsOf(t.houseId, 3);
    WordOfBitsOf(t.houseId, 3);
    assert WordOf(bits[..3]) == t.houseId;
    assert bits[3..] == [t.isUnveiled, t.hasUnit, t.hasStructure, t.hasAnimation, t.hasExplosion];
  }

  /** The ground sprite of a MAP entry: its second number, cut to the nine bits of the tile's field. */
  function GroundSprite(value: int): (s: nat)
    ensures s < 0x200
    ensures (value - s) % 0x200 == 0
  {
    value % 0x200
  }

  /** The delimiters of the strtok calls on a MAP entry. */
  predicate IsMapDelimiter(c: Byte) {
    c == ',' as int || c == '\r' as int || c == '\n' as int
  }

  /** strtok: skip delimiters, take the token up to the next one, and continue after it. */
  function NextToken(s: seq<Byte>): (r: Option<(seq<Byte>, seq<Byte>)>)
    ensures r.None? <==> forall i :: 0 <= i < |s| ==> IsMapDelimiter(s[i])
    ensures r.Some? ==> |r.value.0| > 0 && |r.value.1| < |s|
    ensures r.Some? ==> forall i :: 0 <= i < |r.value.0| ==> !IsMapDelimiter(r.value.0[i])
    decreases |s|
  {
    if |s| == 0 then None
    else if IsMapDelimiter(s[0]) then NextToken(s[1..])
    else
      var n := TokenLength(s);
      Some((s[..n], if n < |s| then s[n + 1..] else []))
  }

  function TokenLength(s: seq<Byte>): (n: nat)
    ensures n <= |s|
    ensures forall i :: 0 <= i < n ==> !IsMapDelimiter(s[i])
    ensures n < |s| ==> IsMapDelimiter(s[n])
  {
    if |s| == 0 || IsMapDelimiter(s[0]) then 0 else 1 + TokenLength(s[1..])
  }

  datatype MapEntry = MapEntry(status: TileStatus, groundSprite: nat)

  /**
   * Scenario_Load_Map for one entry: keys not starting with 'C' are ignored,
   * otherwise the two numbers give the tile's status and ground sprite. An
   * entry with fewer than two numbers is declined: the source would pass
   * NULL to atoi there.
   */
  function LoadMapEntry(key: seq<Byte>, settings: seq<Byte>): (r: Option<MapEntry>)
    ensures (|key| == 0 || key[0] != 'C' as int) ==> r.None?
    ensures r.Some? ==> r.value.status.houseId < 8 && r.value.groundSprite < 0x200
  {
    if |key| == 0 || key[0] != 'C' as int then None
    else match NextToken(settings)
      case None => None
      case Some((first, rest)) =>
        match NextToken(rest)
        case None => None
        case Some((second, _)) => Some(MapEntry(DecodeTileStatus(Atoi(first)), GroundSprite(Atoi(second))))
  }

  /** A run of digits ends where a delimiter or the text ends. */
  lemma {:induction false} TokenLengthOfDigits(d: seq<Byte>, tail: seq<Byte>)
    requires AllDigits(d)
    requires |tail| == 0 || IsMapDelimiter(tail[0])
    ensures TokenLength(d + tail) == |d|
    decreases |d|
  {
    if |d| == 0 {
      assert d + tail == tail;
    } else {
      assert (d + tail)[1..] == d[1..] + tail;
      TokenLengthOfDigits(d[1..], tail);
    }
  }

  /** strtok on a number followed by a delimiter (or the end) returns the number. */
  lemma TokenOfDigits(d: seq<Byte>, tail: seq<Byte>)
    requires |d| > 0 && AllDigits(d)
    requires |tail| == 0 || IsMapDelimiter(tail[0])
    ensures NextToken(d + tail) == Some((d, if |tail| > 0 then tail[1..] else []))
  {
    var s := d + tail;
    assert s[0] == d[0];
    TokenLengthOfDigits(d, tail);
    assert s[..|d|] == d;
    if |tail| > 0 {
      assert s[|d| + 1..] == tail[1..];
    }
  }

  /** Two numbers separated by a comma are the two tokens Scenario_Load_Map reads. */
  lemma LoadMapEntryOfTokens(key: seq<Byte>, first: seq<Byte>, second: seq<Byte>, tail: seq<Byte>)
    requires |key| > 0 && key[0] == 'C' as int
    requires |first| > 0 && AllDigits(first) && |second| > 0 && AllDigits(second)
    requires |tail| == 0 || IsMapDelimiter(tail[0])
    ensures LoadMapEntry(key, first + [',' as int] + second + tail)
      == Some(MapEntry(DecodeTileStatus(Atoi(first)), GroundSprite(Atoi(second))))
  {
    var rest := [',' as int] + second + tail;
    assert first + [',' as int] + second + tail == first + rest;
    assert rest[1..] == second + tail;
    TokenOfDigits(first, rest);
    assert NextToken(first + rest) == Some((first, second + tail));
    TokenOfDigits(second, tail);
    assert NextToken(second + tail).value.0 == second;
  }

  /**
   * A MAP entry written as the encoded status, a comma and the sprite number
   * reads back as that status and the sprite cut to nine bits.
   */
  lemma LoadMapEntryOfFields(key: seq<Byte>, t: TileStatus, sprite: nat, tail: seq<Byte>)
    requires |key| > 0 && key[0] == 'C' as int
    requires t.houseId < 8
    requires |tail| == 0 || IsMapDelimiter(tail[0])
    ensures LoadMapEntry(key, Digits(EncodeTileStatus(t)) + [',' as int] + Digits(sprite) + tail)
      == Some(MapEntry(t, sprite % 0x200))
  {
    LoadMapEntryOfTokens(key, Digits(EncodeTileStatus(t)), Digits(sprite), tail);
    AtoiDigits(EncodeTileStatus(t));
    AtoiDigits(sprite);
    TileStatusRoundTrip(t);
  }

  /*------------------------------------------------------------------
   * Comma-separated records
   *------------------------------------------------------------------*/

  /** The name tables of the game: House_StringToType, Unit_StringToType and Unit_ActionStringToType. */
  datatype Lookups = Lookups(
    house: seq<Byte> -> Option<nat>,
    unit: seq<Byte> -> Option<nat>,
    action: seq<Byte> -> Option<nat>)

  /** Fields, each followed by a comma, then the rest of the text. */
  function JoinFields(fields: seq<seq<Byte>>, rest: seq<Byte>): seq<Byte> {
    if |fields| == 0 then rest else fields[0] + [',' as int] + JoinFields(fields[1..], rest)
  }

  /**
   * The strchr-and-cut steps of the record loaders: `n` fields, each ended
   * by the first comma after it, and the text after the n-th comma. Fewer
   * than `n` commas give nothing.
   */
  function SplitFields(s: seq<Byte>, n: nat): (r: Option<(seq<seq<Byte>>, seq<Byte>)>)
    ensures r.Some? ==> |r.value.0| == n && JoinFields(r.value.0, r.value.1) == s
    ensures r.Some? ==> forall i :: 0 <= i < n ==> ',' as int !in r.value.0[i]
    ensures r.None? <==> CommaCount(s) < n
  {
    if n == 0 then Some(([], s))
    else match SplitComma(s)
      case None =>
        CommaCountZero(s);
        None
      case Some((a, b)) =>
        CommaCountSplit(a, b);
        match SplitFields(b, n - 1)
        case None => None
        case Some((fs, rest)) =>
          assert ([a] + fs)[1..] == fs;
          Some(([a] + fs, rest))
  }

  /** Splitting a text made of comma-free fields gives the fields back. */
  lemma {:induction false} SplitJoinedFields(fields: seq<seq<Byte>>, rest: seq<Byte>)
    requires forall i :: 0 <= i < |fields| ==> ',' as int !in fields[i]
    ensures SplitFields(JoinFields(fields, rest), |fields|) == Some((fields, rest))
    decreases |fields|
  {
    if |fields| > 0 {
      var tail := JoinFields(fields[1..], rest);
      assert JoinFields(fields, rest) == fields[0] + [',' as int] + tail;
      SplitCommaJoin(fields[0], tail);
      forall i | 0 <= i < |fields| - 1
        ensures ',' as int !in fields[1..][i]
      {
        assert fields[1..][i] == fields[i + 1];
      }
      SplitJoinedFields(fields[1..], rest);
      assert [fields[0]] + fields[1..] == fields;
    }
  }

  /** The number of commas in a text. */
  function CommaCount(s: seq<Byte>): nat {
    if |s| == 0 then 0 else (if s[0] == ',' as int then 1 else 0) + CommaCount(s[1..])
  }

  lemma {:induction false} CommaCountZero(s: seq<Byte>)
    requires ',' as int !in s
    ensures CommaCount(s) == 0
    decreases |s|
  {
    if |s| > 0 {
      assert s[0] in s;
      assert forall c :: c in s[1..] ==> c in s;
      CommaCountZero(s[1..]);
    }
  }

  lemma {:induction false} CommaCountSplit(a: seq<Byte>, b: seq<Byte>)
    requires ',' as int !in a
    ensures CommaCount(a + [',' as int] + b) == 1 + CommaCount(b)
    decreases |a|
  {
    if |a| == 0 {
      assert a + [',' as int] + b == [',' as int] + b;
      assert ([',' as int] + b)[1..] == b;
    } else {
      assert a[0] in a;
      assert forall c :: c in a[1..] ==> c in a;
      CommaCountSplit(a[1..], b);
      assert (a + [',' as int] + b)[1..] == a[1..] + [',' as int] + b;
    }
  }

  /** What Scenario_Load_Unit hands to Scenario_Create_Unit; the position is still packed. */
  datatype UnitRecord = UnitRecord(house: nat, unitType: nat, hitpoints: nat, position: nat, orientation: int, action: nat)

  /**
   * Scenario_Load_Unit: house, unit type, hitpoints, packed position and
   * orientation, each ended by a comma, then the action (which may hold
   * further commas). A missing comma or an unknown name gives no unit.
   */
  function LoadUnit(settings: seq<Byte>, look: Lookups): (r: Option<UnitRecord>)
    ensures CommaCount(settings) < 5 ==> r.None?
    ensures r.Some? ==> r.value.hitpoints < 0x1_0000 && r.value.position < 0x1_0000 && -128 <= r.value.orientation < 128
  {
    match SplitFields(settings, 5)
    case None => None
    case Some((f, action)) =>
      if look.house(f[0]).Some? && look.unit(f[1]).Some? && look.action(action).Some? then
        Some(UnitRecord(look.house(f[0]).value, look.unit(f[1]).value, ToUint16(Atoi(f[2])),
          ToUint16(Atoi(f[3])), ToInt8(Atoi(f[4])), look.action(action).value))
      else None
  }

  /** A unit record written out field by field reads back as those fields. */
  lemma LoadUnitOfFields(f: seq<seq<Byte>>, action: seq<Byte>, look: Lookups)
    requires |f| == 5
    requires forall i :: 0 <= i < 5 ==> ',' as int !in f[i]
    requires look.house(f[0]).Some? && look.unit(f[1]).Some? && look.action(action).Some?
    ensures LoadUnit(JoinFields(f, action), look) ==
      Some(UnitRecord(look.house(f[0]).value, look.unit(f[1]).value, ToUint16(Atoi(f[2])),
        ToUint16(Atoi(f[3])), ToInt8(Atoi(f[4])), look.action(action).value))
  {
    SplitJoinedFields(f, action);
  }

  /** A unit whose house, type or action is unknown is not created. */
  lemma LoadUnitNeedsNames(settings: seq<Byte>, look: Lookups)
    requires LoadUnit(settings, look).Some?
    ensures var f := SplitFields(settings, 5).value;
      look.house(f.0[0]).Some? && look.unit(f.0[1]).Some? && look.action(f.1).Some?
  {
  }

  /** The eight places a reinforcement can arrive at, in the order of their numbers. */
  const LocationNames: seq<seq<Byte>> := [
    Ascii("NORTH"), Ascii("EAST"), Ascii("SOUTH"), Ascii("WEST"),
    Ascii("AIR"), Ascii("VISIBLE"), Ascii("ENEMYBASE"), Ascii("HOMEBASE")]

  /** The location number of a name, compared without regard to case. */
  function LocationId(s: seq<Byte>): (r: Option<nat>)
    ensures r.Some? ==> r.value < |LocationNames| && EqualsIgnoreCase(s, LocationNames[r.value])
    ensures r.None? ==> forall k :: 0 <= k < |LocationNames| ==> !EqualsIgnoreCase(s, LocationNames[k])
  {
    LocationFrom(s, 0)
  }

  function LocationFrom(s: seq<Byte>, k: nat): (r: Option<nat>)
    requires k <= |LocationNames|
    ensures r.Some? ==> k <= r.value < |LocationNames| && EqualsIgnoreCase(s, LocationNames[r.value])
    ensures r.None? ==> forall j :: k <= j < |LocationNames| ==> !EqualsIgnoreCase(s, LocationNames[j])
    decreases |LocationNames| - k
  {
    if k == |LocationNames| then None
    else if EqualsIgnoreCase(s, LocationNames[k]) then Some(k)
    else LocationFrom(s, k + 1)
  }

  /** Each location name, in any case, reads as its own number. */
  lemma LocationNamesRead(k: nat)
    requires k < |LocationNames|
    ensures LocationId(LocationNames[k]) == Some(k)
  {
    var r := LocationId(LocationNames[k]);
    assert EqualsIgnoreCase(LocationNames[k], LocationNames[k]);
    assert r.Some?;
    LocationNamesDistinct(r.value, k);
  }

  /** No two location names are equal without regard to case. */
  lemma LocationNamesDistinct(i: nat, j: nat)
    requires i < |LocationNames| && j < |LocationNames|
    requires EqualsIgnoreCase(LocationNames[i], LocationNames[j])
    ensures i == j
  {
    var a, b := LocationNames[i], LocationNames[j];
    assert ToLower(a[0]) == ToLower(b[0]);
  }

  /** What Scenario_Load_Reinforcement hands to Scenario_Create_Reinforcement. */
  datatype ReinforcementRecord = ReinforcementRecord(index: nat, house: nat, unitType: nat, location: nat,
                                                     timeBetween: nat, repeat: bool)

  /**
   * Whether the delay field asks for a repeat: its last character is '+'.
   * For an empty field the source reads the NUL it wrote over the comma
   * before it, which is not '+'.
   */
  function Repeats(field: seq<Byte>): (b: bool)
    ensures b <==> EndsWith(field, ['+' as int])
  {
    |field| > 0 && field[|field| - 1] == '+' as int
  }

  /** `s` ends with `suffix`. */
  predicate EndsWith(s: seq<Byte>, suffix: seq<Byte>) {
    |suffix| <= |s| && s[|s| - |suffix|..] == suffix
  }

  /** The delay field counts units of six ticks; one tick is added, and the sum is kept in 16 bits. */
  function DelayTicks(delay: seq<Byte>): (t: nat)
    ensures t < 0x1_0000
    ensures 0 <= Atoi(delay) && Atoi(delay) * 6 + 1 < 0x1_0000 ==> t == Atoi(delay) * 6 + 1
  {
    ToUint16(Atoi(delay) * 6 + 1)
  }

  /**
   * Scenario_Load_Reinforcement: the key is the slot number (in 8 bits);
   * house, unit type and location, each ended by a comma, then the delay
   * in units of six ticks, plus one, in 16 bits.
   */
  function LoadReinforcement(key: seq<Byte>, settings: seq<Byte>, look: Lookups): (r: Option<ReinforcementRecord>)
    ensures CommaCount(settings) < 3 ==> r.None?
    ensures r.Some? ==> r.value.index < 0x100 && r.value.location < |LocationNames| && r.value.timeBetween < 0x1_0000
  {
    match SplitFields(settings, 3)
    case None => None
    case Some((f, delay)) =>
      if look.house(f[0]).Some? && look.unit(f[1]).Some? && LocationId(f[2]).Some? then
        Some(ReinforcementRecord(ToUint8(Atoi(key)), look.house(f[0]).value, look.unit(f[1]).value,
          LocationId(f[2]).value, DelayTicks(delay), Repeats(delay)))
      else None
  }

  /** A reinforcement written out field by field reads back as those fields. */
  lemma LoadReinforcementOfFields(key: seq<Byte>, f: seq<seq<Byte>>, delay: seq<Byte>, look: Lookups)
    requires |f| == 3
    requires forall i :: 0 <= i < 3 ==> ',' as int !in f[i]
    requires look.house(f[0]).Some? && look.unit(f[1]).Some? && LocationId(f[2]).Some?
    ensures LoadReinforcement(key, JoinFields(f, delay), look) ==
      Some(ReinforcementRecord(ToUint8(Atoi(key)), look.house(f[0]).value, look.unit(f[1]).value,
        LocationId(f[2]).value, DelayTicks(delay), Repeats(delay)))
  {
    SplitJoinedFields(f, delay);
    var r := LoadReinforcement(key, JoinFields(f, delay), look);
    assert SplitFields(JoinFields(f, delay), 3) == Some((f, delay));
  }

  /** A delay field ending in '+' repeats, and the delay counts six ticks per unit. */
  lemma ReinforcementDelay(key: seq<Byte>, house: seq<Byte>, unit: seq<Byte>, k: nat, n: nat, look: Lookups)
    requires ',' as int !in house && ',' as int !in unit
    requires look.house(house).Some? && look.unit(unit).Some?
    requires k < |LocationNames|
    requires n * 6 + 1 < 0x1_0000
    ensures var r := LoadReinforcement(key, JoinFields([house, unit, LocationNames[k]], Digits(n) + ['+' as int]), look);
      r.Some? && r.value.location == k && r.value.repeat && r.value.timeBetween == n * 6 + 1
  {
    var delay: seq<Byte> := Digits(n) + ['+' as int];
    var loc: seq<Byte> := LocationNames[k];
    var f: seq<seq<Byte>> := [house, unit, loc];
    RepeatedDelay(n);
    LocationNamesRead(k);
    LocationNamesHaveNoComma(k);
    forall i | 0 <= i < 3
      ensures ',' as int !in f[i]
    {
      if i == 0 {
        assert f[i] == house;
      } else if i == 1 {
        assert f[i] == unit;
      } else {
        assert f[i] == loc;
      }
    }
    LoadReinforcementOfFields(key, f, delay, look);
  }

  lemma RepeatedDelay(n: nat)
    requires n * 6 + 1 < 0x1_0000
    ensures DelayTicks(Digits(n) + ['+' as int]) == n * 6 + 1
    ensures Repeats(Digits(n) + ['+' as int])
    ensures !Repeats(Digits(n))
  {
    AtoiDigitsThen(n, ['+' as int]);
    var d := Digits(n);
    assert IsDigit(d[|d| - 1]);
  }

  lemma LocationNamesHaveNoComma(k: nat)
    requires k < |LocationNames|
    ensures ',' as int !in LocationNames[k]
  {
    var name := LocationNames[k];
    assert forall i :: 0 <= i < |name| ==> name[i] != ',' as int;
  }
}

=== FILE: seqs.dfy ===
/** Facts about sequences that the proofs elsewhere use as single steps. */
module Seqs {
  /** Concatenation is associative; stated once so that proofs need not rediscover it. */
  lemma AppendAssoc<T>(a: seq<T>, b: seq<T>, c: seq<T>)
    ensures a + b + c == a + (b + c)
  {
  }
}

=== FILE: string_table.dfy ===
/**
 * The game's string tables: Dune II's digram decompressor, the 0x1B escape
 * translator, trailing-whitespace trimming, boolean option parsing, and the
 * rule by which String_Load fills the global string slots.
 *
 * Buffers the source writes through pointers are returned as values; a
 * buffer that carries a NUL terminator is a `seq<Byte>` holding one.
 */
module StringTable {
  import opened Wrappers
  import opened CString
  import opened Seqs

  /*------------------------------------------------------------------
   * Digram decompression
   *------------------------------------------------------------------*/

  /** The 16 characters a compressed byte's bits 3..6 select. */
  const DecompressLeads: string :=
    " etainos" +
    "rlhcdupm"

  /** For each leading character, the 8 characters that may follow it (first half). */
  const DecompressFollowersLow: string :=
    "tasio wb" +
    " rnsdalm" +
    "h ieoras" +
    "nrtlc sy" +
    "nstcloer" +
    " dtgesio" +
    "nr ufmsw" +
    " tep.ica"

  /** The followers of the last eight leading characters. */
  const DecompressFollowersHigh: string :=
    "e oiadur" +
    " laeiyod" +
    "eia otru" +
    "etoakhlr" +
    " eiu,.oa" +
    "nsrctlai" +
    "leoiratp" +
    "eaoip bm"

  /** The 144-character table a compressed byte indexes into. */
  const DecompressText: string := DecompressLeads + DecompressFollowersLow + DecompressFollowersHigh

  lemma DecompressTableLength()
    ensures |DecompressText| == 144
  {
  }

  predicate TableChar(c: char) {
    'a' <= c <= 'z' || c == ' ' || c == ',' || c == '.'
  }

  /** The table holds only lower-case letters, spaces, commas and full stops. */
  lemma DecompressTableAlphabet()
    ensures forall c :: c in DecompressText ==> TableChar(c)
  {
    LeadsAlphabet();
    FollowersLowAlphabet();
    FollowersHighAlphabet();
  }

  lemma LeadsAlphabet()
    ensures forall c :: c in DecompressLeads ==> TableChar(c)
  {
  }

  lemma FollowersLowAlphabet()
    ensures forall c :: c in DecompressFollowersLow ==> TableChar(c)
  {
  }

  lemma FollowersHighAlphabet()
    ensures forall c :: c in DecompressFollowersHigh ==> TableChar(c)
  {
  }

  lemma PrintableCode(c: char)
    requires TableChar(c)
    ensures 0x20 <= (c as int) % 256 < 0x7F
  {
  }

  function TableByte(i: nat): Byte
    requires i < |DecompressText|
  {
    (DecompressText[i] as int) % 256
  }

  /** Every table entry is a printable character, so never NUL and never high. */
  lemma TableBytePrintable(i: nat)
    requires i < |DecompressText|
    ensures 0x20 <= TableByte(i) < 0x7F
  {
    DecompressTableAlphabet();
    assert DecompressText[i] in DecompressText;
    PrintableCode(DecompressText[i]);
  }

  predicate IsHigh(c: Byte) {
    c >= 0x80
  }

  /**
   * What one compressed byte becomes: a byte without the high bit is itself;
   * a byte with it names two table characters, the first by its bits 3..6 and
   * the second by its low seven bits plus 16.
   */
  function Expand(c: Byte): (r: seq<Byte>)
    ensures !IsHigh(c) ==> r == [c]
    ensures IsHigh(c) ==> (DecompressTableLength(); |r| == 2
      && r[0] == TableByte((c % 128) / 8)
      && r[1] == TableByte(c % 128 + 16))
    ensures NUL in r <==> c == NUL
  {
    DecompressTableLength();
    if c < 0x80 then [c]
    else
      var low := c - 0x80;
      assert low == c % 128;
      TableBytePrintable(low / 8);
      TableBytePrintable(low + 16);
      [TableByte(low / 8), TableByte(low + 16)]
  }

  /** How many bytes of `s` carry the high bit. */
  function HighCount(s: seq<Byte>): (n: nat)
    ensures n <= |s|
  {
    if |s| == 0 then 0 else (if IsHigh(s[0]) then 1 else 0) + HighCount(s[1..])
  }

  /** The decompressed content of the compressed C string content `s`. */
  function Decompress(s: seq<Byte>): (r: seq<Byte>)
    ensures |r| == |s| + HighCount(s)
    ensures |s| <= |r| <= 2 * |s|
    ensures NoNul(s) ==> NoNul(r)
    ensures HighCount(s) == 0 ==> r == s
  {
    if |s| == 0 then [] else Expand(s[0]) + Decompress(s[1..])
  }

  /** Decompression works byte by byte: it distributes over concatenation. */
  lemma {:induction false} DecompressAppend(a: seq<Byte>, b: seq<Byte>)
    ensures Decompress(a + b) == Decompress(a) + Decompress(b)
  {
    if |a| > 0 {
      assert (a + b)[0] == a[0];
      assert (a + b)[1..] == a[1..] + b;
      DecompressAppend(a[1..], b);
      var e := Expand(a[0]);
      assert Decompress(a + b) == e + Decompress(a[1..] + b);
      AppendAssoc(e, Decompress(a[1..]), Decompress(b));
    } else {
      assert a + b == b;
    }
  }

  lemma DecompressSnoc(s: seq<Byte>, i: nat)
    requires i < |s|
    ensures Decompress(s[..i + 1]) == Decompress(s[..i]) + Expand(s[i])
  {
    var a, c := s[..i], s[i];
    assert s[..i + 1] == a + [c];
    DecompressAppend(a, [c]);
    assert [c][1..] == [];
    assert Decompress([c]) == Expand(c) + Decompress([]);
    assert Expand(c) + [] == Expand(c);
  }

  /** What holds between iterations of the decompression loop. */
  predicate DecompressInvariant(source: seq<Byte>, text: seq<Byte>, dest: seq<Byte>, count: nat, i: nat) {
    && text == CStr(source) && |text| < |source|
    && i <= |text|
    && dest == Decompress(source[..i])
    && count == |dest|
  }

  /** The loop stops exactly when it reaches the terminator. */
  lemma DecompressAtTerminator(source: seq<Byte>, text: seq<Byte>, i: nat)
    requires text == CStr(source) && |text| < |source| && i <= |text|
    ensures source[i] == NUL <==> i == |text|
  {
    if i < |text| {
      assert source[i] == text[i];
    }
  }

  /** One iteration: one source byte, one or two destination bytes. */
  method DecompressStep(source: seq<Byte>, text: seq<Byte>, dest: seq<Byte>, count: nat, i: nat)
    returns (dest': seq<Byte>, count': nat)
    requires DecompressInvariant(source, text, dest, count, i) && i < |text|
    ensures DecompressInvariant(source, text, dest', count', i + 1)
  {
    var c := source[i];
    if c >= 0x80 {
      var low := c - 0x80;
      DecompressTableLength();
      var first := TableByte(low / 8);
      c := TableByte(low + 16);
      dest', count' := dest + [first, c], count + 2;
    } else {
      dest', count' := dest + [c], count + 1;
    }
    DecompressStepKeeps(source, text, dest, i, dest');
  }

  lemma DecompressStepKeeps(source: seq<Byte>, text: seq<Byte>, dest: seq<Byte>, i: nat, dest': seq<Byte>)
    requires DecompressInvariant(source, text, dest, |dest|, i) && i < |text|
    requires dest' == dest + Expand(source[i])
    ensures DecompressInvariant(source, text, dest', |dest'|, i + 1)
  {
    DecompressSnoc(source, i);
  }

  /**
   * String_Decompress on a NUL-terminated source buffer: the destination
   * receives the decompressed content and a terminator, and the returned
   * count is the number of characters written before that terminator.
   */
  method DecompressInto(source: seq<Byte>) returns (dest: seq<Byte>, count: nat)
    requires |CStr(source)| < |source|
    ensures dest == Decompress(CStr(source)) + [NUL]
    ensures count == |dest| - 1 && dest[count] == NUL && NoNul(dest[..count])
    ensures |CStr(source)| <= count <= 2 * |CStr(source)|
  {
    var text := CStr(source);
    dest := [];
    count := 0;
    var i: nat := 0;
    DecompressAtTerminator(source, text, i);
    while source[i] != NUL
      invariant DecompressInvariant(source, text, dest, count, i)
      invariant source[i] == NUL <==> i == |text|
      decreases |text| - i
    {
      dest, count := DecompressStep(source, text, dest, count, i);
      i := i + 1;
      DecompressAtTerminator(source, text, i);
    }
    assert source[..i] == text;
    assert NoNul(dest);
    dest := dest + [NUL];
    assert dest[..count] == dest[..|dest| - 1];
  }

  /*------------------------------------------------------------------
   * 0x1B escapes
   *------------------------------------------------------------------*/

  const Escape: Byte := 0x1B

  /** Every 0x1B in `s` is followed by the byte it escapes. */
  predicate EscapesClosed(s: seq<Byte>)
    decreases |s|
  {
    if |s| == 0 then true
    else if s[0] == Escape then |s| >= 2 && EscapesClosed(s[2..])
    else EscapesClosed(s[1..])
  }

  /** The number of escape pairs in `s`. */
  function EscapeCount(s: seq<Byte>): nat
    requires EscapesClosed(s)
    decreases |s|
  {
    if |s| == 0 then 0
    else if s[0] == Escape then 1 + EscapeCount(s[2..])
    else EscapeCount(s[1..])
  }

  /** The byte `0x1B b` stands for: 0x7F + b, in 8 bits. */
  function Extended(b: Byte): (r: Byte)
    ensures b <= 0x80 ==> r == 0x7F + b
    ensures b > 0x80 ==> r == b - 0x81
  {
    (0x7F + b) % 256
  }

  /** String_TranslateSpecial on C string content. */
  function TranslateSpecial(s: seq<Byte>): (r: seq<Byte>)
    requires EscapesClosed(s)
    ensures |r| == |s| - EscapeCount(s)
    ensures |r| <= |s|
    ensures Escape !in s ==> r == s
    decreases |s|
  {
    if |s| == 0 then []
    else if s[0] == Escape then [Extended(s[1])] + TranslateSpecial(s[2..])
    else [s[0]] + TranslateSpecial(s[1..])
  }

  /** Translation works pair by pair: it distributes over closed pieces. */
  lemma {:induction false} TranslateAppend(a: seq<Byte>, b: seq<Byte>)
    requires EscapesClosed(a) && EscapesClosed(b)
    ensures EscapesClosed(a + b)
    ensures TranslateSpecial(a + b) == TranslateSpecial(a) + TranslateSpecial(b)
    decreases |a|
  {
    if |a| == 0 {
      assert a + b == b;
    } else if a[0] == Escape {
      TranslateAppend(a[2..], b);
      TranslateAppendEscape(a, b);
    } else {
      TranslateAppend(a[1..], b);
      TranslateAppendPlain(a, b);
    }
  }

  lemma TranslateAppendEscape(a: seq<Byte>, b: seq<Byte>)
    requires |a| >= 2 && a[0] == Escape && EscapesClosed(a[2..] + b)
    ensures EscapesClosed(a + b)
    ensures TranslateSpecial(a + b) == [Extended(a[1])] + TranslateSpecial(a[2..] + b)
  {
    assert (a + b)[2..] == a[2..] + b;
  }

  lemma TranslateAppendPlain(a: seq<Byte>, b: seq<Byte>)
    requires |a| >= 1 && a[0] != Escape && EscapesClosed(a[1..] + b)
    ensures EscapesClosed(a + b)
    ensures TranslateSpecial(a + b) == [a[0]] + TranslateSpecial(a[1..] + b)
  {
    assert (a + b)[1..] == a[1..] + b;
  }

  lemma ClosedPrefixStep(s: seq<Byte>, i: nat)
    requires i < |s| && EscapesClosed(s[..i]) && EscapesClosed(s[i..])
    ensures s[i] != Escape ==> (EscapesClosed(s[..i + 1]) && EscapesClosed(s[i + 1..])
      && TranslateSpecial(s[..i + 1]) == TranslateSpecial(s[..i]) + [s[i]])
    ensures s[i] == Escape ==> (i + 1 < |s| && EscapesClosed(s[..i + 2]) && EscapesClosed(s[i + 2..])
      && TranslateSpecial(s[..i + 2]) == TranslateSpecial(s[..i]) + [Extended(s[i + 1])])
  {
    if s[i] != Escape {
      assert s[i..][1..] == s[i + 1..];
      assert [s[i]][1..] == [];
      assert EscapesClosed([s[i]]);
      TranslateAppend(s[..i], [s[i]]);
      assert s[..i] + [s[i]] == s[..i + 1];
    } else {
      assert s[i..][2..] == s[i + 2..];
      var pair := [s[i], s[i + 1]];
      assert pair[2..] == [];
      assert EscapesClosed(pair);
      assert TranslateSpecial(pair) == [Extended(s[i + 1])];
      TranslateAppend(s[..i], pair);
      assert s[..i] + pair == s[..i + 2];
    }
  }

  lemma TerminateAt(out: seq<Byte>, j: nat, t: seq<Byte>)
    requires j < |out| && out[..j] == t
    ensures out[j := NUL][..|t|] == t && out[j := NUL][|t|] == NUL
  {
    assert out[j := NUL][..j] == out[..j];
  }

  /** `out` still holds the original bytes from the read cursor on. */
  predicate UnreadFrom(out: seq<Byte>, buf: seq<Byte>, i: nat) {
    |out| == |buf| && forall k :: i <= k < |buf| ==> out[k] == buf[k]
  }

  /**
   * One read of the translation loop: take the byte under the read cursor
   * and, after 0x1B, the byte it escapes.
   */
  method ReadTranslated(out: seq<Byte>, buf: seq<Byte>, text: seq<Byte>, i: nat) returns (c: Byte, next: nat)
    requires text == CStr(buf) && UnreadFrom(out, buf, i) && i < |text|
    requires EscapesClosed(text[..i]) && EscapesClosed(text[i..])
    ensures i < next <= |text|
    ensures EscapesClosed(text[..next]) && EscapesClosed(text[next..])
    ensures TranslateSpecial(text[..next]) == TranslateSpecial(text[..i]) + [c]
  {
    ClosedPrefixStep(text, i);
    c := out[i];
    next := i + 1;
    if c == Escape {
      c := Extended(out[next]);
      next := next + 1;
    }
  }

  /** What holds between iterations of the in-place translation loop. */
  predicate InPlaceInvariant(buf: seq<Byte>, text: seq<Byte>, out: seq<Byte>, i: nat, j: nat) {
    && text == CStr(buf) && |text| < |buf|
    && j <= i <= |text|
    && EscapesClosed(text[..i]) && EscapesClosed(text[i..])
    && UnreadFrom(out, buf, i)
    && out[..j] == TranslateSpecial(text[..i])
  }

  /** The loop stops exactly when the read cursor reaches the terminator. */
  lemma AtTerminator(buf: seq<Byte>, text: seq<Byte>, out: seq<Byte>, i: nat, j: nat)
    requires InPlaceInvariant(buf, text, out, i, j)
    ensures out[i] == NUL <==> i == |text|
  {
    assert out[i] == buf[i];
    if i < |text| {
      assert buf[i] == text[i];
    }
  }

  /** One iteration: read a (possibly escaped) byte, write it at the write cursor. */
  method TranslateStep(buf: seq<Byte>, text: seq<Byte>, out: seq<Byte>, i: nat, j: nat)
    returns (out': seq<Byte>, i': nat, j': nat)
    requires InPlaceInvariant(buf, text, out, i, j) && i < |text|
    ensures InPlaceInvariant(buf, text, out', i', j') && i < i'
  {
    var c;
    c, i' := ReadTranslated(out, buf, text, i);
    assert out[j := c][..j + 1] == out[..j] + [c];
    out' := out[j := c];
    j' := j + 1;
  }

  /**
   * String_TranslateSpecial(buf, buf), as String_Load calls it: the write
   * cursor never passes the read cursor, so translating in place yields the
   * translation of the original content, NUL-terminated.
   */
  method TranslateSpecialInPlace(buf: seq<Byte>) returns (out: seq<Byte>)
    requires |CStr(buf)| < |buf|
    requires EscapesClosed(CStr(buf))
    ensures |out| == |buf|
    ensures var t := TranslateSpecial(CStr(buf)); out[..|t|] == t && out[|t|] == NUL
  {
    var text := CStr(buf);
    assert text[..0] == [] && text[0..] == text;
    out := buf;
    var i: nat := 0;
    var j: nat := 0;
    AtTerminator(buf, text, out, i, j);
    while out[i] != NUL
      invariant InPlaceInvariant(buf, text, out, i, j)
      invariant out[i] == NUL <==> i == |text|
      decreases |text| - i
    {
      out, i, j := TranslateStep(buf, text, out, i, j);
      AtTerminator(buf, text, out, i, j);
    }
    assert text[..i] == text;
    TerminateAt(out, j, TranslateSpecial(text));
    out := out[j := NUL];
  }

  /** String_TranslateSpecial as called: a NULL source or destination leaves the destination alone. */
  function TranslateSpecialCall(source: Option<seq<Byte>>, dest: Option<seq<Byte>>): (r: Option<seq<Byte>>)
    requires source.Some? ==> EscapesClosed(source.value)
    ensures source.None? || dest.None? ==> r == dest
    ensures source.Some? && dest.Some? ==> r.Some? && |r.value| == |source.value| - EscapeCount(source.value)
  {
    if source.None? || dest.None? then dest else Some(TranslateSpecial(source.value))
  }

  /*------------------------------------------------------------------
   * Trim and boolean parsing
   *------------------------------------------------------------------*/

  /** String_Trim: the content with its trailing whitespace cut off. */
  function Trim(s: seq<Byte>): (r: seq<Byte>)
    ensures r <= s
    ensures |r| == 0 || !IsSpace(r[|r| - 1])
    ensures forall i :: |r| <= i < |s| ==> IsSpace(s[i])
  {
    if |s| > 0 && IsSpace(s[|s| - 1]) then Trim(s[..|s| - 1]) else s
  }

  lemma TrimIdempotent(s: seq<Byte>)
    ensures Trim(Trim(s)) == Trim(s)
  {
  }

  /** Trimming keeps everything up to the last non-space byte. */
  lemma {:induction false} TrimKeepsText(s: seq<Byte>, i: nat)
    requires i < |s| && !IsSpace(s[i])
    ensures i < |Trim(s)|
    decreases |s|
  {
    if |s| > 0 && IsSpace(s[|s| - 1]) {
      TrimKeepsText(s[..|s| - 1], i);
    }
  }

  /** A first character String_GetBool reads as "true". */
  predicate IsTrueChar(c: Byte) {
    c == '1' as int || c == 't' as int || c == 'T' as int || c == 'y' as int || c == 'Y' as int
  }

  /** A first character String_GetBool reads as "false". */
  predicate IsFalseChar(c: Byte) {
    c == '0' as int || c == 'f' as int || c == 'F' as int || c == 'n' as int || c == 'N' as int
  }

  /**
   * String_GetBool: the new value of the flag `value` after reading `str`;
   * only its first character matters, and anything unrecognised keeps it.
   */
  function GetBool(str: Option<seq<Byte>>, value: bool): (r: bool)
    ensures str.Some? && |str.value| > 0 && IsTrueChar(str.value[0]) ==> r
    ensures str.Some? && |str.value| > 0 && IsFalseChar(str.value[0]) ==> !r
    ensures (str.None? || |str.value| == 0
      || (!IsTrueChar(str.value[0]) && !IsFalseChar(str.value[0]))) ==> r == value
  {
    if str.None? then value
    else
      var c := if |str.value| == 0 then NUL else str.value[0];
      if IsTrueChar(c) then true
      else if IsFalseChar(c) then false
      else value
  }

  /*------------------------------------------------------------------
   * String slots
   *------------------------------------------------------------------*/

  /** The string identifiers String_Load and String_Init refer to. */
  datatype StringIds = StringIds(
    carryall: nat,
    selectYourNextRegion: nat,
    pickAnotherHouse: nat,
    areYouSureNewHouse: nat,
    loadGame: nat,
    loadAGame: nat)

  /** Slots a later file may overwrite even when they already hold a string. */
  predicate IsOverridable(ids: StringIds, id: int) {
    (ids.carryall <= id <= ids.selectYourNextRegion)
    || id == ids.pickAnotherHouse || id == ids.areYouSureNewHouse
  }

  /** NULL or a string, per slot. */
  type Slots = seq<Option<seq<Byte>>>

  /** A slot the loop may write: empty, or holding an overridable string. */
  predicate Writable(ids: StringIds, slots: Slots, j: int)
    requires 0 <= j < |slots|
  {
    slots[j].None? || IsOverridable(ids, j)
  }

  /**
   * The slot-fill loop of String_Load as written: entry i goes to slot j;
   * an entry that trims to nothing is dropped without advancing j, and so is
   * an entry whose slot holds a string that may not be overridden.
   */
  function FillSlotsAsWritten(ids: StringIds, slots: Slots, entries: seq<seq<Byte>>, j: nat, end: int): (r: Slots)
    requires end < |slots|
    ensures |r| == |slots|
    ensures forall k :: 0 <= k < |slots| && r[k] != slots[k] ==>
      j <= k <= end && Writable(ids, slots, k) && r[k].Some? && |r[k].value| > 0 && r[k].value in entries
    decreases |entries|
  {
    if |entries| == 0 || j > end then slots
    else if slots[j].Some? && !IsOverridable(ids, j) then FillSlotsAsWritten(ids, slots, entries[1..], j, end)
    else if |entries[0]| == 0 then FillSlotsAsWritten(ids, slots, entries[1..], j, end)
    else FillSlotsAsWritten(ids, slots[j := Some(entries[0])], entries[1..], j + 1, end)
  }

  /**
   * The slot-fill loop with the protected-slot case corrected: the protected
   * slot keeps its string and the loop moves on to the next slot.
   */
  function FillSlots(ids: StringIds, slots: Slots, entries: seq<seq<Byte>>, j: nat, end: int): (r: Slots)
    requires end < |slots|
    ensures |r| == |slots|
    ensures forall k :: 0 <= k < |slots| && r[k] != slots[k] ==>
      j <= k <= end && Writable(ids, slots, k) && r[k].Some? && |r[k].value| > 0 && r[k].value in entries
    decreases |entries|
  {
    if |entries| == 0 || j > end then slots
    else if slots[j].Some? && !IsOverridable(ids, j) then FillSlots(ids, slots, entries[1..], j + 1, end)
    else if |entries[0]| == 0 then FillSlots(ids, slots, entries[1..], j, end)
    else FillSlots(ids, slots[j := Some(entries[0])], entries[1..], j + 1, end)
  }

  predicate NoEmpty(entries: seq<seq<Byte>>) {
    forall i :: 0 <= i < |entries| ==> |entries[i]| > 0
  }

  /**
   * With no empty entries, entry i lands in slot j + i whenever that slot is
   * in range and writable: one entry per slot, in order.
   */
  lemma {:induction false} FillSlotsPlacesEntries(ids: StringIds, slots: Slots, entries: seq<seq<Byte>>, j: nat, end: int)
    requires end < |slots| && NoEmpty(entries)
    ensures forall i :: 0 <= i < |entries| && j + i <= end && Writable(ids, slots, j + i) ==>
      FillSlots(ids, slots, entries, j, end)[j + i] == Some(entries[i])
  {
    forall i | 0 <= i < |entries| && j + i <= end && Writable(ids, slots, j + i)
      ensures FillSlots(ids, slots, entries, j, end)[j + i] == Some(entries[i])
    {
      FillSlotsPlacesEntry(ids, slots, entries, j, end, i);
    }
  }

  /** FillSlotsPlacesEntries for one entry. */
  lemma {:induction false} FillSlotsPlacesEntry(ids: StringIds, slots: Slots, entries: seq<seq<Byte>>, j: nat, end: int, i: nat)
    requires end < |slots| && NoEmpty(entries)
    requires i < |entries| && j + i <= end && Writable(ids, slots, j + i)
    ensures FillSlots(ids, slots, entries, j, end)[j + i] == Some(entries[i])
    decreases |entries|, 1
  {
    if slots[j].Some? && !IsOverridable(ids, j) {
      PlacesPastProtected(ids, slots, entries, j, end, i);
    } else {
      PlacesAfterWrite(ids, slots, entries, j, end, i);
    }
  }

  /** FillSlotsPlacesEntry when slot j is protected: the entry for it is dropped and slot j + 1 is next. */
  lemma {:induction false} PlacesPastProtected(ids: StringIds, slots: Slots, entries: seq<seq<Byte>>, j: nat, end: int, i: nat)
    requires end < |slots| && NoEmpty(entries)
    requires i < |entries| && j + i <= end && Writable(ids, slots, j + i)
    requires slots[j].Some? && !IsOverridable(ids, j)
    ensures FillSlots(ids, slots, entries, j, end)[j + i] == Some(entries[i])
    decreases |entries|, 0
  {
    var rest := entries[1..];
    assert NoEmpty(rest);
    assert FillSlots(ids, slots, entries, j, end) == FillSlots(ids, slots, rest, j + 1, end);
    assert rest[i - 1] == entries[i];
    FillSlotsPlacesEntry(ids, slots, rest, j + 1, end, i - 1);
  }

  /** FillSlotsPlacesEntry when slot j is writable: entry 0 goes there and slot j + 1 is next. */
  lemma {:induction false} PlacesAfterWrite(ids: StringIds, slots: Slots, entries: seq<seq<Byte>>, j: nat, end: int, i: nat)
    requires end < |slots| && NoEmpty(entries)
    requires i < |entries| && j + i <= end && Writable(ids, slots, j + i)
    requires !(slots[j].Some? && !IsOverridable(ids, j))
    ensures FillSlots(ids, slots, entries, j, end)[j + i] == Some(entries[i])
    decreases |entries|, 0
  {
    var rest := entries[1..];
    var next := slots[j := Some(entries[0])];
    assert |entries[0]| > 0;
    assert FillSlots(ids, slots, entries, j, end) == FillSlots(ids, next, rest, j + 1, end);
    if i == 0 {
      FillSlotsKeepsBelow(ids, next, rest, j + 1, end, j);
    } else {
      assert NoEmpty(rest);
      assert rest[i - 1] == entries[i];
      assert next[j + i] == slots[j + i];
      FillSlotsPlacesEntry(ids, next, rest, j + 1, end, i - 1);
    }
  }


  /** Slots before the start are never written. */
  lemma FillSlotsKeepsBelow(ids: StringIds, slots: Slots, entries: seq<seq<Byte>>, j: nat, end: int, k: nat)
    requires end < |slots| && k < j && k < |slots|
    ensures FillSlots(ids, slots, entries, j, end)[k] == slots[k]
  {
  }


  /**
   * As written, the fill gets stuck on a protected slot: an overridable slot
   * right after it is not filled even though an entry is available for it.
   */
  lemma FillSlotsAsWrittenStallsOnProtectedSlot()
    ensures var ids := StringIds(10, 20, 30, 31, 40, 41);
      var slots: Slots := [None, Some(Ascii("Old")), None];
      var entries: seq<seq<Byte>> := [Ascii("A"), Ascii("B")];
      && FillSlotsAsWritten(ids, slots, entries, 1, 2)[2] == None
      && FillSlots(ids, slots, entries, 1, 2)[2] == Some(Ascii("B"))
  {
    var ids := StringIds(10, 20, 30, 31, 40, 41);
    var slots: Slots := [None, Some(Ascii("Old")), None];
    var entries: seq<seq<Byte>> := [Ascii("A"), Ascii("B")];
    assert |entries[1..][1..]| == 0;
    assert FillSlotsAsWritten(ids, slots, entries, 1, 2)
      == FillSlotsAsWritten(ids, slots, entries[1..], 1, 2);
    assert FillSlots(ids, slots, entries, 1, 2)
      == FillSlots(ids, slots, entries[1..], 2, 2);
  }

  /**
   * Where no slot in range holds a protected string, the loop as written and
   * the corrected one fill the same slots.
   */
  lemma {:induction false} FillSlotsAsWrittenAgrees(ids: StringIds, slots: Slots, entries: seq<seq<Byte>>, j: nat, end: int)
    requires end < |slots|
    requires forall k :: j <= k <= end ==> Writable(ids, slots, k)
    ensures FillSlotsAsWritten(ids, slots, entries, j, end) == FillSlots(ids, slots, entries, j, end)
    decreases |entries|
  {
    if |entries| == 0 || j > end {
    } else if |entries[0]| == 0 {
      assert Writable(ids, slots, j);
      FillSlotsAsWrittenAgrees(ids, slots, entries[1..], j, end);
    } else {
      assert Writable(ids, slots, j);
      var next := slots[j := Some(entries[0])];
      assert forall k :: j + 1 <= k <= end ==> Writable(ids, next, k) by {
        forall k | j + 1 <= k <= end ensures Writable(ids, next, k) {
          assert Writable(ids, slots, k);
          assert next[k] == slots[k];
        }
      }
      FillSlotsAsWrittenAgrees(ids, next, entries[1..], j + 1, end);
    }
  }

  /**
   * A filled slot takes the next non-empty entry exactly when its string
   * may be overridden; otherwise it keeps its string.
   */
  lemma OverridableSlotReplaced(ids: StringIds, slots: Slots, entries: seq<seq<Byte>>, j: nat, end: int)
    requires j <= end < |slots|
    requires |entries| > 0 && |entries[0]| > 0 && slots[j].Some?
    ensures FillSlotsAsWritten(ids, slots, entries, j, end)[j] == (if IsOverridable(ids, j) then Some(entries[0]) else slots[j])
  {
    if IsOverridable(ids, j) {
      var next := slots[j := Some(entries[0])];
      assert FillSlotsAsWritten(ids, slots, entries, j, end) == FillSlotsAsWritten(ids, next, entries[1..], j + 1, end);
    } else {
      FillSlotsAsWrittenStuck(ids, slots, entries, j, end);
    }
  }

  /**
   * As written, once the slot index reaches a protected filled slot it stays
   * there: no slot changes from then on, whatever entries are left.
   */
  lemma {:induction false} FillSlotsAsWrittenStuck(ids: StringIds, slots: Slots, entries: seq<seq<Byte>>, j: nat, end: int)
    requires j <= end < |slots|
    requires slots[j].Some? && !IsOverridable(ids, j)
    ensures FillSlotsAsWritten(ids, slots, entries, j, end) == slots
    decreases |entries|
  {
    if |entries| > 0 {
      FillSlotsAsWrittenStuck(ids, slots, entries[1..], j, end);
    }
  }

  /** Little-endian 16-bit read at `at`. */
  function ReadLE16(buf: seq<Byte>, at: nat): nat
    requires at + 2 <= |buf|
  {
    buf[at] as int + 256 * buf[at + 1] as int
  }

  /**
   * A language file: a table of 16-bit offsets whose first entry, halved,
   * is the entry count, each offset pointing at a NUL-terminated string.
   */
  predicate WellFormedStringFile(file: seq<Byte>) {
    && |file| >= 2
    && 2 * (ReadLE16(file, 0) / 2) <= |file|
    && forall i :: 0 <= i < ReadLE16(file, 0) / 2 ==>
         ReadLE16(file, 2 * i) < |file| && NUL in file[ReadLE16(file, 2 * i)..]
  }

  function EntryCount(file: seq<Byte>): nat
    requires |file| >= 2
  {
    ReadLE16(file, 0) / 2
  }

  /** The raw text of entry i. */
  function RawEntry(file: seq<Byte>, i: nat): seq<Byte>
    requires WellFormedStringFile(file) && i < EntryCount(file)
  {
    CStr(file[ReadLE16(file, 2 * i)..])
  }

  /** The decoding applied to a compressed entry may leave escapes open. */
  predicate Decodable(raw: seq<Byte>, compressed: bool) {
    compressed ==> EscapesClosed(Decompress(raw))
  }

  /**
   * An entry as it would be stored: decompressed and translated when the
   * file is compressed, cut at the first NUL, and trimmed.
   */
  function DecodeEntry(raw: seq<Byte>, compressed: bool): (r: seq<Byte>)
    requires Decodable(raw, compressed)
    ensures NoNul(r)
    ensures |r| == 0 || !IsSpace(r[|r| - 1])
  {
    var text := if compressed then CStr(TranslateSpecial(Decompress(raw))) else CStr(raw);
    Trim(text)
  }

  predicate FileDecodable(file: seq<Byte>, compressed: bool)
    requires WellFormedStringFile(file)
  {
    forall i :: 0 <= i < EntryCount(file) ==> Decodable(RawEntry(file, i), compressed)
  }

  function DecodedEntries(file: seq<Byte>, compressed: bool): (r: seq<seq<Byte>>)
    requires WellFormedStringFile(file) && FileDecodable(file, compressed)
    ensures |r| == EntryCount(file)
  {
    seq(EntryCount(file), i requires 0 <= i < EntryCount(file) => DecodeEntry(RawEntry(file, i), compressed))
  }

  /** The slot table grown to hold `end`, new slots NULL and slot 0 never NULL. */
  function GrowSlots(slots: Slots, end: int): (r: Slots)
    ensures |r| == if |slots| < end + 1 then end + 1 else |slots|
    ensures forall k :: 0 <= k < |slots| && k > 0 ==> r[k] == slots[k]
    ensures forall k :: |slots| <= k < |r| && k > 0 ==> r[k].None?
    ensures |slots| < end + 1 ==> r[0] == (if |slots| > 0 && slots[0].Some? then slots[0] else Some([]))
  {
    if |slots| < end + 1 then
      var grown := slots + seq(end + 1 - |slots|, _ => None);
      if grown[0].None? then grown[0 := Some([])] else grown
    else slots
  }

  /**
   * String_Load for one language file: grow the table, then fill slots
   * start..end (end < 0 meaning "as many as the file has").
   */
  function StringLoad(ids: StringIds, slots: Slots, file: seq<Byte>, compressed: bool, start: nat, end: int): (r: Slots)
    requires WellFormedStringFile(file) && FileDecodable(file, compressed)
    ensures var last := if end < 0 then start + EntryCount(file) - 1 else end;
      |r| == if |slots| < last + 1 then last + 1 else |slots|
    ensures var last := if end < 0 then start + EntryCount(file) - 1 else end;
      forall k :: 0 < k < |r| && r[k] != Before(slots, k) ==>
        start <= k <= last && (k >= |slots| || Writable(ids, slots, k)) && r[k].Some? && |r[k].value| > 0
        && r[k].value in DecodedEntries(file, compressed)
    ensures var last := if end < 0 then start + EntryCount(file) - 1 else end;
      |slots| < last + 1 ==> r[0].Some?
  {
    var last := if end < 0 then start + EntryCount(file) - 1 else end;
    var grown := GrowSlots(slots, last);
    var r := FillSlotsAsWritten(ids, grown, DecodedEntries(file, compressed), start, last);
    assert forall k :: 0 < k < |grown| ==> grown[k] == Before(slots, k);
    r
  }

  /** What slot k held before a load: its string, or NULL for a slot the load adds. */
  function Before(slots: Slots, k: nat): Option<seq<Byte>> {
    if k < |slots| then slots[k] else None
  }

  /**
   * When no entry of the file trims to nothing and every slot the load may
   * touch is writable, entry i of the file ends up in slot start + i.
   */
  lemma StringLoadPlacesEntry(ids: StringIds, slots: Slots, file: seq<Byte>, compressed: bool, start: nat, end: int, i: nat)
    requires WellFormedStringFile(file) && FileDecodable(file, compressed)
    requires NoEmpty(DecodedEntries(file, compressed))
    requires 0 < start
    requires var last := if end < 0 then start + EntryCount(file) - 1 else end;
      forall k :: start <= k <= last && k < |slots| ==> Writable(ids, slots, k)
    requires var last := if end < 0 then start + EntryCount(file) - 1 else end;
      i < EntryCount(file) && start + i <= last
    ensures start + i < |StringLoad(ids, slots, file, compressed, start, end)|
    ensures StringLoad(ids, slots, file, compressed, start, end)[start + i] == Some(DecodedEntries(file, compressed)[i])
  {
    var last := if end < 0 then start + EntryCount(file) - 1 else end;
    var grown := GrowSlots(slots, last);
    var entries := DecodedEntries(file, compressed);
    forall k | start <= k <= last ensures Writable(ids, grown, k) {
      if k < |slots| {
        assert Writable(ids, slots, k);
      }
    }
    FillSlotsAsWrittenAgrees(ids, grown, entries, start, last);
    FillSlotsPlacesEntry(ids, grown, entries, start, last, i);
  }

  /** Only ' ' counts here, unlike Trim's whitespace. */
  predicate AllSpaces(s: seq<Byte>) {
    forall i :: 0 <= i < |s| ==> s[i] == ' ' as int
  }

  /**
   * The end of String_Init: a missing or all-blank "load game" string
   * becomes a copy of the "load a game" string.
   */
  function LoadGameFallback(ids: StringIds, slots: Slots): (r: Slots)
    requires ids.loadGame < |slots| && ids.loadAGame < |slots|
    requires slots[ids.loadGame].None? || AllSpaces(slots[ids.loadGame].value) ==> slots[ids.loadAGame].Some?
    ensures |r| == |slots|
    ensures forall k :: 0 <= k < |slots| && k != ids.loadGame ==> r[k] == slots[k]
    ensures slots[ids.loadGame].None? || AllSpaces(slots[ids.loadGame].value) ==> r[ids.loadGame] == slots[ids.loadAGame]
    ensures slots[ids.loadGame].Some? && !AllSpaces(slots[ids.loadGame].value) ==> r == slots
    ensures r[ids.loadGame].Some?
  {
    match slots[ids.loadGame]
    case None => slots[ids.loadGame := slots[ids.loadAGame]]
    case Some(s) =>
      if AllSpaces(s) then slots[ids.loadGame := slots[ids.loadAGame]] else slots
  }
}

=== FILE: wrappers.dfy ===
/** The optional value used for the source's NULL pointers and "not found" results. */
module Wrappers {

  datatype Option<+T> = None | Some(value: T)
}
